=== FILE: README.md ===
# Duty rotation scheduler: a Dafny model

This project models the core of a monthly duty-rotation scheduler. Groups of people
take turns: on every day of a month, each registered group sends one of its members.
Around the rotation engine sit:

- holiday ranges,
- a day classifier and a day-pricing service (regular, Friday, weekend, holiday and
  long-weekend middle days, each with a weight),
- an append-only assignment ledger that carries per-person running totals and derives
  fairness figures from them.

The engine exists in three generations:

- the legacy `Scheduler` (`backend/app/scheduler.py`, byte-identical to
  `scheduler/backend/app/scheduler.py`): only the "not on duty yesterday" rule and a
  least-recently-used choice, with a fixed minimum of two members per group;
- the in-memory `SchedulerService` (`scheduler/backend/app/services/scheduler.py`): adds
  per-person minimum and maximum days per month, exceptions for missing groups and people,
  and keeps the last generated schedule;
- the ledger-backed `SchedulerService` (`backend/app/services/scheduler.py`): the same
  rotation, bounds that are dropped together with their people, and one ledger record per
  (day, group) slot (as intended; the calls that price a record raise as written, see
  "Left out").

Modules, one per source concern:

| module | file | models |
|---|---|---|
| `Options` | options.dfy | `Option`, `Result` and a pass/fail `Outcome` |
| `Calendar` | calendar.dfy | dates as day ordinals (`date.toordinal()`), `weekday()`, `calendar.monthrange`, the year/month projection |
| `Holidays` | holidays.dfy | `Holiday` (`backend/app/models/holiday.py`) |
| `DayTypes` | day_types.dfy | the `DayType` enum, the default weight table, `is_weekend`, `is_friday`, `get_day_type` |
| `LongWeekends` | long_weekends.dfy | `LongWeekendService` |
| `DayWeights` | day_weights.dfy | `DayWeightService` as a class over its weight table |
| `AssignmentLedger` | ledger.dfy | `AssignmentHistoryService` as a class over a log of records, and its pure aggregations |
| `FairnessScores` | fairness.dfy | `FairnessMetrics` and its in-place `calculate_fairness_scores` |
| `Registry` | registry.dfy | the group registry shared by all generations: a Python dict as keys in insertion order plus a table |
| `Rotation` | rotation.dfy | the rotation rule as a specification: the month's (day, group) jobs and the fold that fills them |
| `RotationProperties` | rotation_props.dfy | what the rotation guarantees: coverage, membership, eligibility, bounds, no back-to-back duty |
| `ScheduleQueries` | schedule_queries.dfy | `get_person_schedule` |
| `LegacyScheduler` | legacy_scheduler.dfy | the legacy `Scheduler` class |
| `MemoryScheduler` | memory_scheduler.dfy | the in-memory `SchedulerService` class |
| `LedgerScheduler` | ledger_scheduler.dfy | the ledger-backed `SchedulerService` class |

How the model is built:

- **One specification, three implementations.** `Rotation.Run` is a pure fold over the
  jobs of a month: days 1..n, and within a day the groups in registration order. Each of
  the three `generate_monthly_schedule` methods is written as the source's nested
  day/group loops. Each is proved to produce exactly `Rotation.MonthSchedule`, or for the
  legacy class the same with no bounds and a minimum of two. The properties are then
  proved once, about the specification.
- **Dates.** A date is its Python ordinal, so `weekday()` is `(d - 1) % 7`. A schedule
  is keyed by day of the month. Within one month the source's `"%Y-%m-%d"` strings sort
  like their day numbers, and `last_scheduled` only ever compares strings from the same
  month.
- **Dicts.** A dict whose iteration order matters is an `OrderedMap`: its keys in
  insertion order plus a table. This covers the registry, the stored bounds and the
  constraint order of the minimum-days check.
- **Weights.** Weights and scores are `real`, so 1.0 + 2.0 = 3.0 and 3.5 − 1.0 = 2.5 hold
  exactly.

## Model

| member | source | states |
|---|---|---|
| Calendar.Weekday | backend/app/services/day_weight_service.py:76-96 | the weekday lies in 0..6 and is the ordinal minus one modulo 7, so ordinal 1 (a Monday) is 0 and Friday is 4 |
| Calendar.DaysInMonth | backend/app/scheduler.py:123 | a month has 28 to 31 days, and February has 29 exactly in a leap year |
| Calendar.OrdinalInMonth | backend/app/services/long_weekend_service.py:30 | the ordinal of (y, m, day) falls in month m of year y exactly when 1 <= day <= the month's length |
| Holidays.NewHoliday | backend/app/models/holiday.py:11-18 | building a holiday fails exactly when an end date is given and lies before the start; an end equal to the start is accepted |
| Holidays.GetDates | backend/app/models/holiday.py:24-35 | the day-by-day loop returns exactly the holiday's date list |
| Holidays.SpanAt | backend/app/models/holiday.py:29-35 | the walk from s to e has e − s + 1 dates (none when e < s), and date i is s + i |
| Holidays.SpanMember | backend/app/models/holiday.py:29-35 | a date is in the walk from s to e exactly when s <= d <= e |
| Holidays.DatesFacts | backend/app/models/holiday.py:24-35 | `get_dates` has end − start + 1 dates, starts at the start date, ends at the end date (the start for a one-day holiday), steps by exactly one day, and holds exactly the dates in between |
| Holidays.SingleDayDates | backend/app/models/holiday.py:26-27 | without an end date, or with end equal to start, the dates are exactly [start] |
| Holidays.DatesDistinct | backend/app/models/holiday.py:31-34 | the dates are strictly increasing, so none repeats |
| Holidays.MultiDayIff | backend/app/models/holiday.py:20-22 | `is_multi_day` holds exactly when `get_dates` has more than one date |
| DayTypes.DefaultWeight | backend/app/services/day_weight_service.py:12-18 | every default weight (1.0, 1.2, 1.5, 2.0, 2.5) is positive |
| DayTypes.WeekendFridayExclusive | backend/app/services/day_weight_service.py:76-96 | `is_weekend` is weekday 5 or 6, and no Friday is a weekend day |
| DayTypes.GetDayType | backend/app/services/day_weight_service.py:98-117 | a flagged holiday is HOLIDAY whatever the date; otherwise WEEKEND exactly on weekends and FRIDAY exactly on Fridays; never LONG_WEEKEND_MIDDLE |
| DayWeights.DayWeightService.constructor | backend/app/services/day_weight_service.py:10-18 | the table starts as the default table, and every weight is positive |
| DayWeights.DayWeightService.GetBaseWeight | backend/app/services/day_weight_service.py:21-30 | every day type has a weight, and it is positive |
| DayWeights.DayWeightService.SetWeight | backend/app/services/day_weight_service.py:32-44 | a weight <= 0 is rejected and the table is unchanged; otherwise only that type's entry changes, and the table stays all-positive |
| DayWeights.DayWeightService.CalculateWeight | backend/app/services/day_weight_service.py:46-74 | every date gets a positive price |
| DayWeights.NoHolidayWeight | backend/app/services/day_weight_service.py:46-74 | with no holidays, a date is priced at the base weight of `get_day_type(d, False)` |
| DayWeights.WeightMatchesClassification | backend/app/services/day_weight_service.py:46-74 | when at most one listed holiday covers a date, its price is the base weight of the type `analyze_period` gives it: middle day, then holiday, then weekend, then Friday, else regular |
| DayWeights.WeightPrecedence | backend/app/services/day_weight_service.py:46-74 | for any holiday list: a date strictly inside some holiday of three or more days costs the middle-day weight; otherwise a date some holiday covers costs the holiday weight; a date no holiday covers costs the weight of its calendar type |
| DayWeights.OverlapDisagrees | backend/app/services/long_weekend_service.py:96-111 | a long holiday listed before a one-day holiday on its second date: `calculate_weight` prices that date as a middle day, while `analyze_period` calls it HOLIDAY |
| DayWeights.OverlapExample | backend/app/services/day_weight_service.py:56-63 | Friday 29 March to Monday 1 April 2024 plus a one-day holiday on 30 March: 30 March costs 2.5 by `calculate_weight` and 2.0 by the `analyze_period` type |
| DayWeights.EasterExample | backend/app/services/day_weight_service.py:56-63 | for a four-day holiday from Friday 29 March 2024, 30 March is priced 2.5 as a middle day and the Friday 29 March is priced 2.0 as a holiday |
| DayWeights.SaturdayHolidayExample | backend/app/services/day_weight_service.py:61-63 | a Saturday holiday costs the holiday weight, not the weekend weight |
| LongWeekends.FindLongWeekends | backend/app/services/long_weekend_service.py:12-40 | the loop returns, in holiday order, the (first date, last date) pair of each holiday with at least three dates and a date in the month |
| LongWeekends.LongBoundsApart | backend/app/services/long_weekend_service.py:34-38 | a holiday with at least three dates has an end date, and its pair is at least two days apart |
| LongWeekends.LongWeekendsExact | backend/app/services/long_weekend_service.py:23-40 | a pair is reported exactly when it bounds a listed holiday that has at least three dates and a date in the month; there are at most as many pairs as holidays, each at least two days apart |
| LongWeekends.GetMiddleDays | backend/app/services/long_weekend_service.py:42-62 | the result is exactly the dates strictly between start and end: e − s − 1 of them, none when s >= e |
| LongWeekends.MiddleOfIff | backend/app/services/long_weekend_service.py:74-79 | d is a middle day of h exactly when h has at least three days and d lies strictly between its first and last dates, so endpoints and days of one- or two-day holidays never are |
| LongWeekends.IsMiddleDayIff | backend/app/services/long_weekend_service.py:64-79 | `is_middle_day` holds exactly when some listed holiday of three or more days has d strictly inside it |
| LongWeekends.LastCovering | backend/app/services/long_weekend_service.py:95-99 | the holiday the date map keeps for d covers d and is listed at a position after which no holiday covers d; there is none exactly when no holiday covers d |
| LongWeekends.HolidayIndex | backend/app/services/long_weekend_service.py:95-99 | the date map holds exactly the covered dates, each mapped to the last listed holiday covering it |
| LongWeekends.AnalyzePeriod | backend/app/services/long_weekend_service.py:81-124 | the result has exactly the dates start..end as keys (none when start > end), each with its classified type |
| LongWeekends.ClassifyPrecedence | backend/app/services/long_weekend_service.py:101-120 | a date no holiday covers gets its calendar type; a covered date is HOLIDAY or LONG_WEEKEND_MIDDLE; LONG_WEEKEND_MIDDLE implies `is_middle_day`; a covered date that is not a middle day is HOLIDAY |
| LongWeekends.LaterHolidayWins | backend/app/services/long_weekend_service.py:96-99 | a holiday appended to the list that covers d alone decides d's type |
| LongWeekends.NonCoveringKeeps | backend/app/services/long_weekend_service.py:96-99 | a holiday appended to the list that does not cover d changes neither the holiday kept for d nor d's type |
| LongWeekends.LastCoveringIsLast | backend/app/services/long_weekend_service.py:95-99 | a holiday covering d that no later-listed holiday covers is the one kept for d and decides d's type |
| FairnessScores.Cap | backend/app/models/assignment_history.py:63 | `min(1.0, x)` is at most 1 and at most x, and equals one of them |
| FairnessScores.Ratio | backend/app/models/assignment_history.py:62-67 | the capped ratio is at most 1, equals 1 exactly when the person is at or above the average, and is non-negative for a non-negative count |
| FairnessScores.RescoreBounded | backend/app/models/assignment_history.py:62-70 | with non-negative year-to-date values and scores in [0, 1], all three scores stay in [0, 1] |
| FairnessScores.RescoreIdempotent | backend/app/models/assignment_history.py:56-70 | recomputing with the same averages changes nothing further |
| FairnessScores.FullScoreIff | backend/app/models/assignment_history.py:62-70 | with positive averages, a component is 1 exactly when the person is at or above that average, and the overall score is 1 exactly when both are |
| FairnessScores.FairnessMetrics.constructor | backend/app/models/assignment_history.py:31-54 | a new record has every counter and score at 0 and no last assignment |
| FairnessScores.FairnessMetrics.CalculateFairnessScores | backend/app/models/assignment_history.py:56-70 | only the three scores change: none when the group has no assignments; a component only when its average is positive; the overall score becomes their mean |
| AssignmentLedger.LatestRecord | backend/app/services/assignment_history_service.py:20-28 | the latest record is the pair's newest record: it sits in the log at a position after which the pair has no record; there is none exactly when the pair has no record |
| AssignmentLedger.PersonStats | backend/app/services/assignment_history_service.py:75-98 | the regular, weekend and holiday counts are non-negative and add up to at most the total; Friday and long-weekend counts stay 0; the total is 0 exactly when the pair has no record |
| AssignmentLedger.NextRecordFrom | backend/app/services/assignment_history_service.py:30-45 | a new record carries the latest totals of its pair (zeros for a first record), bumped: total +1, regular +1 on a regular day, weighted + the weight |
| AssignmentLedger.LatestHoldsStats | backend/app/services/assignment_history_service.py:17-98 | in a consistent log, the pair's latest record carries exactly its `get_person_stats` totals; a pair without records has all-zero statistics |
| AssignmentLedger.LastHoldsStats | backend/app/services/assignment_history_service.py:17-98 | the last record of a consistent log is its pair's latest and carries its pair's statistics |
| AssignmentLedger.SkipOtherPair | backend/app/services/assignment_history_service.py:20-28 | a record of another pair changes neither a pair's latest record nor its statistics |
| AssignmentLedger.PersonStatsAppend | backend/app/services/assignment_history_service.py:75-98 | appending a record leaves every other pair's statistics alone and bumps its own pair's by that record |
| AssignmentLedger.ConsistentAppend | backend/app/services/assignment_history_service.py:42-61 | appending a record whose totals match its pair's new statistics keeps every record's totals matching |
| AssignmentLedger.NextRecordExtends | backend/app/services/assignment_history_service.py:31-45 | a first record of a pair has total 1, regular 1 exactly on a regular day, and weighted equal to its weight |
| AssignmentLedger.NextRecordCounters | backend/app/services/assignment_history_service.py:31-45 | the new record's totals are the pair's statistics before it, bumped by the record |
| AssignmentLedger.RecordTotalsBounded | backend/app/services/assignment_history_service.py:42-45 | in a consistent log every record has total at least 1 and 0 <= regular <= total |
| AssignmentLedger.GroupStats | backend/app/services/assignment_history_service.py:100-112 | one entry per person with a record in the group, each that person's statistics, with at least one assignment |
| AssignmentLedger.People | backend/app/services/assignment_history_service.py:102-107 | the distinct persons with a record in the group, each once |
| AssignmentLedger.SumSquares | backend/app/services/assignment_history_service.py:129 | a sum of squared deviations is non-negative |
| AssignmentLedger.MaxOf | backend/app/services/assignment_history_service.py:133-134 | `max` of the weighted scores, or of the counts, is one of them and no smaller than any |
| AssignmentLedger.MinOf | backend/app/services/assignment_history_service.py:133-134 | `min` of the weighted scores, or of the counts, is one of them and no larger than any |
| AssignmentLedger.VarianceNonNegative | backend/app/services/assignment_history_service.py:128-129 | the population variance is non-negative |
| AssignmentLedger.FairnessNonNegative | backend/app/services/assignment_history_service.py:114-139 | a group without records gets all-zero metrics; otherwise the variance and both max − min differences are non-negative |
| AssignmentLedger.VarianceOfEqualScores | backend/app/services/assignment_history_service.py:128-129 | the variance is 0 when all weighted scores are equal |
| AssignmentLedger.RecordTwiceExample | backend/app/services/assignment_history_service.py:31-45 | a regular day and then a holiday for one person give a second record with regular 1, weighted 3.0, total 2 |
| AssignmentLedger.FairnessExample | backend/app/services/assignment_history_service.py:114-139 | a holiday and a weekend day for one person and a regular day for another give max weighted difference 2.5, max total difference 1 and a positive variance of 1.5625 |
| AssignmentLedger.AssignmentHistoryService.constructor | backend/app/services/assignment_history_service.py:13-15 | the ledger starts empty |
| AssignmentLedger.AssignmentHistoryService.RecordAssignment | backend/app/services/assignment_history_service.py:17-73 | exactly one record is appended and earlier records are untouched; it carries the given person, group, date and type with the type's weight, and its totals equal the pair's statistics over the new log |
| Registry.Without | backend/app/scheduler.py:84 | `list.remove` drops the first occurrence and keeps the other elements in their order; on a duplicate-free list exactly the removed name disappears |
| Registry.OrderedMap.Put | backend/app/scheduler.py:17 | storing a key updates the table; an existing key keeps its position and a new key goes last |
| Registry.OrderedMap.Remove | backend/app/scheduler.py:98 | `del` of a present key removes exactly that key from the table, and the other keys keep their insertion order |
| Registry.AddMember | backend/app/scheduler.py:10-21 | the group is created last in the key order if missing, the person is appended only if absent, other groups are untouched, and member lists stay duplicate-free |
| Registry.RemoveMember | backend/app/scheduler.py:84 | exactly that person leaves that group's list, the remaining members keep their order, and other groups and the key order are unchanged |
| Registry.DeleteGroup | backend/app/scheduler.py:98 | exactly that group disappears; every other group keeps its members and its place in the registration order |
| Registry.AddGroups | backend/app/scheduler.py:32-40 | bulk group creation keeps the registry valid |
| Registry.AddGroupsGrows | backend/app/scheduler.py:32-40 | the old groups keep their members and order, and every id is present afterwards, new ones empty |
| Registry.AddGroupsReport | backend/app/scheduler.py:32-40 | the report has exactly one key per input id |
| Registry.AddGroupsReportCreated | backend/app/scheduler.py:33-39 | an id is reported True exactly when it was not registered and occurs once in the input (a repeated new id is reported False by its second turn) |
| Registry.AddGroupsLoop | backend/app/scheduler.py:32-40 | the loop computes that registry and that report |
| Registry.AddNames | backend/app/scheduler.py:59-63 | the new list is the old one plus the appended names; these are input names not already present, and no duplicates are introduced |
| Registry.AddBatchFacts | backend/app/scheduler.py:53-63 | one batch creates its group last when missing, leaves every other group alone, and appends exactly the names it reports |
| Registry.AddBatchNames | backend/app/scheduler.py:59-63 | after a batch the group holds its old members and all batch names; the reported names are batch names it did not hold |
| Registry.AddBatchNone | backend/app/scheduler.py:55-56 | a batch without names only creates its group when missing |
| Registry.AddPeople | backend/app/scheduler.py:42-68 | bulk people addition keeps the registry valid |
| Registry.AddPeopleGrows | backend/app/scheduler.py:42-68 | old groups keep their order and members as a prefix; each reported group gained exactly its reported names at its end, in input order; unreported groups are unchanged; every batch name ends up in its group |
| Registry.RemoveKeys | backend/app/services/scheduler.py:272-275 | deleting the constraints of the listed people removes exactly those keys |
| Rotation.Eligible | scheduler/backend/app/services/scheduler.py:227-240 | the eligible members are the members not on duty the day before and below their maximum |
| Rotation.BelowMinOf | scheduler/backend/app/services/scheduler.py:284-289 | the minimum-day candidates are exactly the candidates still short of their minimum |
| Rotation.FirstNever | scheduler/backend/app/services/scheduler.py:301-303 | the position of the first never-scheduled candidate: all before it were scheduled, and it was not |
| Rotation.Oldest | scheduler/backend/app/services/scheduler.py:305-308 | `min` by last date: a candidate with the earliest last date, and every earlier candidate's date is strictly later (ties go to the first) |
| Rotation.PickLeastRecent | scheduler/backend/app/services/scheduler.py:301-308 | the pick is a candidate; it is never scheduled whenever some candidate is; otherwise its last date is the earliest |
| Rotation.SelectPerson | scheduler/backend/app/services/scheduler.py:267-308 | `_select_person` returns a candidate, and one short of its minimum whenever some candidate is |
| Rotation.SelectUnconstrained | scheduler/backend/app/services/scheduler.py:300-308 | with no bounds `_select_person` is the plain least-recently-used rule |
| Rotation.DayJobs | scheduler/backend/app/services/scheduler.py:226 | a day's jobs are its groups, in registration order |
| Rotation.JobsLength | backend/app/services/scheduler.py:319-360 | a month has num_days × number of groups slots, one ledger record each |
| Rotation.JobsInRange | scheduler/backend/app/services/scheduler.py:222-226 | every job is on a day 1..n and for a registered group, in non-decreasing day order |
| Rotation.JobsComplete | scheduler/backend/app/services/scheduler.py:222-226 | every (day, group) pair of the month is a job |
| Rotation.JobsDistinct | scheduler/backend/app/services/scheduler.py:222-226 | with distinct group ids no (day, group) pair is a job twice |
| Rotation.Candidates | scheduler/backend/app/services/scheduler.py:227-243 | the candidates are non-empty members of the group, the eligible ones or else every member |
| Rotation.Choose | scheduler/backend/app/services/scheduler.py:227-245 | the person chosen for a job is a member of its group |
| Rotation.StepFields | scheduler/backend/app/services/scheduler.py:245-248 | one job appends the chosen person's slot, sets their last day to this day and adds one to their count |
| Rotation.Run | scheduler/backend/app/services/scheduler.py:222-250 | the run fills one slot per job |
| Rotation.SlotChoice | scheduler/backend/app/services/scheduler.py:227-248 | slot k is the choice for job k given the last days and counts of the slots before it, and records whether it fell back |
| Rotation.RunTracks | scheduler/backend/app/services/scheduler.py:219-248 | after a run each person's count is the number of slots they hold and their last day is the day of their latest slot |
| Rotation.ScheduleDays | scheduler/backend/app/services/scheduler.py:246-250 | a day has an entry exactly when some slot is on it |
| Rotation.ScheduleFilled | scheduler/backend/app/services/scheduler.py:246-250 | every slot's day has an entry for the slot's group |
| Rotation.ScheduleEntries | scheduler/backend/app/services/scheduler.py:246-250 | every entry is the person of some slot for that day and group |
| Rotation.EmptyGroupIds | scheduler/backend/app/services/scheduler.py:204 | the ids listed in the error are exactly the registered groups without members |
| Rotation.EmptyGroupIdsInOrder | scheduler/backend/app/services/scheduler.py:204 | with distinct group ids, the ids listed in the error appear in registration order |
| Rotation.FirstSmallGroup | scheduler/backend/app/services/scheduler.py:210-215 | the group named in the error is the first in registration order below the minimum; there is none exactly when all groups reach it |
| Rotation.Precheck | scheduler/backend/app/services/scheduler.py:200-215 | the checks pass exactly when there are groups and every group is non-empty and reaches the minimum; no groups gives NoGroups; otherwise the error names the empty groups or the first small group |
| Rotation.MonthFeasible | scheduler/backend/app/services/scheduler.py:200-215 | after passing checks every job of the month has a non-empty group |
| Rotation.FirstUnmet | scheduler/backend/app/services/scheduler.py:254-262 | the first constrained person short of their minimum, in constraint order; none exactly when every minimum is met |
| Rotation.Generate | scheduler/backend/app/services/scheduler.py:184-265 | a successful generation passed the checks, had a valid month, and left no constrained person short of their minimum |
| Rotation.MonthScheduleUnconstrained | backend/app/scheduler.py:101-176 | without bounds, passing checks and a valid month always give the schedule of the run |
| Rotation.MonthSchedulePrecheckFails | scheduler/backend/app/services/scheduler.py:200-215 | a failed check is the outcome, before any day is scheduled, whatever the bounds |
| Rotation.MonthScheduleInvalidDate | scheduler/backend/app/services/scheduler.py:217-223 | an invalid year or month fails after the checks, whatever the bounds |
| Rotation.MonthScheduleSucceeded | scheduler/backend/app/services/scheduler.py:184-265 | a successful month passed its checks, has a valid date, and returns the schedule of its run |
| Rotation.MonthScheduleRan | scheduler/backend/app/services/scheduler.py:253-265 | after the checks, the first constrained person short of their minimum fails the month with their minimum and count; otherwise the run's schedule is returned |
| RotationProperties.RunMatchesJobs | scheduler/backend/app/services/scheduler.py:226-246 | slot k is on job k's day, for job k's group, and filled by a member of that group |
| RotationProperties.SlotEligible | scheduler/backend/app/services/scheduler.py:227-245 | a slot that did not fall back went to someone not on duty the day before and below their maximum, judged on the earlier slots |
| RotationProperties.SlotFallback | scheduler/backend/app/services/scheduler.py:242-243 | a slot falls back only when every member of its group was on duty the day before or at their maximum |
| RotationProperties.MaxRespected | scheduler/backend/app/services/scheduler.py:236-238 | when no slot fell back, nobody holds more slots than their maximum |
| RotationProperties.UnmetMinimumIff | scheduler/backend/app/services/scheduler.py:253-262 | the month fails for an unmet minimum exactly when some constrained person holds fewer slots than their minimum; the error names the first in constraint order with their minimum and slot count |
| RotationProperties.MonthDays | scheduler/backend/app/services/scheduler.py:222-250 | the schedule has an entry for exactly the days 1..days in the month |
| RotationProperties.MonthMembers | scheduler/backend/app/services/scheduler.py:226-250 | every entry is for a registered group and names one of its members |
| RotationProperties.MonthGroups | scheduler/backend/app/services/scheduler.py:224-250 | every scheduled day has an entry for exactly the registered groups, each a member of its group |
| RotationProperties.MonthEntryPresent | scheduler/backend/app/services/scheduler.py:246 | a scheduled day has an entry for each registered group |
| RotationProperties.MonthSlotsDistinct | scheduler/backend/app/services/scheduler.py:222-246 | no two slots of a month are for the same day and group |
| RotationProperties.MonthSlotEntry | scheduler/backend/app/services/scheduler.py:246-250 | every slot of the month is on a day of the month, and its person is the schedule's entry for that day and group |
| RotationProperties.NoBackToBack | scheduler/backend/app/services/scheduler.py:227-233 | when no slot fell back, nobody holds slots on two consecutive days |
| RotationProperties.NoFallback | backend/app/scheduler.py:137-148 | with disjoint groups of at least two distinct members and no maximum, no slot of the month falls back |
| RotationProperties.MonthNoBackToBack | backend/app/scheduler.py:104-148 | under the same conditions nobody holds slots of the month on two consecutive days |
| RotationProperties.NoConsecutiveDays | backend/app/scheduler.py:104-106 | the same, read off the schedule: nobody is on duty on day d and day d + 1 |
| RotationProperties.OverlapRunStart | backend/app/scheduler.py:130-165 | groups a = [p, q] then b = [p, r]: the first four slots go to p, r, q and then p again for b on day 2, the last one by falling back |
| RotationProperties.OverlapRunSlots | backend/app/scheduler.py:125-171 | for that registry and any month of two or more days, p holds a's slot on day 1 and b's slot on day 2 |
| RotationProperties.OverlapBackToBack | backend/app/scheduler.py:101-176 | that registry passes the checks for a minimum of two, and its schedule for any valid month has p on duty on days 1 and 2, against the docstring at line 106 |
| RotationProperties.PairRun | scheduler/backend/app/scheduler.py:137-171 | a single group [a, b] without bounds alternates a, b, a, b, … and never falls back |
| RotationProperties.PairPrecheck | scheduler/backend/app/scheduler.py:109-120 | a single group of two members passes the checks for a minimum of two or less |
| RotationProperties.PairAlternates | scheduler/backend/app/scheduler.py:130-173 | for a single group [a, b] and a valid month, the schedule has a on every odd day and b on every even day |
| ScheduleQueries.Insert | scheduler/backend/app/services/scheduler.py:331 | inserting a day keeps the list strictly increasing and adds exactly that day |
| ScheduleQueries.PersonDays | scheduler/backend/app/services/scheduler.py:327-331 | the result is increasing and holds exactly the days on which the person holds some group's slot |
| LegacyScheduler.EligibleMembers | backend/app/scheduler.py:137-143 | the eligible list is the members not on duty the day before, in member order |
| LegacyScheduler.LeastRecent | backend/app/scheduler.py:150-165 | the loop with `break` and strict `<` picks the first never-scheduled member, else the first with the earliest last date: the least-recently-used rule |
| LegacyScheduler.LegacyChoice | backend/app/scheduler.py:137-165 | the legacy pick is the rotation's choice with no bounds |
| LegacyScheduler.PickMember | backend/app/scheduler.py:136-165 | one group's pick equals the rotation's choice with no bounds |
| LegacyScheduler.FillSlot | backend/app/scheduler.py:135-171 | one group's pass records the pick as the run's next slot, in the day's entries and the last days |
| LegacyScheduler.FillDay | backend/app/scheduler.py:135-171 | the group loop extends the run by the day's jobs |
| LegacyScheduler.FillNextDay | backend/app/scheduler.py:130-173 | one day's pass extends the month's run and schedule by that day |
| LegacyScheduler.FillMonth | backend/app/scheduler.py:125-173 | the day loop returns the schedule of the rotation run with no bounds |
| LegacyScheduler.GenerateMonth | backend/app/scheduler.py:108-176 | the checks with a minimum of two, then the loops, compute exactly the rotation's outcome |
| LegacyScheduler.AddBatchLoop | backend/app/scheduler.py:53-63 | the inner loop computes one batch's registry and appended names |
| LegacyScheduler.AddItem | backend/app/scheduler.py:52-66 | one batch advances the registry and report to those of the batches so far |
| LegacyScheduler.Scheduler.constructor | backend/app/scheduler.py:6-8 | empty registry, empty schedule |
| LegacyScheduler.Scheduler.AddPersonToGroup | backend/app/scheduler.py:10-21 | the registry becomes `AddMember` of the old one; the schedule is unchanged |
| LegacyScheduler.Scheduler.BulkAddGroups | backend/app/scheduler.py:23-40 | every id becomes present, absent ids created empty; the report has one key per id, True exactly for ids that were absent and occur once |
| LegacyScheduler.Scheduler.BulkAddPeopleToGroups | backend/app/scheduler.py:42-68 | the registry and report are those of the batches in order: per group the newly appended names, groups with none omitted |
| LegacyScheduler.Scheduler.RemovePersonFromGroup | backend/app/scheduler.py:70-85 | True exactly when the group holds the person, and then exactly that member is removed; otherwise nothing changes |
| LegacyScheduler.Scheduler.DeleteGroup | backend/app/scheduler.py:87-99 | True exactly when the group exists, and then exactly that group is deleted; otherwise nothing changes |
| LegacyScheduler.Scheduler.GenerateMonthlySchedule | backend/app/scheduler.py:101-176 | the result is the rotation's outcome with no bounds and a minimum of two; a success replaces the stored schedule, an error keeps it |
| LegacyScheduler.Scheduler.GetPersonSchedule | backend/app/scheduler.py:182-188 | the sorted days on which the person is on duty in the stored schedule |
| MemoryScheduler.CheckPerson | scheduler/backend/app/services/scheduler.py:35-39 | a blank name is rejected first; otherwise a minimum above the maximum; otherwise the person passes |
| MemoryScheduler.Names | scheduler/backend/app/services/scheduler.py:104-113 | the names kept from a batch are exactly its non-blank names |
| MemoryScheduler.NamesOf | scheduler/backend/app/services/scheduler.py:97-113 | each batch keeps its group and its non-blank names |
| MemoryScheduler.PutLimits | scheduler/backend/app/services/scheduler.py:115-119 | storing a batch's bounds keeps the constraint table valid |
| MemoryScheduler.PutAllLimits | scheduler/backend/app/services/scheduler.py:97-119 | storing all batches' bounds keeps the constraint table valid |
| MemoryScheduler.PutLimitsDomain | scheduler/backend/app/services/scheduler.py:111-119 | a batch stores bounds for exactly its non-blank names, without a min <= max check, and leaves everyone else's bounds alone |
| MemoryScheduler.PutLimitsLast | scheduler/backend/app/services/scheduler.py:115-119 | a name's stored bounds are those of its last entry in the batch |
| MemoryScheduler.AddEntriesLoop | scheduler/backend/app/services/scheduler.py:99-128 | the inner loop creates the group, skips blank names, stores bounds and appends absent names: one batch's registry, appended names and bounds |
| MemoryScheduler.AddItem | scheduler/backend/app/services/scheduler.py:97-131 | one batch advances the registry, report and bounds to those of the batches so far |
| MemoryScheduler.PickMember | scheduler/backend/app/services/scheduler.py:227-245 | one group's pick equals the rotation's choice |
| MemoryScheduler.FillSlot | scheduler/backend/app/services/scheduler.py:226-248 | one group's pass records the pick as the run's next slot, in the day's entries, the last days and the counts |
| MemoryScheduler.FillDay | scheduler/backend/app/services/scheduler.py:226-248 | the group loop extends the run by the day's jobs |
| MemoryScheduler.FillNextDay | scheduler/backend/app/services/scheduler.py:222-250 | one day's pass extends the month's run and schedule by that day |
| MemoryScheduler.FillMonth | scheduler/backend/app/services/scheduler.py:217-251 | the day loop returns the run's schedule and assignment counts |
| MemoryScheduler.FindUnmet | scheduler/backend/app/services/scheduler.py:253-262 | the loop finds the first constrained person short of their minimum, in constraint order |
| MemoryScheduler.GenerateMonth | scheduler/backend/app/services/scheduler.py:198-262 | the checks, loops and minimum check compute exactly the rotation's outcome |
| MemoryScheduler.SchedulerService.constructor | scheduler/backend/app/services/scheduler.py:17-21 | empty registry, bounds and schedule; the minimum group size is a parameter |
| MemoryScheduler.SchedulerService.AddPersonToGroup | scheduler/backend/app/services/scheduler.py:23-56 | a blank name or a minimum above the maximum is an error and changes nothing; otherwise the person's bounds are overwritten and they join the group once |
| MemoryScheduler.SchedulerService.BulkAddGroups | scheduler/backend/app/services/scheduler.py:58-80 | every id becomes present, absent ids created empty; True exactly for ids that were absent and occur once; existing members are untouched |
| MemoryScheduler.SchedulerService.BulkAddPeopleToGroups | scheduler/backend/app/services/scheduler.py:82-133 | blank names are skipped; the registry and report are those of the batches, per group the newly appended names, groups with none omitted; the bounds of every kept entry are stored without a min <= max check |
| MemoryScheduler.SchedulerService.RemovePersonFromGroup | scheduler/backend/app/services/scheduler.py:135-160 | a missing group, then a missing member, is its error and changes nothing; otherwise exactly that member is removed; the bounds are never touched |
| MemoryScheduler.SchedulerService.DeleteGroup | scheduler/backend/app/services/scheduler.py:162-182 | a missing group is an error; otherwise exactly that group is deleted; the bounds are never touched |
| MemoryScheduler.SchedulerService.GenerateMonthlySchedule | scheduler/backend/app/services/scheduler.py:184-265 | the result is the rotation's outcome; the stored schedule is replaced only on success |
| MemoryScheduler.SchedulerService.GetSchedule | scheduler/backend/app/services/scheduler.py:310-316 | nothing while no schedule is stored, otherwise the stored schedule |
| MemoryScheduler.SchedulerService.GetPersonSchedule | scheduler/backend/app/services/scheduler.py:318-331 | the sorted days on which the person holds some group's slot |
| LedgerScheduler.AsWrittenDayType | backend/app/services/scheduler.py:349 | as called, any non-empty holiday list makes every day a HOLIDAY |
| LedgerScheduler.AsWrittenDayTypeWrong | backend/app/services/scheduler.py:349 | with a holiday on Monday 1 January 2024 only, the plain Tuesday 2 January is recorded as HOLIDAY although no holiday covers it |
| LedgerScheduler.SlotDayType | backend/app/services/scheduler.py:349 | the corrected day type is HOLIDAY exactly when some holiday covers the date, and never LONG_WEEKEND_MIDDLE |
| LedgerScheduler.SlotDayTypePriced | backend/app/services/scheduler.py:349-355 | away from long-weekend middle days, the recorded type is the type the date is priced by |
| LedgerScheduler.LogAfter | backend/app/services/scheduler.py:348-360 | recording the slots appends exactly one record per slot |
| LedgerScheduler.LogAfterConsistent | backend/app/services/scheduler.py:348-360 | recording keeps the earlier records and keeps every record's running totals equal to its pair's statistics |
| LedgerScheduler.LogAfterAt | backend/app/services/scheduler.py:350-360 | the record for slot k carries that slot's person, group, date and day type, in day-then-group order |
| LedgerScheduler.MonthLog | backend/app/services/scheduler.py:280-376 | with the weight calls repaired (see "Left out"): failed checks or an invalid month leave the ledger alone; otherwise it grows by the run's records, also when a minimum is then found unmet |
| LedgerScheduler.MonthLogRan | backend/app/services/scheduler.py:319-360 | a month that passed its checks logs one record per slot of its run |
| LedgerScheduler.MonthLogMatchesSchedule | backend/app/services/scheduler.py:344-362 | each new record of a successful month is dated in that month, and the schedule has that record's person on duty for its group on that day |
| LedgerScheduler.RecordSlot | backend/app/services/scheduler.py:348-360 | one `record_assignment` call appends the slot's record |
| LedgerScheduler.RecordDay | backend/app/services/scheduler.py:324-360 | the group loop extends the run by the day's jobs and the ledger by their records |
| LedgerScheduler.RecordNextDay | backend/app/services/scheduler.py:319-363 | one day's pass extends the run, schedule and ledger by that day |
| LedgerScheduler.RecordMonth | backend/app/services/scheduler.py:314-363 | the day loop returns the run's schedule and counts, and the ledger holds one record per slot of the run |
| LedgerScheduler.GenerateMonth | backend/app/services/scheduler.py:297-374 | the result is the rotation's outcome and the ledger is the month's log |
| LedgerScheduler.DropLimits | backend/app/services/scheduler.py:272-275 | the loop drops exactly the listed people's bounds |
| LedgerScheduler.SchedulerService.constructor | backend/app/services/scheduler.py:29-36 | empty registry and bounds, writing to the given ledger |
| LedgerScheduler.SchedulerService.AddPersonToGroup | backend/app/services/scheduler.py:76-109 | a blank name or a minimum above the maximum is an error and changes nothing; otherwise the bounds are overwritten and the person joins the group once |
| LedgerScheduler.SchedulerService.BulkAddGroups | backend/app/services/scheduler.py:111-142 | returns True; every absent id is created empty in input order, existing groups are untouched |
| LedgerScheduler.SchedulerService.RemovePersonFromGroup | backend/app/services/scheduler.py:235-256 | False with nothing changed when the group or member is missing; otherwise exactly that member is removed and their bounds dropped |
| LedgerScheduler.SchedulerService.DeleteGroup | backend/app/services/scheduler.py:258-278 | False with nothing changed when the group is missing; otherwise the group is deleted and the bounds of all its members dropped |
| LedgerScheduler.SchedulerService.GenerateMonthlySchedule | backend/app/services/scheduler.py:280-376 | the result is the rotation's outcome; with the weight calls repaired (see "Left out"), the ledger grows by one record per slot whenever the rotation ran; nothing is stored in the service |

## Left out

- Databases: every SQLAlchemy query, `add`, `commit`, `rollback` and `refresh`. This includes `_load_from_database`, the database halves of the ledger service's `bulk_add_groups`, and its database-read `get_schedule` and `get_person_schedule`. The ledger is a sequence of records held by `AssignmentHistoryService`.
- The ledger service's `bulk_add_people_to_groups` (backend/app/services/scheduler.py:144-233) is not modelled. Its outcome depends on database lookups, since a group missing from the database is an error.
- Logging, settings loading and the exception classes. Errors are values of `ServiceError`, `ScheduleError`, `HolidayError` and `WeightError`.
- Floating point: weights, sums and scores are exact reals.
- AssignmentLedger.FairnessMetrics: returns the population variance, not its square root (`** 0.5`).
- `min_group_members` is read from the settings, but the settings module does not define it. Both services take it as a constructor parameter, and the legacy class uses its fixed 2.
- The ledger service's generation as written raises on its first slot whenever the checks pass. `calculate_weight(date_obj, day_type)` (backend/app/services/scheduler.py:355) hands the `DayType` string enum to `is_middle_day`, which iterates its characters and calls `get_dates` on the first one (backend/app/services/long_weekend_service.py:74-75), an `AttributeError`. Past that, `record_assignment` calls `calculate_weight` with a `day_type=` keyword it does not accept (backend/app/services/assignment_history_service.py:36-39), a `TypeError`. So the source never records anything. `LedgerScheduler.MonthLog`, `LedgerScheduler.SchedulerService.GenerateMonthlySchedule` and the ledger methods model what the code evidently intends: each slot is recorded with its day type and that type's default base weight.
- `str(group_id)`: group ids are strings throughout.
- Dates:
  - They are day ordinals, and a schedule is keyed by day of the month, not by `"%Y-%m-%d"` strings.
  - A year or month Python's `datetime` rejects yields `InvalidDate`.
  - Dates beyond Python's range (0001-01-01 to 9999-12-31) are ordinary integers here. `Holidays.GetDates` does not raise the `ValueError` of `date.fromordinal` (backend/app/models/holiday.py:34) for a multi-day holiday ending on 9999-12-31, and `LongWeekends.AnalyzePeriod` does not raise the `OverflowError` of `current += timedelta(days=1)` (backend/app/services/long_weekend_service.py:122) for a period ending on that day. `Rotation.MonthSchedule`, `LegacyScheduler.GenerateMonth`, `MemoryScheduler.GenerateMonth` and `LedgerScheduler.GenerateMonth`, with their `GenerateMonthlySchedule` methods, do not raise the `OverflowError` of `datetime(year, month, day) - timedelta(days=1)` (backend/app/scheduler.py:142, scheduler/backend/app/services/scheduler.py:233, backend/app/services/scheduler.py:331). That error occurs on 1 January of year 1 once someone is already on duty that day: the model compares against day 0 instead, which nobody holds.
- Dicts:
  - Results whose order only affects printing (the bulk reports, the schedule) are unordered maps.
  - The `assignments` dict of the bulk operations is a sequence of (group, entries) pairs, which may repeat a group.
- The `AttributeError` path of the in-memory `bulk_add_people_to_groups` cannot occur: entries are typed `PersonData` values.
- The in-memory service's `_settings` object and `get_groups`:
  - `get_groups` is a plain read of the registry (`GetGroups`).
  - `LegacyScheduler.Scheduler.GetSchedule` (backend/app/scheduler.py:178-180), `LegacyScheduler.Scheduler.GetGroups` (backend/app/scheduler.py:190-192) and `MemoryScheduler.SchedulerService.GetGroups` (scheduler/backend/app/services/scheduler.py:333-342) and `LedgerScheduler.SchedulerService.GetGroups` (backend/app/services/scheduler.py:476-485) return a field unchanged. They state nothing beyond that, so they have no row in the table.
  - `Group` and `Schedule` wrappers are not modelled.
- RotationProperties.NoConsecutiveDays: proved only for disjoint groups of at least two distinct members and no maximum, not unconditionally as the docstring at backend/app/scheduler.py:106 says. A member shared by two groups, or a maximum that empties the eligible list, forces the fallback to every member. `RotationProperties.OverlapBackToBack` shows the shared-member case (see "Findings").
- `HolidayService`, the request and response schemas, the HTTP layer and the migrations are not part of this model.

## Findings

| source | as written | input that shows it | evidently intended | confidence | as-written member | corrected member |
|---|---|---|---|---|---|---|
| backend/app/services/scheduler.py:349 | `get_day_type(date_obj, holidays)` passes the holiday list as the boolean `is_holiday`, so every day of the month gets the type HOLIDAY whenever the list is non-empty; once the weight calls at :355 and in `record_assignment` are repaired (see "Left out"), every record then carries HOLIDAY | holidays = [1 January 2024 only]; the slot on Tuesday 2 January 2024 gets the type HOLIDAY | HOLIDAY only on dates some holiday covers, else the calendar type | not executed | LedgerScheduler.AsWrittenDayTypeWrong | LedgerScheduler.SlotDayType |
| backend/app/scheduler.py:106 | the docstring promises that nobody is on duty on consecutive days, but eligibility is judged one group at a time; when every member of a group is excluded, the code falls back to all of them (lines 145-147) | groups a = [p, q] then b = [p, r], no bounds, any valid month: p is picked for a on day 1; on day 2 q is picked for a; p and r were both on duty on day 1, so b falls back to [p, r] and the strict `<` keeps p, on duty the day before | nobody on duty on two consecutive days | not executed | RotationProperties.OverlapBackToBack | RotationProperties.NoConsecutiveDays |

=== FILE: calendar.dfy ===
/** Proleptic Gregorian calendar arithmetic on day ordinals, as Python's
    `date.toordinal()` numbers them: 0001-01-01 is day 1 and a Monday. */
module Calendar {
  /** A calendar date, written as its day ordinal. */
  type Date = int

  /** Python's `date.weekday()`: Monday is 0, Friday is 4, Sunday is 6. */
  function Weekday(d: Date): (w: int)
    ensures 0 <= w < 7
    ensures (d - w) % 7 == 1
  {
    (d + 6) % 7
  }

  predicate IsLeapYear(y: int) {
    y % 4 == 0 && (y % 100 != 0 || y % 400 == 0)
  }

  /** `calendar.monthrange(year, month)[1]`. */
  function DaysInMonth(y: int, m: int): (n: int)
    requires 1 <= m <= 12
    ensures 28 <= n <= 31
    ensures m == 2 ==> (n == 29 <==> IsLeapYear(y))
  {
    if m == 2 then (if IsLeapYear(y) then 29 else 28)
    else if m == 4 || m == 6 || m == 9 || m == 11 then 30
    else 31
  }

  /** Days in the months of year y before month m. */
  function DaysBeforeMonth(y: int, m: int): int
    requires 1 <= m <= 13
    decreases m
  {
    if m == 1 then 0 else DaysBeforeMonth(y, m - 1) + DaysInMonth(y, m - 1)
  }

  /** Days in the years before year y (y >= 1). */
  function DaysBeforeYear(y: int): int
    requires y >= 1
  {
    var p := y - 1;
    p * 365 + p / 4 - p / 100 + p / 400
  }

  /** True for the (year, month) pairs Python's `date` accepts. */
  predicate ValidYearMonth(y: int, m: int) {
    1 <= y <= 9999 && 1 <= m <= 12
  }

  /** The ordinal of `date(y, m, day)`. */
  function Ordinal(y: int, m: int, day: int): Date
    requires ValidYearMonth(y, m)
  {
    DaysBeforeYear(y) + DaysBeforeMonth(y, m) + day
  }

  /** `d.year == y and d.month == m`: d falls within month m of year y. */
  predicate InMonth(d: Date, y: int, m: int) {
    ValidYearMonth(y, m) && Ordinal(y, m, 1) <= d < Ordinal(y, m, 1) + DaysInMonth(y, m)
  }

  /** The ordinals of the days of a month are exactly the days 1..DaysInMonth of that month. */
  lemma OrdinalInMonth(y: int, m: int, day: int)
    requires ValidYearMonth(y, m)
    ensures InMonth(Ordinal(y, m, day), y, m) <==> 1 <= day <= DaysInMonth(y, m)
  {
  }
}

=== FILE: day_types.dfy ===
/** The five kinds of day a duty can fall on, their default prices, and the
    calendar-only classification `get_day_type`. */
module DayTypes {
  import opened Calendar

  datatype DayType = Regular | Friday | Weekend | Holiday | LongWeekendMiddle

  /** The default weight table of the day-weight service. */
  function DefaultWeight(t: DayType): (w: real)
    ensures w > 0.0
  {
    match t
    case Regular => 1.0
    case Friday => 1.2
    case Weekend => 1.5
    case Holiday => 2.0
    case LongWeekendMiddle => 2.5
  }

  predicate IsWeekend(d: Date) {
    Weekday(d) >= 5
  }

  predicate IsFriday(d: Date) {
    Weekday(d) == 4
  }

  /** `is_weekend` is Saturday or Sunday, `is_friday` is Friday, and no day is both. */
  lemma WeekendFridayExclusive(d: Date)
    ensures IsWeekend(d) <==> Weekday(d) == 5 || Weekday(d) == 6
    ensures IsFriday(d) ==> !IsWeekend(d)
  {
  }

  /** `get_day_type`: a flagged holiday first, then weekend, then Friday, else regular. */
  function GetDayType(d: Date, isHoliday: bool): (t: DayType)
    ensures isHoliday ==> t == Holiday
    ensures t != LongWeekendMiddle
    ensures !isHoliday ==> (t == Weekend <==> IsWeekend(d)) && (t == Friday <==> IsFriday(d))
  {
    if isHoliday then Holiday
    else if IsWeekend(d) then Weekend
    else if IsFriday(d) then Friday
    else Regular
  }
}

=== FILE: day_weights.dfy ===
/** The day-weight service: a table of positive prices per day type, and the pricing
    of a date against a list of holidays. */
module DayWeights {
  import opened Options
  import opened Calendar
  import opened Holidays
  import opened DayTypes
  import opened LongWeekends

  datatype WeightError = NonPositiveWeight

  class DayWeightService {
    var weights: map<DayType, real>

    /** Every day type has a weight, and every weight is positive. */
    ghost predicate Valid()
      reads this
    {
      forall t: DayType :: t in weights && weights[t] > 0.0
    }

    constructor ()
      ensures Valid()
      ensures forall t: DayType :: weights[t] == DefaultWeight(t)
    {
      weights := map[Regular := 1.0, Friday := 1.2, Weekend := 1.5,
                     DayType.Holiday := 2.0, LongWeekendMiddle := 2.5];
      new;
      forall t: DayType ensures t in weights && weights[t] == DefaultWeight(t) {
        match t
        case Regular =>
        case Friday =>
        case Weekend =>
        case Holiday =>
        case LongWeekendMiddle =>
      }
    }

    /** `get_base_weight`. */
    function GetBaseWeight(t: DayType): (w: real)
      reads this
      requires Valid()
      ensures w > 0.0
    {
      weights[t]
    }

    /** `set_weight`: a weight that is not positive is rejected and changes nothing;
        otherwise only the entry for t changes. */
    method SetWeight(t: DayType, w: real) returns (r: Outcome<WeightError>)
      requires Valid()
      modifies this
      ensures Valid()
      ensures r.Fail? <==> w <= 0.0
      ensures r.Fail? ==> weights == old(weights)
      ensures r.Pass? ==> weights == old(weights)[t := w]
    {
      if w <= 0.0 {
        return Fail(NonPositiveWeight);
      }
      weights := weights[t := w];
      r := Pass;
    }

    /** `calculate_weight`: middle day of a long holiday, then holiday, then weekend,
        then Friday, else regular. */
    function CalculateWeight(d: Date, hs: seq<Holiday>): (w: real)
      reads this
      requires Valid()
      ensures w > 0.0
    {
      if IsMiddleDay(d, hs) then weights[LongWeekendMiddle]
      else if IsHolidayDate(d, hs) then weights[DayType.Holiday]
      else if IsWeekend(d) then weights[Weekend]
      else if IsFriday(d) then weights[Friday]
      else weights[Regular]
    }
  }

  /** With no holidays, a date is priced at the base weight of its calendar day type. */
  lemma NoHolidayWeight(svc: DayWeightService, d: Date)
    requires svc.Valid()
    ensures svc.CalculateWeight(d, []) == svc.GetBaseWeight(GetDayType(d, false))
  {
  }

  /** When at most one holiday covers a date, the price `calculate_weight` gives it is
      the base weight of the type `analyze_period` gives it: the two services follow the
      same precedence. */
  lemma WeightMatchesClassification(svc: DayWeightService, d: Date, hs: seq<Holiday>)
    requires svc.Valid()
    requires forall i, j :: 0 <= i < |hs| && 0 <= j < |hs| && Covers(hs[i], d) && Covers(hs[j], d) ==> i == j
    ensures svc.CalculateWeight(d, hs) == svc.GetBaseWeight(Classify(d, hs))
  {
    var r := LastCovering(d, hs);
    if r.Some? {
      var k :| 0 <= k < |hs| && hs[k] == r.value;
      if IsMiddleDay(d, hs) {
        var i :| 0 <= i < |hs| && MiddleOf(hs[i], d);
        assert Covers(hs[i], d);
        assert i == k;
      } else {
        assert !MiddleOf(hs[k], d);
      }
    }
  }

  /** The precedence of `calculate_weight` for any holiday list, overlapping or not: a
      date strictly inside some holiday of three or more days is priced as a middle day;
      otherwise a date some holiday covers is priced as a holiday; a date no holiday
      covers is priced by its calendar type alone. */
  lemma WeightPrecedence(svc: DayWeightService, d: Date, hs: seq<Holiday>)
    requires svc.Valid()
    ensures (exists i :: 0 <= i < |hs| && StrictlyInside(hs[i], d)) ==>
      svc.CalculateWeight(d, hs) == svc.GetBaseWeight(LongWeekendMiddle)
    ensures (forall i :: 0 <= i < |hs| ==> !StrictlyInside(hs[i], d)) && (exists i :: 0 <= i < |hs| && Covers(hs[i], d)) ==>
      svc.CalculateWeight(d, hs) == svc.GetBaseWeight(DayType.Holiday)
    ensures (forall i :: 0 <= i < |hs| ==> !Covers(hs[i], d)) ==>
      svc.CalculateWeight(d, hs) == svc.GetBaseWeight(GetDayType(d, false))
  {
    IsMiddleDayIff(d, hs);
  }

  /** With overlapping holidays the two services can disagree: when a holiday of three
      or more days is listed before a one-day holiday on its second date, `calculate_weight`
      prices that date as a middle day, because it is a middle day of some holiday, while
      `analyze_period` keeps only the last covering holiday and calls it HOLIDAY. */
  lemma OverlapDisagrees(svc: DayWeightService, s: Date, e: Date)
    requires svc.Valid() && e - s >= 2
    ensures var hs := [Holidays.Holiday(s, Some(e), None), Holidays.Holiday(s + 1, None, None)];
      && svc.CalculateWeight(s + 1, hs) == svc.GetBaseWeight(LongWeekendMiddle)
      && Classify(s + 1, hs) == DayType.Holiday
  {
    var d := s + 1;
    var h1, h2 := Holidays.Holiday(s, Some(e), None), Holidays.Holiday(d, None, None);
    var hs := [h1, h2];
    assert StrictlyInside(hs[0], d);
    WeightPrecedence(svc, d, hs);
    SingleDayDates(h2);
    MiddleOfIff(h2, d);
    LaterHolidayWins(d, [h1], h2);
    assert [h1] + [h2] == hs;
  }

  /** Friday 29 March to Monday 1 April 2024, listed before a one-day holiday on Saturday
      30 March: under the default table `calculate_weight` gives 30 March 2.5, while the
      type `analyze_period` gives it is priced 2.0. */
  lemma OverlapExample(svc: DayWeightService)
    requires svc.Valid() && forall t: DayType :: svc.weights[t] == DefaultWeight(t)
    ensures var d := Ordinal(2024, 3, 30);
      var hs := [Holidays.Holiday(Ordinal(2024, 3, 29), Some(Ordinal(2024, 4, 1)), None),
                 Holidays.Holiday(d, None, None)];
      && svc.CalculateWeight(d, hs) == 2.5
      && svc.GetBaseWeight(Classify(d, hs)) == 2.0
  {
    var s, e := Ordinal(2024, 3, 29), Ordinal(2024, 4, 1);
    assert s == 738974 && e == 738977 && Ordinal(2024, 3, 30) == s + 1;
    OverlapDisagrees(svc, s, e);
  }

  /** Mar 29 - Apr 1, 2024 (four days): Mar 30 is a middle day priced 2.5, and Mar 29,
      a Friday, is a holiday priced 2.0 under the default table. */
  lemma EasterExample(svc: DayWeightService)
    requires svc.Valid() && forall t: DayType :: svc.weights[t] == DefaultWeight(t)
    ensures var hs := [Holidays.Holiday(Ordinal(2024, 3, 29), Some(Ordinal(2024, 4, 1)), None)];
      && Classify(Ordinal(2024, 3, 30), hs) == LongWeekendMiddle
      && svc.CalculateWeight(Ordinal(2024, 3, 30), hs) == 2.5
      && IsFriday(Ordinal(2024, 3, 29))
      && Classify(Ordinal(2024, 3, 29), hs) == DayType.Holiday
      && svc.CalculateWeight(Ordinal(2024, 3, 29), hs) == 2.0
  {
    var s, e := Ordinal(2024, 3, 29), Ordinal(2024, 4, 1);
    assert s == 738974 && e == 738977;
    var h := Holidays.Holiday(s, Some(e), None);
    var hs := [h];
    MiddleOfIff(h, s + 1);
    MiddleOfIff(h, s);
    DatesFacts(h);
    assert Covers(hs[0], s) && Covers(hs[0], s + 1);
    assert IsMiddleDay(s + 1, hs);
    WeightMatchesClassification(svc, s + 1, hs);
    WeightMatchesClassification(svc, s, hs);
  }

  /** A Saturday holiday (2024-01-06) is priced at the holiday weight, not the weekend one. */
  lemma SaturdayHolidayExample(svc: DayWeightService)
    requires svc.Valid() && forall t: DayType :: svc.weights[t] == DefaultWeight(t)
    ensures var d := Ordinal(2024, 1, 6);
      && IsWeekend(d)
      && svc.CalculateWeight(d, [Holidays.Holiday(d, None, None)]) == 2.0
  {
    var d := Ordinal(2024, 1, 6);
    assert d == 738891;
    var hs := [Holidays.Holiday(d, None, None)];
    assert Covers(hs[0], d);
    MiddleOfIff(hs[0], d);
    assert !IsMiddleDay(d, hs);
  }
}

=== FILE: fairness.dfy ===
/** Per-person fairness record: year-to-date counters and three scores in [0, 1]
    relating the person's load to the group's average load. */
module FairnessScores {
  import opened Options
  import opened Calendar
  import opened AssignmentLedger

  /** The three scores of a fairness record. */
  datatype Scores = Scores(regular: real, weighted: real, overall: real)

  predicate InUnit(x: real) {
    0.0 <= x <= 1.0
  }

  predicate Bounded(s: Scores) {
    InUnit(s.regular) && InUnit(s.weighted) && InUnit(s.overall)
  }

  /** `min(1.0, x)`: the first argument unless the second is smaller. */
  function Cap(x: real): (r: real)
    ensures r <= 1.0 && r <= x && (r == 1.0 || r == x)
  {
    if x < 1.0 then x else 1.0
  }

  /** The ratio of a person's count to the average count, capped at 1. */
  function Ratio(ytd: real, average: real): (r: real)
    requires average > 0.0
    ensures r <= 1.0
    ensures r == 1.0 <==> ytd >= average
    ensures ytd >= 0.0 ==> r >= 0.0
  {
    Cap(ytd / average)
  }

  /** The scores after `calculate_fairness_scores`: nothing changes when the group has no
      assignments; a component is recomputed only when its average is positive; the
      overall score is the mean of the two components. */
  function Rescore(ytdRegular: int, ytdWeighted: real, s: Scores, average: AssignmentStats): Scores {
    if average.totalAssignments == 0 then s
    else
      var regular := if average.regularDays > 0 then Ratio(ytdRegular as real, average.regularDays as real) else s.regular;
      var weighted := if average.totalWeightedScore > 0.0 then Ratio(ytdWeighted, average.totalWeightedScore) else s.weighted;
      Scores(regular, weighted, (regular + weighted) / 2.0)
  }

  /** With non-negative year-to-date counters, scores in [0, 1] stay in [0, 1]. */
  lemma RescoreBounded(ytdRegular: int, ytdWeighted: real, s: Scores, average: AssignmentStats)
    requires ytdRegular >= 0 && ytdWeighted >= 0.0 && Bounded(s)
    ensures Bounded(Rescore(ytdRegular, ytdWeighted, s, average))
  {
  }

  /** Recomputing with the same counters and averages changes nothing further. */
  lemma RescoreIdempotent(ytdRegular: int, ytdWeighted: real, s: Scores, average: AssignmentStats)
    ensures var once := Rescore(ytdRegular, ytdWeighted, s, average);
      Rescore(ytdRegular, ytdWeighted, once, average) == once
  {
  }

  /** When both averages are positive, a component is 1 exactly when the person is at or
      above the group's average for it, and the overall score is 1 exactly when both are. */
  lemma FullScoreIff(ytdRegular: int, ytdWeighted: real, s: Scores, average: AssignmentStats)
    requires average.totalAssignments != 0 && average.regularDays > 0 && average.totalWeightedScore > 0.0
    ensures var r := Rescore(ytdRegular, ytdWeighted, s, average);
      && (r.regular == 1.0 <==> ytdRegular >= average.regularDays)
      && (r.weighted == 1.0 <==> ytdWeighted >= average.totalWeightedScore)
      && (r.overall == 1.0 <==> ytdRegular >= average.regularDays && ytdWeighted >= average.totalWeightedScore)
  {
  }

  class FairnessMetrics {
    const person: string
    const groupId: string
    var ytdRegularDays: int
    var ytdFridayDays: int
    var ytdWeekendDays: int
    var ytdHolidayDays: int
    var ytdLongWeekendDays: int
    var ytdWeightedScore: real
    var ytdTotalAssignments: int
    var fairnessScore: real
    var weightedFairnessScore: real
    var regularFairnessScore: real
    var lastAssignmentDate: Option<Date>
    var daysSinceLastAssignment: int

    function CurrentScores(): Scores
      reads this
    {
      Scores(regularFairnessScore, weightedFairnessScore, fairnessScore)
    }

    /** A fresh record: every counter and score at its default 0, no last assignment. */
    constructor (person: string, groupId: string)
      ensures this.person == person && this.groupId == groupId
      ensures ytdRegularDays == 0 && ytdFridayDays == 0 && ytdWeekendDays == 0 && ytdHolidayDays == 0
      ensures ytdLongWeekendDays == 0 && ytdWeightedScore == 0.0 && ytdTotalAssignments == 0
      ensures CurrentScores() == Scores(0.0, 0.0, 0.0) && Bounded(CurrentScores())
      ensures lastAssignmentDate == None && daysSinceLastAssignment == 0
    {
      this.person := person;
      this.groupId := groupId;
      ytdRegularDays, ytdFridayDays, ytdWeekendDays, ytdHolidayDays := 0, 0, 0, 0;
      ytdLongWeekendDays, ytdWeightedScore, ytdTotalAssignments := 0, 0.0, 0;
      fairnessScore, weightedFairnessScore, regularFairnessScore := 0.0, 0.0, 0.0;
      lastAssignmentDate, daysSinceLastAssignment := None, 0;
    }

    /** `calculate_fairness_scores`: only the three scores change. */
    method CalculateFairnessScores(average: AssignmentStats)
      modifies this`regularFairnessScore, this`weightedFairnessScore, this`fairnessScore
      ensures CurrentScores() == Rescore(ytdRegularDays, ytdWeightedScore, old(CurrentScores()), average)
    {
      if average.totalAssignments == 0 {
        return;
      }
      if average.regularDays > 0 {
        regularFairnessScore := Cap(ytdRegularDays as real / average.regularDays as real);
      }
      if average.totalWeightedScore > 0.0 {
        weightedFairnessScore := Cap(ytdWeightedScore / average.totalWeightedScore);
      }
      fairnessScore := (regularFairnessScore + weightedFairnessScore) / 2.0;
    }
  }
}

=== FILE: holidays.dfy ===
/** Holiday date ranges: a start date, an optional end date and an optional name. */
module Holidays {
  import opened Options
  import opened Calendar

  datatype Holiday = Holiday(startDate: Date, endDate: Option<Date>, name: Option<string>)

  datatype HolidayError = EndBeforeStart

  /** The range check `validate_end_date` enforces when a holiday is built. */
  predicate ValidRange(h: Holiday) {
    h.endDate.None? || h.endDate.value >= h.startDate
  }

  /** Building a holiday: an end date before the start date is rejected. */
  function NewHoliday(start: Date, end: Option<Date>, name: Option<string>): (r: Result<Holiday, HolidayError>)
    ensures r.Failure? <==> end.Some? && end.value < start
    ensures r.Success? ==> r.value == Holiday(start, end, name) && ValidRange(r.value)
  {
    if end.Some? && end.value < start then Failure(EndBeforeStart)
    else Success(Holiday(start, end, name))
  }

  predicate IsMultiDay(h: Holiday) {
    h.endDate.Some? && h.endDate.value != h.startDate
  }

  /** The days s, s+1, ..., e (empty when e < s). */
  function Span(s: Date, e: Date): seq<Date>
    decreases e - s + 1
  {
    if e < s then [] else Span(s, e - 1) + [e]
  }

  /** The dates `get_dates` returns. */
  function Dates(h: Holiday): seq<Date> {
    if h.endDate.None? || h.endDate.value == h.startDate then [h.startDate]
    else Span(h.startDate, h.endDate.value)
  }

  /** The last day a holiday covers. */
  function EndDay(h: Holiday): Date {
    if h.endDate.Some? then h.endDate.value else h.startDate
  }

  /** `get_dates`: walks from the start date to the end date one day at a time. */
  method GetDates(h: Holiday) returns (dates: seq<Date>)
    ensures dates == Dates(h)
  {
    if h.endDate.None? || h.endDate.value == h.startDate {
      return [h.startDate];
    }
    var end := h.endDate.value;
    dates := [];
    var current := h.startDate;
    while current <= end
      invariant h.startDate <= current <= end + 1 || (current == h.startDate && end < h.startDate)
      invariant dates == Span(h.startDate, current - 1)
      decreases end - current
    {
      dates := dates + [current];
      current := current + 1;
    }
  }

  /** The span s..e lists every day from s to e once, in ascending order. */
  lemma {:induction false} SpanAt(s: Date, e: Date)
    ensures |Span(s, e)| == if e < s then 0 else e - s + 1
    ensures forall i :: 0 <= i < |Span(s, e)| ==> Span(s, e)[i] == s + i
    decreases e - s + 1
  {
    if e >= s {
      SpanAt(s, e - 1);
    }
  }

  lemma SpanMember(s: Date, e: Date, d: Date)
    ensures d in Span(s, e) <==> s <= d <= e
  {
    SpanAt(s, e);
    if s <= d <= e {
      assert Span(s, e)[d - s] == d;
    }
  }

  /** For a valid holiday, `get_dates` is every day from the start date to the end
      date inclusive, ascending by exactly one day, starting at the start date and
      ending at the end date (the start date alone for a one-day holiday). */
  lemma DatesFacts(h: Holiday)
    requires ValidRange(h)
    ensures |Dates(h)| == EndDay(h) - h.startDate + 1
    ensures Dates(h)[0] == h.startDate && Dates(h)[|Dates(h)| - 1] == EndDay(h)
    ensures forall i :: 0 <= i < |Dates(h)| ==> Dates(h)[i] == h.startDate + i
    ensures forall d :: d in Dates(h) <==> h.startDate <= d <= EndDay(h)
  {
    if !(h.endDate.None? || h.endDate.value == h.startDate) {
      SpanAt(h.startDate, h.endDate.value);
      forall d ensures d in Dates(h) <==> h.startDate <= d <= EndDay(h) {
        SpanMember(h.startDate, h.endDate.value, d);
      }
    }
  }

  /** A holiday with no end date, or ending on its start date, covers exactly its start date. */
  lemma SingleDayDates(h: Holiday)
    requires h.endDate.None? || h.endDate.value == h.startDate
    ensures Dates(h) == [h.startDate]
  {
  }

  /** `get_dates` never repeats a date. */
  lemma DatesDistinct(h: Holiday)
    ensures forall i, j :: 0 <= i < j < |Dates(h)| ==> Dates(h)[i] < Dates(h)[j]
  {
    if !(h.endDate.None? || h.endDate.value == h.startDate) {
      SpanAt(h.startDate, h.endDate.value);
    }
  }

  /** `is_multi_day` holds exactly when `get_dates` has more than one date. */
  lemma MultiDayIff(h: Holiday)
    requires ValidRange(h)
    ensures IsMultiDay(h) <==> |Dates(h)| > 1
  {
    DatesFacts(h);
  }

  /** Holiday h covers date d. */
  predicate Covers(h: Holiday, d: Date) {
    d in Dates(h)
  }

  /** `any(target in h.get_dates() for h in holidays)`. */
  predicate IsHolidayDate(d: Date, holidays: seq<Holiday>) {
    exists i :: 0 <= i < |holidays| && Covers(holidays[i], d)
  }
}

=== FILE: ledger.dfy ===
/** The assignment ledger: an append-only log of (person, group, date, day type,
    weight) records, each carrying the running totals of its (person, group) pair,
    and the statistics aggregated from the log. */
module AssignmentLedger {
  import opened Options
  import opened Calendar
  import opened DayTypes

  datatype AssignmentRecord = AssignmentRecord(
    person: string, groupId: string, date: Date, dayType: DayType, weight: real,
    cumulativeRegularDays: int, cumulativeWeightedDays: real, cumulativeTotalDays: int)

  datatype AssignmentStats = AssignmentStats(
    regularDays: int, fridayCount: int, weekendDays: int, holidayDays: int,
    longWeekendDays: int, totalWeightedScore: real, totalAssignments: int)

  /** `get_fairness_metrics`, with the population variance in place of its square root. */
  datatype GroupFairness = GroupFairness(weightedVariance: real, maxWeightedDiff: real, maxTotalDiff: int)

  predicate IsFor(r: AssignmentRecord, p: string, g: string) {
    r.person == p && r.groupId == g
  }

  function Indicator(b: bool): int {
    if b then 1 else 0
  }

  /** The most recent record of the pair (the query ordered by id, descending). */
  function LatestRecord(log: seq<AssignmentRecord>, p: string, g: string): (r: Option<AssignmentRecord>)
    ensures r.Some? ==> r.value in log && IsFor(r.value, p, g)
    ensures r.Some? ==> exists k :: 0 <= k < |log| && log[k] == r.value && forall j :: k < j < |log| ==> !IsFor(log[j], p, g)
    ensures r.None? <==> forall k :: 0 <= k < |log| ==> !IsFor(log[k], p, g)
    decreases |log|
  {
    if log == [] then None
    else if IsFor(log[|log| - 1], p, g) then Some(log[|log| - 1])
    else
      var r := LatestRecord(log[..|log| - 1], p, g);
      assert forall k :: 0 <= k < |log| - 1 ==> log[..|log| - 1][k] == log[k];
      r
  }

  /** `get_person_stats`: counts and weight sum over the pair's records. Fridays and
      long-weekend middle days are not counted by the query and stay 0. */
  function PersonStats(log: seq<AssignmentRecord>, p: string, g: string): (s: AssignmentStats)
    ensures s.fridayCount == 0 && s.longWeekendDays == 0
    ensures 0 <= s.regularDays && 0 <= s.weekendDays && 0 <= s.holidayDays
    ensures s.regularDays + s.weekendDays + s.holidayDays <= s.totalAssignments
    ensures s.totalAssignments == 0 <==> forall k :: 0 <= k < |log| ==> !IsFor(log[k], p, g)
    decreases |log|
  {
    if log == [] then AssignmentStats(0, 0, 0, 0, 0, 0.0, 0)
    else
      var s := PersonStats(log[..|log| - 1], p, g);
      var r := log[|log| - 1];
      assert forall k :: 0 <= k < |log| - 1 ==> log[..|log| - 1][k] == log[k];
      if !IsFor(r, p, g) then s
      else AssignmentStats(
        s.regularDays + Indicator(r.dayType == Regular), 0,
        s.weekendDays + Indicator(r.dayType == Weekend),
        s.holidayDays + Indicator(r.dayType == DayType.Holiday), 0,
        s.totalWeightedScore + r.weight, s.totalAssignments + 1)
  }

  /** A record's running totals equal the statistics s. */
  predicate CountersMatch(r: AssignmentRecord, s: AssignmentStats) {
    r.cumulativeTotalDays == s.totalAssignments
    && r.cumulativeRegularDays == s.regularDays
    && r.cumulativeWeightedDays == s.totalWeightedScore
  }

  /** Every record's running totals equal the statistics of its pair over the log up to
      and including that record. */
  ghost predicate Consistent(log: seq<AssignmentRecord>) {
    forall k :: 0 <= k < |log| ==> RecordMatches(log, k)
  }

  /** The k-th record's running totals equal the statistics of its pair over the log up
      to and including it. */
  ghost predicate RecordMatches(log: seq<AssignmentRecord>, k: int)
    requires 0 <= k < |log|
  {
    CountersMatch(log[k], PersonStats(log[..k + 1], log[k].person, log[k].groupId))
  }

  /** The record `record_assignment` appends: the latest totals of the pair carried
      forward, total plus one, regular plus one on a regular day, weighted plus the
      default weight of the day type. */
  function NextRecord(log: seq<AssignmentRecord>, p: string, g: string, date: Date, t: DayType): AssignmentRecord {
    var w := DefaultWeight(t);
    match LatestRecord(log, p, g)
    case None => AssignmentRecord(p, g, date, t, w, Indicator(t == Regular), 0.0 + w, 1)
    case Some(l) => AssignmentRecord(p, g, date, t, w,
      l.cumulativeRegularDays + Indicator(t == Regular), l.cumulativeWeightedDays + w, l.cumulativeTotalDays + 1)
  }

  /** The next record bumps the totals the latest record of the pair carries, or zero
      totals when the pair has none. */
  lemma NextRecordFrom(log: seq<AssignmentRecord>, p: string, g: string, date: Date, t: DayType,
                       regular: int, weighted: real, total: int)
    requires LatestRecord(log, p, g).None? ==> regular == 0 && weighted == 0.0 && total == 0
    requires LatestRecord(log, p, g).Some? ==>
      var l := LatestRecord(log, p, g).value;
      regular == l.cumulativeRegularDays && weighted == l.cumulativeWeightedDays && total == l.cumulativeTotalDays
    ensures NextRecord(log, p, g, date, t) == AssignmentRecord(p, g, date, t, DefaultWeight(t),
      regular + Indicator(t == Regular), weighted + DefaultWeight(t), total + 1)
  {
  }

  /** In a consistent log, the latest record of a pair holds the pair's statistics. */
  lemma {:induction false} LatestHoldsStats(log: seq<AssignmentRecord>, p: string, g: string)
    requires Consistent(log)
    ensures LatestRecord(log, p, g).Some? ==> CountersMatch(LatestRecord(log, p, g).value, PersonStats(log, p, g))
    ensures LatestRecord(log, p, g).None? ==> PersonStats(log, p, g) == AssignmentStats(0, 0, 0, 0, 0, 0.0, 0)
    decreases |log|
  {
    if log != [] {
      if IsFor(log[|log| - 1], p, g) {
        LastHoldsStats(log, p, g);
      } else {
        var init := log[..|log| - 1];
        ConsistentInit(log);
        LatestHoldsStats(init, p, g);
        SkipOtherPair(log, p, g);
      }
    }
  }

  /** The last record of a consistent log holds its pair's statistics. */
  lemma LastHoldsStats(log: seq<AssignmentRecord>, p: string, g: string)
    requires Consistent(log) && log != [] && IsFor(log[|log| - 1], p, g)
    ensures LatestRecord(log, p, g) == Some(log[|log| - 1])
    ensures CountersMatch(log[|log| - 1], PersonStats(log, p, g))
  {
    assert RecordMatches(log, |log| - 1);
    assert log[..|log| - 1 + 1] == log;
  }

  /** Every prefix of a consistent log is consistent; here, all but the last record. */
  lemma ConsistentInit(log: seq<AssignmentRecord>)
    requires Consistent(log) && log != []
    ensures Consistent(log[..|log| - 1])
  {
    var init := log[..|log| - 1];
    forall k | 0 <= k < |init| ensures RecordMatches(init, k) {
      assert RecordMatches(log, k);
      assert init[..k + 1] == log[..k + 1];
    }
  }

  /** A last record of another pair changes neither the pair's latest record nor its
      statistics. */
  lemma SkipOtherPair(log: seq<AssignmentRecord>, p: string, g: string)
    requires log != [] && !IsFor(log[|log| - 1], p, g)
    ensures LatestRecord(log, p, g) == LatestRecord(log[..|log| - 1], p, g)
    ensures PersonStats(log, p, g) == PersonStats(log[..|log| - 1], p, g)
  {
  }

  /** The statistics after one more record: unchanged for other pairs, bumped by
      that record for its own pair. */
  lemma PersonStatsAppend(log: seq<AssignmentRecord>, r: AssignmentRecord, p: string, g: string)
    ensures var s := PersonStats(log, p, g);
      PersonStats(log + [r], p, g) ==
        if !IsFor(r, p, g) then s
        else AssignmentStats(
          s.regularDays + Indicator(r.dayType == Regular), 0,
          s.weekendDays + Indicator(r.dayType == Weekend),
          s.holidayDays + Indicator(r.dayType == DayType.Holiday), 0,
          s.totalWeightedScore + r.weight, s.totalAssignments + 1)
  {
    assert (log + [r])[..|log|] == log;
  }

  /** Appending a record whose totals match its pair's statistics keeps a log consistent. */
  lemma ConsistentAppend(log: seq<AssignmentRecord>, r: AssignmentRecord)
    requires Consistent(log)
    requires CountersMatch(r, PersonStats(log + [r], r.person, r.groupId))
    ensures Consistent(log + [r])
  {
    var log' := log + [r];
    forall k | 0 <= k < |log'| ensures RecordMatches(log', k) {
      if k < |log| {
        AppendKeepsRecord(log, r, k);
      } else {
        assert log'[..k + 1] == log';
      }
    }
  }

  /** Appending a record leaves the totals of an earlier record matching. */
  lemma AppendKeepsRecord(log: seq<AssignmentRecord>, r: AssignmentRecord, k: nat)
    requires Consistent(log) && k < |log|
    ensures RecordMatches(log + [r], k)
  {
    assert RecordMatches(log, k);
    assert (log + [r])[..k + 1] == log[..k + 1];
    assert (log + [r])[k] == log[k];
  }

  /** Appending the next record keeps the log consistent; the new record's totals are
      the pair's previous statistics plus this assignment, so a pair's first record has
      total 1, regular 1 exactly on a regular day, and weighted equal to its weight. */
  lemma NextRecordExtends(log: seq<AssignmentRecord>, p: string, g: string, date: Date, t: DayType)
    requires Consistent(log)
    ensures var r := NextRecord(log, p, g, date, t);
      && Consistent(log + [r])
      && CountersMatch(r, PersonStats(log + [r], p, g))
      && r.cumulativeTotalDays == PersonStats(log, p, g).totalAssignments + 1
      && r.cumulativeRegularDays == PersonStats(log, p, g).regularDays + Indicator(t == Regular)
      && r.cumulativeWeightedDays == PersonStats(log, p, g).totalWeightedScore + DefaultWeight(t)
  {
    var r := NextRecord(log, p, g, date, t);
    NextRecordCounters(log, p, g, date, t);
    PersonStatsAppend(log, r, p, g);
    assert CountersMatch(r, PersonStats(log + [r], p, g));
    ConsistentAppend(log, r);
  }

  /** The next record's totals continue the pair's statistics. */
  lemma NextRecordCounters(log: seq<AssignmentRecord>, p: string, g: string, date: Date, t: DayType)
    requires Consistent(log)
    ensures var r := NextRecord(log, p, g, date, t);
      && IsFor(r, p, g) && r.dayType == t && r.weight == DefaultWeight(t)
      && r.cumulativeTotalDays == PersonStats(log, p, g).totalAssignments + 1
      && r.cumulativeRegularDays == PersonStats(log, p, g).regularDays + Indicator(t == Regular)
      && r.cumulativeWeightedDays == PersonStats(log, p, g).totalWeightedScore + DefaultWeight(t)
  {
    LatestHoldsStats(log, p, g);
  }

  /** In a consistent log every record has a running total of at least 1 and a regular
      count between 0 and that total. */
  lemma RecordTotalsBounded(log: seq<AssignmentRecord>, k: int)
    requires Consistent(log) && 0 <= k < |log|
    ensures 1 <= log[k].cumulativeTotalDays
    ensures 0 <= log[k].cumulativeRegularDays <= log[k].cumulativeTotalDays
  {
    assert RecordMatches(log, k);
    assert log[..k + 1][k] == log[k];
  }

  /** `get_group_stats`: one entry per person with at least one record in the group. */
  function GroupStats(log: seq<AssignmentRecord>, g: string): (m: map<string, AssignmentStats>)
    ensures forall p :: p in m <==> exists k :: 0 <= k < |log| && IsFor(log[k], p, g)
    ensures forall p :: p in m ==> m[p] == PersonStats(log, p, g) && m[p].totalAssignments >= 1
  {
    var people := set k | 0 <= k < |log| && log[k].groupId == g :: log[k].person;
    map p | p in people :: PersonStats(log, p, g)
  }

  /** The persons with a record in the group, each once, in order of first appearance. */
  function People(log: seq<AssignmentRecord>, g: string): (ps: seq<string>)
    ensures forall i, j :: 0 <= i < j < |ps| ==> ps[i] != ps[j]
    ensures forall p :: p in ps <==> exists k :: 0 <= k < |log| && IsFor(log[k], p, g)
    decreases |log|
  {
    if log == [] then []
    else
      var ps := People(log[..|log| - 1], g);
      var r := log[|log| - 1];
      assert forall k :: 0 <= k < |log| - 1 ==> log[..|log| - 1][k] == log[k];
      if r.groupId == g && r.person !in ps then ps + [r.person] else ps
  }

  function Sum(xs: seq<real>): real
    decreases |xs|
  {
    if xs == [] then 0.0 else Sum(xs[..|xs| - 1]) + xs[|xs| - 1]
  }

  /** Sum of squared deviations from c. */
  function SumSquares(xs: seq<real>, c: real): (r: real)
    ensures r >= 0.0
    decreases |xs|
  {
    if xs == [] then 0.0
    else
      var d := xs[|xs| - 1] - c;
      assert d * d >= 0.0 by {
        if d < 0.0 { assert d * d == (-d) * (-d); }
      }
      SumSquares(xs[..|xs| - 1], c) + d * d
  }

  function MaxOf(xs: seq<real>): (m: real)
    requires |xs| > 0
    ensures m in xs && forall i :: 0 <= i < |xs| ==> xs[i] <= m
    decreases |xs|
  {
    if |xs| == 1 then xs[0]
    else
      var m := MaxOf(xs[..|xs| - 1]);
      assert forall i :: 0 <= i < |xs| - 1 ==> xs[..|xs| - 1][i] == xs[i];
      if xs[|xs| - 1] > m then xs[|xs| - 1] else m
  }

  function MinOf(xs: seq<real>): (m: real)
    requires |xs| > 0
    ensures m in xs && forall i :: 0 <= i < |xs| ==> m <= xs[i]
    decreases |xs|
  {
    if |xs| == 1 then xs[0]
    else
      var m := MinOf(xs[..|xs| - 1]);
      assert forall i :: 0 <= i < |xs| - 1 ==> xs[..|xs| - 1][i] == xs[i];
      if xs[|xs| - 1] < m then xs[|xs| - 1] else m
  }

  /** Population variance: the mean squared deviation from the mean. */
  function Variance(xs: seq<real>): real
    requires |xs| > 0
  {
    var mean := Sum(xs) / (|xs| as real);
    SumSquares(xs, mean) / (|xs| as real)
  }

  function WeightedScores(log: seq<AssignmentRecord>, g: string, ps: seq<string>): seq<real> {
    seq(|ps|, i requires 0 <= i < |ps| => PersonStats(log, ps[i], g).totalWeightedScore)
  }

  /** The persons' assignment counts, as reals so that one `max`/`min` serves both lists. */
  function TotalCounts(log: seq<AssignmentRecord>, g: string, ps: seq<string>): seq<real> {
    seq(|ps|, i requires 0 <= i < |ps| => PersonStats(log, ps[i], g).totalAssignments as real)
  }

  /** `get_fairness_metrics`. */
  function FairnessMetrics(log: seq<AssignmentRecord>, g: string): GroupFairness {
    var ps := People(log, g);
    if |ps| == 0 then GroupFairness(0.0, 0.0, 0)
    else
      var ws := WeightedScores(log, g, ps);
      var ts := TotalCounts(log, g, ps);
      GroupFairness(Variance(ws), MaxOf(ws) - MinOf(ws), (MaxOf(ts) - MinOf(ts)).Floor)
  }

  lemma VarianceNonNegative(xs: seq<real>)
    requires |xs| > 0
    ensures Variance(xs) >= 0.0
  {
    var n := |xs| as real;
    var ss := SumSquares(xs, Sum(xs) / n);
    assert ss >= 0.0 && n > 0.0;
    assert ss / n >= 0.0;
  }

  /** A group with no records has all-zero metrics; otherwise both max-minus-min
      differences and the variance are non-negative. */
  lemma FairnessNonNegative(log: seq<AssignmentRecord>, g: string)
    ensures (forall k :: 0 <= k < |log| ==> log[k].groupId != g) ==> FairnessMetrics(log, g) == GroupFairness(0.0, 0.0, 0)
    ensures FairnessMetrics(log, g).weightedVariance >= 0.0
    ensures FairnessMetrics(log, g).maxWeightedDiff >= 0.0
    ensures FairnessMetrics(log, g).maxTotalDiff >= 0
  {
    var ps := People(log, g);
    if |ps| > 0 {
      VarianceNonNegative(WeightedScores(log, g, ps));
      assert ps[0] in ps;
    }
  }

  lemma {:induction false} SumOfConstant(xs: seq<real>, c: real)
    requires forall i :: 0 <= i < |xs| ==> xs[i] == c
    ensures Sum(xs) == (|xs| as real) * c
    decreases |xs|
  {
    if xs != [] {
      SumOfConstant(xs[..|xs| - 1], c);
    }
  }

  lemma {:induction false} SumSquaresAtConstant(xs: seq<real>, c: real)
    requires forall i :: 0 <= i < |xs| ==> xs[i] == c
    ensures SumSquares(xs, c) == 0.0
    decreases |xs|
  {
    if xs != [] {
      SumSquaresAtConstant(xs[..|xs| - 1], c);
    }
  }

  /** The variance is 0 when all weighted scores are equal. */
  lemma VarianceOfEqualScores(xs: seq<real>)
    requires |xs| > 0 && forall i :: 0 <= i < |xs| ==> xs[i] == xs[0]
    ensures Variance(xs) == 0.0
  {
    var n := |xs| as real;
    SumOfConstant(xs, xs[0]);
    assert Sum(xs) / n == xs[0];
    SumSquaresAtConstant(xs, xs[0]);
  }

  /** Two assignments of one person, a regular day then a holiday: the second record
      carries regular 1, weighted 3.0 and total 2. */
  lemma RecordTwiceExample()
    ensures var l1 := [NextRecord([], "John", "group1", 738886, Regular)];
      var r := NextRecord(l1, "John", "group1", 738887, DayType.Holiday);
      r.cumulativeRegularDays == 1 && r.cumulativeWeightedDays == 3.0 && r.cumulativeTotalDays == 2
  {
    var l1 := [NextRecord([], "John", "group1", 738886, Regular)];
    assert LatestRecord(l1, "John", "group1") == Some(l1[0]);
  }

  /** The log of the fairness example below, written out record by record. */
  function ExampleLog(): seq<AssignmentRecord> {
    [AssignmentRecord("John", "group1", 738886, DayType.Holiday, 2.0, 0, 2.0, 1),
     AssignmentRecord("John", "group1", 738887, Weekend, 1.5, 0, 3.5, 2),
     AssignmentRecord("Jane", "group1", 738888, Regular, 1.0, 1, 1.0, 1)]
  }

  lemma ExampleLogRecorded()
    ensures var l1 := [NextRecord([], "John", "group1", 738886, DayType.Holiday)];
      var l2 := l1 + [NextRecord(l1, "John", "group1", 738887, Weekend)];
      l2 + [NextRecord(l2, "Jane", "group1", 738888, Regular)] == ExampleLog()
  {
    var l1 := [NextRecord([], "John", "group1", 738886, DayType.Holiday)];
    assert "John" != "Jane" by { assert "John"[1] != "Jane"[1]; }
    assert LatestRecord(l1, "John", "group1") == Some(l1[0]);
    var l2 := l1 + [NextRecord(l1, "John", "group1", 738887, Weekend)];
    assert l2[..1] == l1;
    assert LatestRecord(l1, "Jane", "group1") == None;
    assert LatestRecord(l2, "Jane", "group1") == None;
  }

  lemma ExamplePeople()
    ensures People(ExampleLog(), "group1") == ["John", "Jane"]
  {
    var l := ExampleLog();
    assert "John" != "Jane" by { assert "John"[1] != "Jane"[1]; }
    assert l[..2][..1] == l[..1] && l[..1][..0] == [];
    assert People(l[..1], "group1") == ["John"];
    assert People(l[..2], "group1") == ["John"];
  }

  lemma ExampleJohn()
    ensures PersonStats(ExampleLog(), "John", "group1").totalWeightedScore == 3.5
    ensures PersonStats(ExampleLog(), "John", "group1").totalAssignments == 2
  {
    var l := ExampleLog();
    assert "John" != "Jane" by { assert "John"[1] != "Jane"[1]; }
    assert l[..2][..1] == l[..1] && l[..1][..0] == [];
    assert PersonStats(l[..1], "John", "group1").totalWeightedScore == 2.0;
    assert PersonStats(l[..2], "John", "group1").totalWeightedScore == 3.5;
  }

  lemma ExampleJane()
    ensures PersonStats(ExampleLog(), "Jane", "group1").totalWeightedScore == 1.0
    ensures PersonStats(ExampleLog(), "Jane", "group1").totalAssignments == 1
  {
    var l := ExampleLog();
    assert "John" != "Jane" by { assert "John"[1] != "Jane"[1]; }
    assert l[..2][..1] == l[..1] && l[..1][..0] == [];
    assert PersonStats(l[..1], "Jane", "group1").totalWeightedScore == 0.0;
    assert PersonStats(l[..2], "Jane", "group1").totalWeightedScore == 0.0;
  }

  lemma ExampleScores()
    ensures WeightedScores(ExampleLog(), "group1", ["John", "Jane"]) == [3.5, 1.0]
    ensures TotalCounts(ExampleLog(), "group1", ["John", "Jane"]) == [2.0, 1.0]
  {
    ExampleJohn();
    ExampleJane();
    var l := ExampleLog();
    assert ["John", "Jane"][..1] == ["John"] && ["John"][..0] == [];
  }

  /** One person with a holiday and a weekend day, another with a regular day: the
      weighted scores 3.5 and 1.0 differ by 2.5, the totals 2 and 1 by 1, and the
      variance is 1.5625 (a standard deviation of 1.25). */
  lemma FairnessExample()
    ensures var l1 := [NextRecord([], "John", "group1", 738886, DayType.Holiday)];
      var l2 := l1 + [NextRecord(l1, "John", "group1", 738887, Weekend)];
      var l3 := l2 + [NextRecord(l2, "Jane", "group1", 738888, Regular)];
      FairnessMetrics(l3, "group1") == GroupFairness(1.5625, 2.5, 1)
  {
    ExampleLogRecorded();
    ExamplePeople();
    ExampleScores();
    var ws: seq<real> := [3.5, 1.0];
    assert ws[..1] == [3.5] && ws[..1][..0] == [];
    var ts: seq<real> := [2.0, 1.0];
    assert ts[..1] == [2.0];
    assert Sum(ws[..1]) == 3.5;
    assert Sum(ws) == 4.5;
    assert SumSquares(ws[..1], 2.25) == 1.5625;
    assert SumSquares(ws, 2.25) == 3.125;
  }

  class AssignmentHistoryService {
    var log: seq<AssignmentRecord>

    ghost predicate Valid()
      reads this
    {
      Consistent(log)
    }

    constructor ()
      ensures Valid() && log == []
    {
      log := [];
    }

    /** `record_assignment`: carries forward the latest totals of the pair, bumps them
        and appends one record; earlier records are untouched. */
    method RecordAssignment(p: string, g: string, date: Date, t: DayType) returns (r: AssignmentRecord)
      requires Valid()
      modifies this
      ensures Valid()
      ensures log == old(log) + [r]
      ensures r == NextRecord(old(log), p, g, date, t)
      ensures r.person == p && r.groupId == g && r.date == date && r.dayType == t && r.weight == DefaultWeight(t)
      ensures CountersMatch(r, PersonStats(log, p, g))
    {
      ghost var before := log;
      var latest := LatestRecord(log, p, g);
      var regular, weighted, total := 0, 0.0, 0;
      if latest.Some? {
        regular, weighted, total := latest.value.cumulativeRegularDays, latest.value.cumulativeWeightedDays,
          latest.value.cumulativeTotalDays;
      }
      NextRecordFrom(before, p, g, date, t, regular, weighted, total);
      var weight := DefaultWeight(t);
      ghost var regular0 := regular;
      if t == Regular {
        regular := regular + 1;
      }
      assert regular == regular0 + Indicator(t == Regular);
      weighted := weighted + weight;
      total := total + 1;
      r := AssignmentRecord(p, g, date, t, weight, regular, weighted, total);
      log := log + [r];
      NextRecordExtends(before, p, g, date, t);
    }
  }
}

=== FILE: ledger_scheduler.dfy ===
/** The third-generation scheduler service: the in-memory registry and rotation of the
    second generation, with bounds that are dropped along with their people, and every
    slot of a generated month appended to the assignment ledger with its day type. */
module LedgerScheduler {
  import opened Options
  import opened Calendar
  import opened Holidays
  import opened DayTypes
  import opened DayWeights
  import opened LongWeekends
  import opened AssignmentLedger
  import opened Registry
  import opened Rotation
  import opened RotationProperties
  import MemoryScheduler

  /** The day type passed to `get_day_type` as `generate_monthly_schedule` calls it: the
      holiday list lands in the `is_holiday` flag, so any non-empty list flags every day. */
  function AsWrittenDayType(d: Date, hs: seq<Holiday>): (t: DayType)
    ensures hs != [] ==> t == DayType.Holiday
  {
    GetDayType(d, hs != [])
  }

  /** With one single-day holiday on Monday 2024-01-01 (ordinal 738886), the plain
      Tuesday after it is recorded as a holiday, although no holiday covers it. */
  lemma AsWrittenDayTypeWrong()
    ensures var hs := [Holidays.Holiday(738886, None, None)];
      && !IsHolidayDate(738887, hs)
      && AsWrittenDayType(738887, hs) == DayType.Holiday
      && SlotDayType(738887, hs) == Regular
  {
    var h := Holidays.Holiday(738886, None, None);
    SingleDayDates(h);
    assert !Covers(h, 738887);
    assert Weekday(738887) == 1;
  }

  /** The day type a slot is recorded with: holiday exactly when a holiday covers the date. */
  function SlotDayType(d: Date, hs: seq<Holiday>): (t: DayType)
    ensures t == DayType.Holiday <==> IsHolidayDate(d, hs)
    ensures t != LongWeekendMiddle
  {
    GetDayType(d, IsHolidayDate(d, hs))
  }

  /** Outside long-weekend middle days, the recorded day type is the one the date is
      priced by: `calculate_weight` charges the base weight of that type. */
  lemma SlotDayTypePriced(svc: DayWeightService, d: Date, hs: seq<Holiday>)
    requires svc.Valid() && !IsMiddleDay(d, hs)
    ensures svc.CalculateWeight(d, hs) == svc.GetBaseWeight(SlotDayType(d, hs))
  {
  }

  /** The ledger after recording the slots of a month in order: one record per slot, for
      its person, group and date, with the totals `record_assignment` carries forward. */
  function LogAfter(log0: seq<AssignmentRecord>, slots: seq<Slot>, y: int, m: int, hs: seq<Holiday>): (log: seq<AssignmentRecord>)
    requires ValidYearMonth(y, m)
    ensures |log| == |log0| + |slots|
    decreases |slots|
  {
    if slots == [] then log0
    else
      var l := LogAfter(log0, slots[..|slots| - 1], y, m, hs);
      var x := slots[|slots| - 1];
      var d := Ordinal(y, m, x.day);
      l + [NextRecord(l, x.person, x.group, d, SlotDayType(d, hs))]
  }

  lemma LogAfterSnoc(log0: seq<AssignmentRecord>, slots: seq<Slot>, x: Slot, y: int, m: int, hs: seq<Holiday>)
    requires ValidYearMonth(y, m)
    ensures var l := LogAfter(log0, slots, y, m, hs);
      var d := Ordinal(y, m, x.day);
      LogAfter(log0, slots + [x], y, m, hs) == l + [NextRecord(l, x.person, x.group, d, SlotDayType(d, hs))]
  {
    assert (slots + [x])[..|slots|] == slots;
  }

  /** Recording keeps the earlier records and keeps the ledger's running totals consistent. */
  lemma {:induction false} LogAfterConsistent(log0: seq<AssignmentRecord>, slots: seq<Slot>, y: int, m: int, hs: seq<Holiday>)
    requires ValidYearMonth(y, m) && Consistent(log0)
    ensures var log := LogAfter(log0, slots, y, m, hs);
      log[..|log0|] == log0 && Consistent(log)
    decreases |slots|
  {
    if slots != [] {
      var n := |slots| - 1;
      var x := slots[n];
      LogAfterConsistent(log0, slots[..n], y, m, hs);
      var l := LogAfter(log0, slots[..n], y, m, hs);
      var d := Ordinal(y, m, x.day);
      NextRecordExtends(l, x.person, x.group, d, SlotDayType(d, hs));
      assert LogAfter(log0, slots, y, m, hs)[..|log0|] == l[..|log0|];
    }
  }

  /** Record |log0| + k is slot k's: its person, group, date and day type. */
  lemma {:induction false} LogAfterAt(log0: seq<AssignmentRecord>, slots: seq<Slot>, y: int, m: int, hs: seq<Holiday>, k: nat)
    requires ValidYearMonth(y, m) && k < |slots|
    ensures var r := LogAfter(log0, slots, y, m, hs)[|log0| + k];
      var d := Ordinal(y, m, slots[k].day);
      r.person == slots[k].person && r.groupId == slots[k].group && r.date == d && r.dayType == SlotDayType(d, hs)
    decreases |slots|
  {
    var n := |slots| - 1;
    var init := slots[..n];
    var l := LogAfter(log0, init, y, m, hs);
    if k < n {
      LogAfterAt(log0, init, y, m, hs, k);
      assert init[k] == slots[k];
      assert LogAfter(log0, slots, y, m, hs)[|log0| + k] == l[|log0| + k];
    }
  }

  /** What `generate_monthly_schedule` leaves in the ledger: nothing new when a precheck
      or the date fails; otherwise one record per slot of the run, kept even when a
      minimum is then found unmet. */
  function MonthLog(t: Groups, cons: OrderedMap<Person, Constraint>, minMembers: int, y: int, m: int,
                    hs: seq<Holiday>, log0: seq<AssignmentRecord>): (log: seq<AssignmentRecord>)
    requires t.Valid()
    ensures Precheck(t, minMembers).Fail? || !ValidYearMonth(y, m) ==> log == log0
    ensures Precheck(t, minMembers).Pass? && ValidYearMonth(y, m) ==>
      |log| == |log0| + DaysInMonth(y, m) * |t.keys|
  {
    if Precheck(t, minMembers).Fail? || !ValidYearMonth(y, m) then log0
    else
      MonthFeasible(t, minMembers, DaysInMonth(y, m));
      JobsLength(DaysInMonth(y, m), t.keys);
      LogAfter(log0, MonthRun(t, cons.entries, minMembers, y, m).slots, y, m, hs)
  }

  /** A month that passed its checks logs one record per slot of its run. */
  lemma MonthLogRan(t: Groups, cons: OrderedMap<Person, Constraint>, minMembers: int, y: int, m: int,
                    hs: seq<Holiday>, log0: seq<AssignmentRecord>)
    requires t.Valid() && Precheck(t, minMembers).Pass? && ValidYearMonth(y, m)
    ensures MonthLog(t, cons, minMembers, y, m, hs, log0) == LogAfter(log0, MonthRun(t, cons.entries, minMembers, y, m).slots, y, m, hs)
  {
  }

  /** Record r is the entry of some day 1..n of month m of year y in schedule s. */
  ghost predicate OnSchedule(r: AssignmentRecord, y: int, m: int, n: int, s: Schedule)
    requires ValidYearMonth(y, m)
  {
    exists day :: 1 <= day <= n && r.date == Ordinal(y, m, day)
      && day in s && r.groupId in s[day] && s[day][r.groupId] == r.person
  }

  /** A slot on day 1..n whose entry stands in s yields a record on the schedule. */
  lemma SlotOnSchedule(log0: seq<AssignmentRecord>, slots: seq<Slot>, y: int, m: int, hs: seq<Holiday>, n: int, s: Schedule, i: nat)
    requires ValidYearMonth(y, m) && |log0| <= i < |log0| + |slots|
    requires var x := slots[i - |log0|];
      1 <= x.day <= n && x.day in s && x.group in s[x.day] && s[x.day][x.group] == x.person
    ensures OnSchedule(LogAfter(log0, slots, y, m, hs)[i], y, m, n, s)
  {
    var k := i - |log0|;
    LogAfterAt(log0, slots, y, m, hs, k);
    var day := slots[k].day;
    assert LogAfter(log0, slots, y, m, hs)[|log0| + k].date == Ordinal(y, m, day);
  }

  /** The records of a month that ran agree with the schedule it returns: for each new
      record, that date's day of the month has the record's person on duty for its group. */
  lemma MonthLogMatchesSchedule(t: Groups, cons: OrderedMap<Person, Constraint>, minMembers: int, y: int, m: int,
                                hs: seq<Holiday>, log0: seq<AssignmentRecord>)
    requires t.Valid() && Consistent(log0)
    requires MonthSchedule(t, cons, minMembers, y, m).Success?
    ensures ValidYearMonth(y, m)
    ensures var log := MonthLog(t, cons, minMembers, y, m, hs, log0);
      var s := MonthSchedule(t, cons, minMembers, y, m).value;
      log[..|log0|] == log0 && Consistent(log)
      && forall i :: |log0| <= i < |log| ==> OnSchedule(log[i], y, m, DaysInMonth(y, m), s)
  {
    MonthScheduleSucceeded(t, cons, minMembers, y, m);
    MonthLogRan(t, cons, minMembers, y, m, hs, log0);
    var slots := MonthRun(t, cons.entries, minMembers, y, m).slots;
    var log := LogAfter(log0, slots, y, m, hs);
    LogAfterConsistent(log0, slots, y, m, hs);
    forall i | |log0| <= i < |log|
      ensures OnSchedule(log[i], y, m, DaysInMonth(y, m), ScheduleOf(slots))
    {
      MonthRecordOnSchedule(t, cons.entries, minMembers, y, m, hs, log0, i);
    }
  }

  /** Record i of a month's log stands in the month's schedule. */
  lemma MonthRecordOnSchedule(t: Groups, cons: Limits, minMembers: int, y: int, m: int,
                              hs: seq<Holiday>, log0: seq<AssignmentRecord>, i: nat)
    requires t.Valid() && Precheck(t, minMembers).Pass? && ValidYearMonth(y, m)
    requires |log0| <= i < |log0| + |MonthRun(t, cons, minMembers, y, m).slots|
    ensures var slots := MonthRun(t, cons, minMembers, y, m).slots;
      OnSchedule(LogAfter(log0, slots, y, m, hs)[i], y, m, DaysInMonth(y, m), ScheduleOf(slots))
  {
    var slots := MonthRun(t, cons, minMembers, y, m).slots;
    var k := i - |log0|;
    MonthSlotEntry(t, cons, minMembers, y, m, k);
    SlotOnSchedule(log0, slots, y, m, hs, DaysInMonth(y, m), ScheduleOf(slots), i);
  }

  /** After the first i groups of a day: the ledger holds log0 plus one record per slot of
      the run so far. */
  ghost predicate Logged(h: AssignmentHistoryService, log0: seq<AssignmentRecord>, slots: seq<Slot>, y: int, m: int, hs: seq<Holiday>)
    reads h
  {
    ValidYearMonth(y, m) && h.Valid() && h.log == LogAfter(log0, slots, y, m, hs)
  }

  /** One `record_assignment` call of the group loop: the pick of group g on the day is
      appended to the ledger with the date's day type. */
  method RecordSlot(h: AssignmentHistoryService, y: int, m: int, hs: seq<Holiday>, day: nat, g: GroupId, p: Person,
                    ghost fallback: bool, ghost log0: seq<AssignmentRecord>, ghost slots: seq<Slot>)
    requires Logged(h, log0, slots, y, m, hs)
    modifies h
    ensures Logged(h, log0, slots + [Slot(day, g, p, fallback)], y, m, hs)
  {
    LogAfterSnoc(log0, slots, Slot(day, g, p, fallback), y, m, hs);
    var date := Ordinal(y, m, day);
    var r := h.RecordAssignment(p, g, date, SlotDayType(date, hs));
  }

  /** The group loop of one day, recording each pick in the ledger as it is made. */
  method RecordDay(t: Groups, cons: Limits, y: int, m: int, hs: seq<Holiday>, day: nat, h: AssignmentHistoryService,
                   ghost log0: seq<AssignmentRecord>, ghost jobs: seq<Job>, ghost s: Schedule, ghost tr0: Trace,
                   last0: Last, count0: Count)
    returns (ds: map<GroupId, Person>, last: Last, count: Count, ghost tr: Trace)
    requires t.Valid() && forall g :: g in t.entries ==> |t.entries[g]| > 0
    requires MemoryScheduler.Filling(t, cons, jobs, s, day, 0, tr0, map[], last0, count0) && Logged(h, log0, tr0.slots, y, m, hs)
    modifies h
    ensures MemoryScheduler.Filling(t, cons, jobs, s, day, |t.keys|, tr, ds, last, count) && Logged(h, log0, tr.slots, y, m, hs)
  {
    ds, last, count, tr := map[], last0, count0, tr0;
    var i := 0;
    while i < |t.keys|
      invariant i <= |t.keys|
      invariant MemoryScheduler.Filling(t, cons, jobs, s, day, i, tr, ds, last, count) && Logged(h, log0, tr.slots, y, m, hs)
    {
      var g := t.keys[i];
      ghost var fallback := Eligible(t.entries[g], day, tr.last, tr.count, cons) == [];
      ghost var before := tr.slots;
      var p;
      p, ds, last, count, tr := MemoryScheduler.FillSlot(t, cons, jobs, s, day, i, tr, ds, last, count);
      RecordSlot(h, y, m, hs, day, g, p, fallback, log0, before);
      i := i + 1;
    }
  }

  /** One pass of the day loop: day k + 1 is filled and recorded, and the month's run,
      schedule and ledger grow by that day. */
  method RecordNextDay(t: Groups, cons: Limits, y: int, m: int, hs: seq<Holiday>, h: AssignmentHistoryService,
                       ghost log0: seq<AssignmentRecord>, k: nat, ghost tr: Trace, s: Schedule, last: Last, count: Count)
    returns (s1: Schedule, last1: Last, count1: Count, ghost tr1: Trace)
    requires t.Valid() && |t.keys| > 0 && forall g :: g in t.entries ==> |t.entries[g]| > 0
    requires MemoryScheduler.Filled(t, cons, k, tr, s, last, count) && Logged(h, log0, tr.slots, y, m, hs)
    modifies h
    ensures MemoryScheduler.Filled(t, cons, k + 1, tr1, s1, last1, count1) && Logged(h, log0, tr1.slots, y, m, hs)
  {
    DayBegin(t, cons, k, tr, s);
    var ds;
    ds, last1, count1, tr1 := RecordDay(t, cons, y, m, hs, k + 1, h, log0, Jobs(k, t.keys), s, tr, last, count);
    DayFinish(t, cons, k, s, tr1, ds);
    s1 := s[k + 1 := ds];
  }

  /** The day loop over days 1..n (the month's length), recording every slot: the result
      is the run's schedule and counts, and the ledger holds one record per slot of the run. */
  method RecordMonth(t: Groups, cons: Limits, y: int, m: int, hs: seq<Holiday>, h: AssignmentHistoryService, n: nat)
    returns (s: Schedule, count: Count)
    requires ValidYearMonth(y, m)
    requires t.Valid() && |t.keys| > 0 && forall g :: g in t.entries ==> |t.entries[g]| > 0
    requires h.Valid()
    modifies h
    ensures Feasible(t.entries, Jobs(n, t.keys))
    ensures s == ScheduleOf(Run(t.entries, cons, Jobs(n, t.keys)).slots)
    ensures count == Run(t.entries, cons, Jobs(n, t.keys)).count
    ensures Logged(h, old(h.log), Run(t.entries, cons, Jobs(n, t.keys)).slots, y, m, hs)
  {
    ghost var log0 := h.log;
    s := map[];
    var last: Last := map[];
    count := map[];
    ghost var tr := Trace([], map[], map[]);
    MonthStart(t, cons);
    var k := 0;
    while k < n
      invariant k <= n
      invariant MemoryScheduler.Filled(t, cons, k, tr, s, last, count) && Logged(h, log0, tr.slots, y, m, hs)
    {
      s, last, count, tr := RecordNextDay(t, cons, y, m, hs, h, log0, k, tr, s, last, count);
      k := k + 1;
    }
    MonthEnd(t, cons, k, n, tr, s);
  }

  /** `generate_monthly_schedule` on the registry state: the prechecks, the recorded
      rotation and the minimum-days check. */
  method GenerateMonth(t: Groups, cons: OrderedMap<Person, Constraint>, minMembers: int, y: int, m: int,
                       hs: seq<Holiday>, h: AssignmentHistoryService)
    returns (r: Result<Schedule, ScheduleError>)
    requires t.Valid() && cons.Valid() && h.Valid()
    modifies h
    ensures r == MonthSchedule(t, cons, minMembers, y, m)
    ensures h.Valid() && h.log == MonthLog(t, cons, minMembers, y, m, hs, old(h.log))
  {
    var pre := Precheck(t, minMembers);
    if pre.Fail? {
      MonthSchedulePrecheckFails(t, cons, minMembers, y, m);
      return Failure(pre.error);
    }
    if !ValidYearMonth(y, m) {
      MonthScheduleInvalidDate(t, cons, minMembers, y, m);
      return Failure(InvalidDate);
    }
    MonthScheduleRan(t, cons, minMembers, y, m);
    var s, count := RecordMonth(t, cons.entries, y, m, hs, h, DaysInMonth(y, m));
    var unmet := MemoryScheduler.FindUnmet(cons, count);
    if unmet.Some? {
      var p := unmet.value;
      return Failure(UnmetMinimumDays(p, cons.entries[p].minDays.value, CountOf(p, count)));
    }
    r := Success(s);
  }

  /** The `del` loop of `delete_group`: each listed person's bounds are dropped where present. */
  method DropLimits(cons: OrderedMap<Person, Constraint>, ps: seq<Person>) returns (r: OrderedMap<Person, Constraint>)
    requires cons.Valid()
    ensures r == RemoveKeys(cons, ps)
  {
    r := cons;
    var i := 0;
    while i < |ps|
      invariant i <= |ps| && r.Valid()
      invariant r == RemoveKeys(cons, ps[..i])
    {
      assert ps[..i + 1][..i] == ps[..i];
      if ps[i] in r.entries {
        r := r.Remove(ps[i]);
      }
      i := i + 1;
    }
    assert ps[..i] == ps;
  }

  class SchedulerService {
    /** The group-size minimum of the prechecks. */
    const minMembers: int
    /** The assignment ledger the service writes to. */
    const history: AssignmentHistoryService
    var groups: Groups
    var constraints: OrderedMap<Person, Constraint>

    ghost predicate Valid()
      reads this, history
    {
      GroupsValid(groups) && constraints.Valid() && history.Valid()
    }

    /** A service over an empty registry writing to the given ledger. */
    constructor (minMembers: int, history: AssignmentHistoryService)
      requires history.Valid()
      ensures Valid() && this.minMembers == minMembers && this.history == history
      ensures groups == Empty() && constraints == Empty()
    {
      this.minMembers := minMembers;
      this.history := history;
      groups := Empty();
      constraints := Empty();
    }

    /** `add_person_to_group`: the checks of the in-memory service, then the bounds are
        stored and the person added. */
    method AddPersonToGroup(p: Person, g: GroupId, c: Constraint) returns (r: Outcome<MemoryScheduler.ServiceError>)
      requires Valid()
      modifies this`groups, this`constraints
      ensures Valid()
      ensures r == MemoryScheduler.CheckPerson(p, c)
      ensures r.Pass? ==> groups == AddMember(old(groups), g, p) && constraints == old(constraints).Put(p, c)
      ensures r.Fail? ==> groups == old(groups) && constraints == old(constraints)
    {
      r := MemoryScheduler.CheckPerson(p, c);
      if r.Pass? {
        constraints := constraints.Put(p, c);
        groups := AddMember(groups, g, p);
      }
    }

    /** `bulk_add_groups`' registry part: every absent id is created, in input order. */
    method BulkAddGroups(ids: seq<GroupId>) returns (ok: bool)
      requires Valid()
      modifies this`groups
      ensures Valid() && ok && constraints == old(constraints)
      ensures groups == AddGroups(old(groups), ids)
    {
      var created;
      groups, created := AddGroupsLoop(groups, ids);
      ok := true;
    }

    /** `remove_person_from_group`: false with nothing changed when the group or the member
        is missing; otherwise the member is removed and their bounds dropped. */
    method RemovePersonFromGroup(p: Person, g: GroupId) returns (ok: bool)
      requires Valid()
      modifies this`groups, this`constraints
      ensures Valid()
      ensures ok <==> g in old(groups).entries && p in old(groups).entries[g]
      ensures ok ==> groups == RemoveMember(old(groups), g, p) && constraints == RemoveKeys(old(constraints), [p])
      ensures !ok ==> groups == old(groups) && constraints == old(constraints)
    {
      if g !in groups.entries || p !in groups.entries[g] {
        return false;
      }
      groups := RemoveMember(groups, g, p);
      if p in constraints.entries {
        constraints := constraints.Remove(p);
      }
      ok := true;
    }

    /** `delete_group`: false with nothing changed when the group is missing; otherwise
        the bounds of all its members are dropped and the group deleted. */
    method DeleteGroup(g: GroupId) returns (ok: bool)
      requires Valid()
      modifies this`groups, this`constraints
      ensures Valid()
      ensures ok <==> g in old(groups).entries
      ensures ok ==> groups == Registry.DeleteGroup(old(groups), g)
      ensures ok ==> constraints == RemoveKeys(old(constraints), old(groups).entries[g])
      ensures !ok ==> groups == old(groups) && constraints == old(constraints)
    {
      if g !in groups.entries {
        return false;
      }
      constraints := DropLimits(constraints, groups.entries[g]);
      groups := Registry.DeleteGroup(groups, g);
      ok := true;
    }

    /** `generate_monthly_schedule`: the schedule or the error, with the ledger grown by
        one record per slot whenever the rotation ran. Nothing is stored in the service. */
    method GenerateMonthlySchedule(y: int, m: int, hs: seq<Holiday>) returns (r: Result<Schedule, ScheduleError>)
      requires Valid()
      modifies history
      ensures Valid()
      ensures r == MonthSchedule(groups, constraints, minMembers, y, m)
      ensures history.log == MonthLog(groups, constraints, minMembers, y, m, hs, old(history.log))
    {
      var g, c := groups, constraints;
      r := GenerateMonth(g, c, minMembers, y, m, hs, history);
    }

    /** `get_groups`. */
    function GetGroups(): Groups
      reads this
    {
      groups
    }
  }
}

=== FILE: legacy_scheduler.dfy ===
/** The first-generation scheduler: a group registry and an unconstrained monthly
    rotation. Nobody is scheduled on two consecutive days while anyone else in the
    group is free, and among the free members the least recently scheduled one is
    chosen. */
module LegacyScheduler {
  import opened Options
  import opened Calendar
  import opened Registry
  import opened Rotation
  import opened ScheduleQueries

  /** The members not scheduled on the previous day, in member order (the loop that
      builds `eligible_members`). Without constraints the count plays no part. */
  method EligibleMembers(ms: seq<Person>, day: nat, last: Last, ghost count: Count) returns (e: seq<Person>)
    ensures e == Eligible(ms, day, last, count, map[])
    ensures forall p :: p in e <==> p in ms && NotYesterday(p, day, last)
  {
    e := [];
    var i := 0;
    while i < |ms|
      invariant 0 <= i <= |ms|
      invariant e == Eligible(ms[..i], day, last, count, map[])
    {
      var p := ms[i];
      EligibleSnoc(ms, i, day, last, count);
      if p !in last || last[p] + 1 != day {
        e := e + [p];
      }
      i := i + 1;
    }
    assert ms[..|ms|] == ms;
  }

  /** Without constraints, one more member extends the eligible list exactly when that
      member was not on duty the day before. */
  lemma EligibleSnoc(ms: seq<Person>, i: nat, day: nat, last: Last, count: Count)
    requires i < |ms|
    ensures Eligible(ms[..i + 1], day, last, count, map[])
         == Eligible(ms[..i], day, last, count, map[]) + (if NotYesterday(ms[i], day, last) then [ms[i]] else [])
  {
    assert ms[..i + 1][..i] == ms[..i];
  }

  /** The choice loop: the first never-scheduled candidate ends the search; otherwise the
      strict comparison keeps the first candidate with the earliest last day. The first
      candidate is the fallback the source falls back on when the loop chose nobody. */
  method LeastRecent(c: seq<Person>, last: Last) returns (p: Person)
    requires |c| > 0
    ensures p == PickLeastRecent(c, last)
  {
    p := c[0];
    var oldest: Option<nat> := None;
    var i := 0;
    while i < |c|
      invariant 0 <= i <= |c|
      invariant forall j :: 0 <= j < i ==> c[j] in last
      invariant oldest.Some? <==> i > 0
      invariant i > 0 ==> p == c[Oldest(c[..i], last)] && oldest == Some(last[p])
    {
      var q := c[i];
      if q !in last {
        p := q;
        assert FirstNever(c, last) == i;
        return;
      } else if oldest.None? || last[q] < oldest.value {
        oldest := Some(last[q]);
        p := q;
      }
      assert c[..i + 1][..i] == c[..i];
      i := i + 1;
    }
    assert c[..|c|] == c;
  }

  /** The eligible members, or every member when none is eligible, and the least
      recently scheduled of them: the rotation's choice without constraints. */
  lemma LegacyChoice(ms: seq<Person>, day: nat, last: Last, count: Count, e: seq<Person>, p: Person)
    requires |ms| > 0
    requires e == if Eligible(ms, day, last, count, map[]) == [] then ms else Eligible(ms, day, last, count, map[])
    requires |e| > 0 && p == PickLeastRecent(e, last)
    ensures p == Choose(ms, day, last, count, map[])
  {
    SelectUnconstrained(e, last, count);
  }

  /** One group's pick: the eligible members, or all of them when none is eligible,
      and the least recently scheduled of those. */
  method PickMember(ms: seq<Person>, day: nat, last: Last, ghost count: Count) returns (p: Person)
    requires |ms| > 0
    ensures p == Choose(ms, day, last, count, map[])
  {
    var e := EligibleMembers(ms, day, last, count);
    if e == [] {
      e := ms;
    }
    p := LeastRecent(e, last);
    LegacyChoice(ms, day, last, count, e, p);
  }

  /** After the first i groups of the day: the run's state, with the last days held in
      step with it. */
  ghost predicate Filling(t: Groups, jobs: seq<Job>, s: Schedule, day: nat, i: nat, tr: Trace,
                          ds: map<GroupId, Person>, last: Last) {
    DayState(t, map[], jobs, s, day, i, tr, ds) && day !in s && last == tr.last
  }

  /** One pass of the group loop: group i's pick, recorded in the day's entries and the
      last days, as the run's next step records it. */
  method FillSlot(t: Groups, ghost jobs: seq<Job>, ghost s: Schedule, day: nat, i: nat, ghost tr: Trace,
                  ds: map<GroupId, Person>, last: Last)
    returns (ds1: map<GroupId, Person>, last1: Last, ghost tr1: Trace)
    requires t.Valid() && forall g :: g in t.entries ==> |t.entries[g]| > 0
    requires Filling(t, jobs, s, day, i, tr, ds, last) && i < |t.keys|
    ensures Filling(t, jobs, s, day, i + 1, tr1, ds1, last1)
  {
    var g := t.keys[i];
    var p := PickMember(t.entries[g], day, last, tr.count);
    SlotStep(t, map[], jobs, s, day, i, tr, ds, p);
    tr1 := Step(t.entries, map[], tr, Job(day, g));
    ds1 := ds[g := p];
    last1 := last[p := day];
  }

  /** The group loop of one day: each group in registration order gets its choice, and
      the day's entries and last days are those of the rotation run extended by the
      day's jobs. */
  method FillDay(t: Groups, day: nat, ghost jobs: seq<Job>, ghost s: Schedule, ghost tr0: Trace, last0: Last)
    returns (ds: map<GroupId, Person>, last: Last, ghost tr: Trace)
    requires t.Valid() && forall g :: g in t.entries ==> |t.entries[g]| > 0
    requires Filling(t, jobs, s, day, 0, tr0, map[], last0)
    ensures Filling(t, jobs, s, day, |t.keys|, tr, ds, last)
  {
    ds, last, tr := map[], last0, tr0;
    var i := 0;
    while i < |t.keys|
      invariant i <= |t.keys|
      invariant Filling(t, jobs, s, day, i, tr, ds, last)
    {
      ds, last, tr := FillSlot(t, jobs, s, day, i, tr, ds, last);
      i := i + 1;
    }
  }

  /** After the first k days: the month's run, with the last days held in step with it. */
  ghost predicate Filled(t: Groups, k: nat, tr: Trace, s: Schedule, last: Last) {
    MonthState(t, map[], k, tr, s) && last == tr.last
  }

  /** One pass of the day loop: day k + 1 is filled, and the month's run and schedule
      grow by that day. */
  method FillNextDay(t: Groups, k: nat, ghost tr: Trace, s: Schedule, last: Last)
    returns (s1: Schedule, last1: Last, ghost tr1: Trace)
    requires t.Valid() && |t.keys| > 0 && forall g :: g in t.entries ==> |t.entries[g]| > 0
    requires Filled(t, k, tr, s, last)
    ensures Filled(t, k + 1, tr1, s1, last1)
  {
    DayBegin(t, map[], k, tr, s);
    var ds;
    ds, last1, tr1 := FillDay(t, k + 1, Jobs(k, t.keys), s, tr, last);
    DayFinish(t, map[], k, s, tr1, ds);
    s1 := s[k + 1 := ds];
  }

  /** The day loop of `generate_monthly_schedule`: days 1..n; the result is the
      schedule of the rotation run without constraints. */
  method FillMonth(t: Groups, n: nat) returns (s: Schedule)
    requires t.Valid() && |t.keys| > 0 && forall g :: g in t.entries ==> |t.entries[g]| > 0
    ensures Feasible(t.entries, Jobs(n, t.keys))
    ensures s == ScheduleOf(Run(t.entries, map[], Jobs(n, t.keys)).slots)
  {
    s := map[];
    var last: Last := map[];
    ghost var tr := Trace([], map[], map[]);
    MonthStart(t, map[]);
    var k := 0;
    while k < n
      invariant k <= n
      invariant Filled(t, k, tr, s, last)
    {
      s, last, tr := FillNextDay(t, k, tr, s, last);
      k := k + 1;
    }
    MonthEnd(t, map[], k, n, tr, s);
  }

  /** The prechecks with the fixed two-member minimum, then the rotation. */
  method GenerateMonth(t: Groups, y: int, m: int) returns (r: Result<Schedule, ScheduleError>)
    requires t.Valid()
    ensures r == MonthSchedule(t, Empty(), 2, y, m)
  {
    var pre := Precheck(t, 2);
    if pre.Fail? {
      MonthSchedulePrecheckFails(t, Empty(), 2, y, m);
      return Failure(pre.error);
    }
    if !ValidYearMonth(y, m) {
      MonthScheduleInvalidDate(t, Empty(), 2, y, m);
      return Failure(InvalidDate);
    }
    MonthScheduleUnconstrained(t, 2, y, m);
    var s := FillMonth(t, DaysInMonth(y, m));
    r := Success(s);
  }

  /** The inner loop of `bulk_add_people_to_groups`: create g when missing, then
      append each name not yet in it, collecting the names appended. */
  method AddBatchLoop(t: Groups, g: GroupId, people: seq<Person>) returns (u: Groups, added: seq<Person>)
    requires GroupsValid(t)
    ensures u == AddBatch(t, g, people).0 && added == AddBatch(t, g, people).1
  {
    BatchStart(t, g, people);
    u := t;
    if g !in u.entries {
      u := u.Put(g, []);
    }
    added := [];
    var j := 0;
    while j < |people|
      invariant BatchState(t, g, people, j, u, added)
    {
      var x := people[j];
      BatchNext(t, g, people, j, u, added);
      if x !in u.entries[g] {
        u := u.Put(g, u.entries[g] + [x]);
        added := added + [x];
      }
      j := j + 1;
    }
    BatchEnd(t, g, people, u, added);
  }

  /** After the first i batches: the registry and report are those of the batches so far. */
  ghost predicate ItemsState(t: Groups, items: seq<(GroupId, seq<Person>)>, i: int,
                             u: Groups, results: map<GroupId, seq<Person>>) {
    GroupsValid(t) && 0 <= i <= |items| && (u, results) == AddPeople(t, items[..i])
  }

  /** One batch of `bulk_add_people_to_groups`: its names in turn, then its report entry
      when it appended any. */
  method AddItem(ghost t: Groups, items: seq<(GroupId, seq<Person>)>, i: nat,
                 u: Groups, results: map<GroupId, seq<Person>>)
    returns (u1: Groups, results1: map<GroupId, seq<Person>>)
    requires ItemsState(t, items, i, u, results) && i < |items|
    ensures ItemsState(t, items, i + 1, u1, results1)
  {
    var g := items[i].0;
    var added;
    u1, added := AddBatchLoop(u, g, items[i].1);
    AddPeopleSnoc(t, items, i);
    results1 := results;
    if added != [] {
      results1 := results[g := added];
    }
  }

  class Scheduler {
    var groups: Groups
    var schedule: Schedule

    ghost predicate Valid()
      reads this
    {
      GroupsValid(groups)
    }

    constructor ()
      ensures Valid() && groups == Empty() && schedule == map[]
    {
      groups := Empty();
      schedule := map[];
    }

    /** `add_person_to_group`: creates the group if missing, appends the person if absent. */
    method AddPersonToGroup(p: Person, g: GroupId)
      requires Valid()
      modifies this`groups
      ensures Valid() && schedule == old(schedule)
      ensures groups == AddMember(old(groups), g, p)
    {
      groups := AddMember(groups, g, p);
    }

    /** `bulk_add_groups`: creates every absent id, in input order, and reports for each
        id whether it was created; an id is reported created exactly when it was absent
        and occurs once in the input. */
    method BulkAddGroups(ids: seq<GroupId>) returns (results: map<GroupId, bool>)
      requires Valid()
      modifies this`groups
      ensures Valid() && schedule == old(schedule)
      ensures groups == AddGroups(old(groups), ids)
      ensures results == AddGroupsReport(old(groups), ids)
      ensures forall g :: g in results <==> g in ids
      ensures forall g :: g in results ==> (results[g] <==> g !in old(groups).entries && multiset(ids)[g] == 1)
    {
      AddGroupsReportCreated(groups, ids);
      groups, results := AddGroupsLoop(groups, ids);
    }

    /** `bulk_add_people_to_groups`: for each (group, names) batch, creates the group if
        missing and appends each name not yet in it; reports per group the names a batch
        appended, omitting batches that appended none. */
    method BulkAddPeopleToGroups(items: seq<(GroupId, seq<Person>)>) returns (results: map<GroupId, seq<Person>>)
      requires Valid()
      modifies this`groups
      ensures Valid() && schedule == old(schedule)
      ensures groups == AddPeople(old(groups), items).0
      ensures results == AddPeople(old(groups), items).1
    {
      ghost var t := groups;
      results := map[];
      var i := 0;
      while i < |items|
        invariant t == old(groups)
        invariant ItemsState(t, items, i, groups, results)
      {
        groups, results := AddItem(t, items, i, groups, results);
        i := i + 1;
      }
      assert items[..|items|] == items;
    }

    /** `remove_person_from_group`: false when the group or the member is missing. */
    method RemovePersonFromGroup(p: Person, g: GroupId) returns (removed: bool)
      requires Valid()
      modifies this`groups
      ensures Valid() && schedule == old(schedule)
      ensures removed <==> g in old(groups).entries && p in old(groups).entries[g]
      ensures removed ==> groups == RemoveMember(old(groups), g, p)
      ensures !removed ==> groups == old(groups)
    {
      if g !in groups.entries {
        return false;
      }
      if p !in groups.entries[g] {
        return false;
      }
      groups := RemoveMember(groups, g, p);
      removed := true;
    }

    /** `delete_group`: false when the group is missing. */
    method DeleteGroup(g: GroupId) returns (deleted: bool)
      requires Valid()
      modifies this`groups
      ensures Valid() && schedule == old(schedule)
      ensures deleted <==> g in old(groups).entries
      ensures deleted ==> groups == Registry.DeleteGroup(old(groups), g)
      ensures !deleted ==> groups == old(groups)
    {
      if g !in groups.entries {
        return false;
      }
      groups := Registry.DeleteGroup(groups, g);
      deleted := true;
    }

    /** `generate_monthly_schedule`: a successful run replaces the stored schedule, a
        failed one leaves it as it was. */
    method GenerateMonthlySchedule(y: int, m: int) returns (r: Result<Schedule, ScheduleError>)
      requires Valid()
      modifies this`schedule
      ensures Valid() && groups == old(groups)
      ensures r == MonthSchedule(groups, Empty(), 2, y, m)
      ensures schedule == if r.Success? then r.value else old(schedule)
    {
      var g := groups;
      r := GenerateMonth(g, y, m);
      if r.Success? {
        schedule := r.value;
      }
      assert groups == g;
    }

    /** `get_schedule`. */
    function GetSchedule(): Schedule
      reads this
    {
      schedule
    }

    /** `get_person_schedule`: the days the person is on duty, ascending. */
    method GetPersonSchedule(p: Person) returns (r: seq<nat>)
      ensures Increasing(r)
      ensures forall d :: d in r <==> OnDuty(schedule, d, p)
    {
      r := PersonDays(schedule, p);
    }

    /** `get_groups`. */
    function GetGroups(): Groups
      reads this
    {
      groups
    }
  }
}

=== FILE: long_weekends.dfy ===
/** Long holiday periods (three or more days), their interior "middle" days, and
    the classification of every date of a period into one day type. */
module LongWeekends {
  import opened Options
  import opened Calendar
  import opened Holidays
  import opened DayTypes

  /** `_min_long_weekend_days`. */
  const MinLongWeekendDays := 3

  datatype LongWeekend = LongWeekend(startDate: Date, endDate: Date)

  /** Some date of the list falls in month m of year y. */
  predicate OverlapsMonth(dates: seq<Date>, y: int, m: int) {
    exists i :: 0 <= i < |dates| && InMonth(dates[i], y, m)
  }

  /** A holiday `find_long_weekends` reports for month m of year y. */
  predicate IsLongWeekendIn(h: Holiday, y: int, m: int) {
    OverlapsMonth(Dates(h), y, m) && |Dates(h)| >= MinLongWeekendDays
  }

  /** The (first date, last date) pair reported for a long holiday. */
  function Bounds(h: Holiday): LongWeekend
    requires |Dates(h)| > 0
  {
    LongWeekend(Dates(h)[0], Dates(h)[|Dates(h)| - 1])
  }

  /** The reported pairs, in the order of the holidays. */
  function LongWeekendsIn(hs: seq<Holiday>, y: int, m: int): seq<LongWeekend>
    decreases |hs|
  {
    if hs == [] then []
    else
      var h := hs[|hs| - 1];
      LongWeekendsIn(hs[..|hs| - 1], y, m) + (if IsLongWeekendIn(h, y, m) then [Bounds(h)] else [])
  }

  /** `find_long_weekends`. */
  method FindLongWeekends(holidays: seq<Holiday>, y: int, m: int) returns (r: seq<LongWeekend>)
    ensures r == LongWeekendsIn(holidays, y, m)
  {
    r := [];
    for i := 0 to |holidays|
      invariant r == LongWeekendsIn(holidays[..i], y, m)
    {
      assert holidays[..i + 1][..i] == holidays[..i];
      var dates := GetDates(holidays[i]);
      if !OverlapsMonth(dates, y, m) {
        continue;
      }
      if |dates| >= MinLongWeekendDays {
        r := r + [LongWeekend(dates[0], dates[|dates| - 1])];
      }
    }
    assert holidays[..|holidays|] == holidays;
  }

  /** A holiday with at least three dates spans at least two days from its first to its last date. */
  lemma LongBoundsApart(h: Holiday)
    requires |Dates(h)| >= MinLongWeekendDays
    ensures Bounds(h).endDate - Bounds(h).startDate >= 2
    ensures h.endDate.Some? && Bounds(h) == LongWeekend(h.startDate, h.endDate.value)
  {
    SpanAt(h.startDate, h.endDate.value);
  }

  /** A pair is reported exactly when it bounds some holiday that has at least three
      dates and a date in the month; every reported pair is at least two days apart. */
  lemma {:induction false} LongWeekendsExact(hs: seq<Holiday>, y: int, m: int)
    ensures |LongWeekendsIn(hs, y, m)| <= |hs|
    ensures forall w :: w in LongWeekendsIn(hs, y, m) <==>
      exists i :: 0 <= i < |hs| && IsLongWeekendIn(hs[i], y, m) && w == Bounds(hs[i])
    ensures forall w :: w in LongWeekendsIn(hs, y, m) ==> w.endDate - w.startDate >= 2
    decreases |hs|
  {
    if hs != [] {
      var init, h := hs[..|hs| - 1], hs[|hs| - 1];
      LongWeekendsExact(init, y, m);
      if IsLongWeekendIn(h, y, m) {
        LongBoundsApart(h);
      }
      forall w | w in LongWeekendsIn(hs, y, m)
        ensures exists i :: 0 <= i < |hs| && IsLongWeekendIn(hs[i], y, m) && w == Bounds(hs[i])
      {
        if w !in LongWeekendsIn(init, y, m) {
          assert IsLongWeekendIn(hs[|hs| - 1], y, m) && w == Bounds(hs[|hs| - 1]);
        } else {
          var i :| 0 <= i < |init| && IsLongWeekendIn(init[i], y, m) && w == Bounds(init[i]);
          assert hs[i] == init[i];
        }
      }
      forall w | exists i :: 0 <= i < |hs| && IsLongWeekendIn(hs[i], y, m) && w == Bounds(hs[i])
        ensures w in LongWeekendsIn(hs, y, m)
      {
        var i :| 0 <= i < |hs| && IsLongWeekendIn(hs[i], y, m) && w == Bounds(hs[i]);
        if i < |hs| - 1 {
          assert init[i] == hs[i];
        }
      }
    }
  }

  /** `get_middle_days`: the dates strictly between start and end. */
  method GetMiddleDays(s: Date, e: Date) returns (r: set<Date>)
    ensures forall d :: d in r <==> s < d < e
    ensures |r| == if s < e then e - s - 1 else 0
  {
    if s >= e {
      return {};
    }
    r := {};
    var current := s + 1;
    while current < e
      invariant s + 1 <= current <= e
      invariant forall d :: d in r <==> s < d < current
      invariant |r| == current - s - 1
      decreases e - current
    {
      assert current !in r;
      r := r + {current};
      current := current + 1;
    }
  }

  /** d is an interior day of holiday h, and h has at least three dates. */
  predicate MiddleOf(h: Holiday, d: Date) {
    var ds := Dates(h);
    |ds| >= MinLongWeekendDays && d in ds && d != ds[0] && d != ds[|ds| - 1]
  }

  /** `is_middle_day`. */
  predicate IsMiddleDay(d: Date, hs: seq<Holiday>) {
    exists i :: 0 <= i < |hs| && MiddleOf(hs[i], d)
  }

  /** h ends at least two days after it starts and d lies strictly between its start and end dates. */
  predicate StrictlyInside(h: Holiday, d: Date) {
    h.endDate.Some? && h.endDate.value - h.startDate >= 2 && h.startDate < d < h.endDate.value
  }

  /** d is a middle day of h exactly when h ends at least two days after it starts and
      d lies strictly between its start and end dates. So the first and last dates, and
      every date of a one- or two-day holiday, are never middle days. */
  lemma MiddleOfIff(h: Holiday, d: Date)
    ensures MiddleOf(h, d) <==> StrictlyInside(h, d)
  {
    if h.endDate.Some? && h.endDate.value != h.startDate {
      SpanAt(h.startDate, h.endDate.value);
      SpanMember(h.startDate, h.endDate.value, d);
    }
  }

  /** `is_middle_day(d)` holds iff some holiday has at least three days and d lies
      strictly inside it. */
  lemma IsMiddleDayIff(d: Date, hs: seq<Holiday>)
    ensures IsMiddleDay(d, hs) <==> exists i :: 0 <= i < |hs| && StrictlyInside(hs[i], d)
  {
    forall i | 0 <= i < |hs| {
      MiddleOfIff(hs[i], d);
    }
  }

  /** The holiday `analyze_period`'s date map holds for d: the last listed holiday that
      covers d, because later holidays overwrite earlier ones. */
  function LastCovering(d: Date, hs: seq<Holiday>): (r: Option<Holiday>)
    ensures r.Some? ==> Covers(r.value, d) && r.value in hs
    ensures r.Some? ==> exists i :: 0 <= i < |hs| && hs[i] == r.value && forall j :: i < j < |hs| ==> !Covers(hs[j], d)
    ensures r.None? <==> !IsHolidayDate(d, hs)
    decreases |hs|
  {
    if hs == [] then None
    else if Covers(hs[|hs| - 1], d) then Some(hs[|hs| - 1])
    else
      var r := LastCovering(d, hs[..|hs| - 1]);
      assert forall i :: 0 <= i < |hs| - 1 ==> hs[..|hs| - 1][i] == hs[i];
      r
  }

  /** The type `analyze_period` gives date d. */
  function Classify(d: Date, hs: seq<Holiday>): DayType {
    match LastCovering(d, hs)
    case Some(h) => if MiddleOf(h, d) then LongWeekendMiddle else DayType.Holiday
    case None => GetDayType(d, false)
  }

  /** The date map `analyze_period` builds first: each date of each holiday, mapped
      to the holiday, later holidays overwriting earlier ones. */
  method HolidayIndex(holidays: seq<Holiday>) returns (index: map<Date, Holiday>)
    ensures forall d :: d in index <==> LastCovering(d, holidays).Some?
    ensures forall d :: d in index ==> index[d] == LastCovering(d, holidays).value
  {
    index := map[];
    for i := 0 to |holidays|
      invariant forall d :: d in index <==> LastCovering(d, holidays[..i]).Some?
      invariant forall d :: d in index ==> index[d] == LastCovering(d, holidays[..i]).value
    {
      var h := holidays[i];
      assert holidays[..i + 1][..i] == holidays[..i] && holidays[..i + 1][i] == h;
      var dates := GetDates(h);
      for j := 0 to |dates|
        invariant forall d :: d in index <==> d in dates[..j] || LastCovering(d, holidays[..i]).Some?
        invariant forall d :: d in index ==>
          index[d] == if d in dates[..j] then h else LastCovering(d, holidays[..i]).value
      {
        assert dates[..j + 1] == dates[..j] + [dates[j]];
        index := index[dates[j] := h];
      }
      assert dates[..|dates|] == dates;
    }
    assert holidays[..|holidays|] == holidays;
  }

  /** `analyze_period`: one day type for every date from start to end inclusive. */
  method AnalyzePeriod(s: Date, e: Date, holidays: seq<Holiday>) returns (types: map<Date, DayType>)
    ensures forall d :: d in types <==> s <= d <= e
    ensures forall d :: d in types ==> types[d] == Classify(d, holidays)
  {
    var index := HolidayIndex(holidays);
    types := map[];
    var current := s;
    while current <= e
      invariant s <= current <= if e < s then s else e + 1
      invariant forall d :: d in types <==> s <= d < current
      invariant forall d :: d in types ==> types[d] == Classify(d, holidays)
      decreases e - current
    {
      var t;
      if current in index {
        var dates := GetDates(index[current]);
        if |dates| >= MinLongWeekendDays && current != dates[0] && current != dates[|dates| - 1] {
          t := LongWeekendMiddle;
        } else {
          t := DayType.Holiday;
        }
      } else if Weekday(current) >= 5 {
        t := Weekend;
      } else if Weekday(current) == 4 {
        t := Friday;
      } else {
        t := Regular;
      }
      types := types[current := t];
      current := current + 1;
    }
  }

  /** The precedence of `analyze_period`: an interior day of a long holiday is a middle
      day, any other holiday date is a holiday, and a date no holiday covers is
      classified by the calendar alone (weekend, then Friday, then regular). A middle
      day of the classification is always a middle day in the sense of `is_middle_day`. */
  lemma ClassifyPrecedence(d: Date, hs: seq<Holiday>)
    ensures !IsHolidayDate(d, hs) ==> Classify(d, hs) == GetDayType(d, false)
    ensures IsHolidayDate(d, hs) ==> Classify(d, hs) in {DayType.Holiday, LongWeekendMiddle}
    ensures Classify(d, hs) == LongWeekendMiddle ==> IsMiddleDay(d, hs)
    ensures !IsMiddleDay(d, hs) && IsHolidayDate(d, hs) ==> Classify(d, hs) == DayType.Holiday
  {
    var r := LastCovering(d, hs);
    if r.Some? {
      var i :| 0 <= i < |hs| && hs[i] == r.value;
      if MiddleOf(r.value, d) {
        assert MiddleOf(hs[i], d);
      }
    }
  }

  /** When holidays overlap on a date, the holiday listed last decides its type. */
  lemma LaterHolidayWins(d: Date, hs: seq<Holiday>, h: Holiday)
    requires Covers(h, d)
    ensures Classify(d, hs + [h]) == if MiddleOf(h, d) then LongWeekendMiddle else DayType.Holiday
  {
    assert (hs + [h])[|hs + [h]| - 1] == h;
  }

  /** A holiday that does not cover d, listed after the others, leaves d's type as it
      was: only covering holidays overwrite the date map's entry for d. */
  lemma NonCoveringKeeps(d: Date, hs: seq<Holiday>, h: Holiday)
    requires !Covers(h, d)
    ensures LastCovering(d, hs + [h]) == LastCovering(d, hs)
    ensures Classify(d, hs + [h]) == Classify(d, hs)
  {
    assert (hs + [h])[..|hs + [h]| - 1] == hs;
  }

  /** Conversely, a covering holiday that no later holiday overrides is the one kept
      for d, whatever the holidays listed before it. */
  lemma {:induction false} LastCoveringIsLast(d: Date, hs: seq<Holiday>, i: int)
    requires 0 <= i < |hs| && Covers(hs[i], d)
    requires forall j :: i < j < |hs| ==> !Covers(hs[j], d)
    ensures LastCovering(d, hs) == Some(hs[i])
    ensures Classify(d, hs) == if MiddleOf(hs[i], d) then LongWeekendMiddle else DayType.Holiday
    decreases |hs|
  {
    if i < |hs| - 1 {
      var prefix := hs[..|hs| - 1];
      assert prefix[i] == hs[i];
      assert !Covers(hs[|hs| - 1], d);
      LastCoveringIsLast(d, prefix, i);
    }
  }
}

=== FILE: memory_scheduler.dfy ===
/** The second-generation, in-memory scheduler service: the registry plus per-person
    minimum and maximum days, and a monthly rotation that honours them. The schedule of
    the last successful run is kept in memory. */
module MemoryScheduler {
  import opened Options
  import opened Calendar
  import opened Registry
  import opened Rotation
  import opened ScheduleQueries

  /** The exceptions the service raises outside schedule generation. */
  datatype ServiceError =
    | BlankName
    | MinAboveMax
    | GroupNotFound(group: GroupId)
    | PersonNotFound(person: Person, group: GroupId)

  /** One entry of a bulk batch: a name and its bounds. */
  datatype PersonData = PersonData(name: Person, limits: Constraint)

  /** `min_days > max_days` with both given: the bounds `add_person_to_group` rejects. */
  predicate Inverted(c: Constraint) {
    c.minDays.Some? && c.maxDays.Some? && c.minDays.value > c.maxDays.value
  }

  /** The checks of `add_person_to_group`, in the order it makes them: a blank name, then
      a minimum above the maximum. */
  function CheckPerson(p: Person, c: Constraint): (r: Outcome<ServiceError>)
    ensures r == Fail(BlankName) <==> IsBlank(p)
    ensures r == Fail(MinAboveMax) <==> !IsBlank(p) && Inverted(c)
    ensures r.Pass? <==> !IsBlank(p) && !Inverted(c)
  {
    if IsBlank(p) then Fail(BlankName)
    else if Inverted(c) then Fail(MinAboveMax)
    else Pass
  }

  /** The names of a batch that are not blank, in batch order. */
  function Names(people: seq<PersonData>): (ns: seq<Person>)
    ensures forall x :: x in ns ==> !IsBlank(x)
    ensures forall i :: 0 <= i < |people| && !IsBlank(people[i].name) ==> people[i].name in ns
    decreases |people|
  {
    if people == [] then []
    else
      var init := people[..|people| - 1];
      var x := people[|people| - 1];
      assert forall i :: 0 <= i < |init| ==> init[i] == people[i];
      Names(init) + (if IsBlank(x.name) then [] else [x.name])
  }

  /** The batches with their blank names dropped. */
  function NamesOf(items: seq<(GroupId, seq<PersonData>)>): (r: seq<(GroupId, seq<Person>)>)
    ensures |r| == |items|
    ensures forall k :: 0 <= k < |items| ==> r[k] == (items[k].0, Names(items[k].1))
  {
    seq(|items|, k requires 0 <= k < |items| => (items[k].0, Names(items[k].1)))
  }

  /** The bounds a batch stores: each non-blank entry in turn sets its person's bounds. */
  function PutLimits(cons: OrderedMap<Person, Constraint>, people: seq<PersonData>): (r: OrderedMap<Person, Constraint>)
    requires cons.Valid()
    ensures r.Valid()
    decreases |people|
  {
    if people == [] then cons
    else
      var r := PutLimits(cons, people[..|people| - 1]);
      var x := people[|people| - 1];
      if IsBlank(x.name) then r else r.Put(x.name, x.limits)
  }

  /** The bounds all batches store, batch after batch. */
  function PutAllLimits(cons: OrderedMap<Person, Constraint>, items: seq<(GroupId, seq<PersonData>)>): (r: OrderedMap<Person, Constraint>)
    requires cons.Valid()
    ensures r.Valid()
    decreases |items|
  {
    if items == [] then cons
    else PutLimits(PutAllLimits(cons, items[..|items| - 1]), items[|items| - 1].1)
  }

  /** No later entry of the batch has the same name as entry i. */
  predicate LastNamed(people: seq<PersonData>, i: int)
    requires 0 <= i < |people|
  {
    forall j :: i < j < |people| ==> people[j].name != people[i].name
  }

  /** A batch stores bounds for exactly its non-blank names on top of the earlier ones,
      and everyone it does not name keeps their bounds. */
  lemma {:induction false} PutLimitsDomain(cons: OrderedMap<Person, Constraint>, people: seq<PersonData>)
    requires cons.Valid()
    ensures var r := PutLimits(cons, people);
      forall x :: x in r.entries <==> x in cons.entries || x in Names(people)
    ensures var r := PutLimits(cons, people);
      forall x :: x in cons.entries && x !in Names(people) ==> r.entries[x] == cons.entries[x]
    decreases |people|
  {
    if people != [] {
      var n := |people| - 1;
      PutLimitsDomain(cons, people[..n]);
      assert Names(people) == Names(people[..n]) + (if IsBlank(people[n].name) then [] else [people[n].name]);
    }
  }

  /** The bounds stored for a non-blank name are those of its last entry in the batch. */
  lemma {:induction false} PutLimitsLast(cons: OrderedMap<Person, Constraint>, people: seq<PersonData>, i: nat)
    requires cons.Valid() && i < |people| && !IsBlank(people[i].name) && LastNamed(people, i)
    ensures people[i].name in PutLimits(cons, people).entries
    ensures PutLimits(cons, people).entries[people[i].name] == people[i].limits
    decreases |people|
  {
    var n := |people| - 1;
    var init := people[..n];
    if i < n {
      assert init[i] == people[i];
      assert LastNamed(init, i);
      PutLimitsLast(cons, init, i);
      PutLimitsKeeps(cons, people, people[i].name, people[i].limits);
    } else {
      PutLimitsStores(cons, people);
    }
  }

  /** The last entry of a batch, when named, stores its bounds. */
  lemma PutLimitsStores(cons: OrderedMap<Person, Constraint>, people: seq<PersonData>)
    requires cons.Valid() && people != [] && !IsBlank(people[|people| - 1].name)
    ensures people[|people| - 1].name in PutLimits(cons, people).entries
    ensures PutLimits(cons, people).entries[people[|people| - 1].name] == people[|people| - 1].limits
  {
  }

  /** The last entry of a batch leaves the bounds of every other name as they were. */
  lemma PutLimitsKeeps(cons: OrderedMap<Person, Constraint>, people: seq<PersonData>, q: Person, c: Constraint)
    requires cons.Valid() && people != [] && people[|people| - 1].name != q
    requires var r0 := PutLimits(cons, people[..|people| - 1]); q in r0.entries && r0.entries[q] == c
    ensures q in PutLimits(cons, people).entries && PutLimits(cons, people).entries[q] == c
  {
    var x := people[|people| - 1];
    var r0 := PutLimits(cons, people[..|people| - 1]);
    if !IsBlank(x.name) {
      assert PutLimits(cons, people) == r0.Put(x.name, x.limits);
      assert r0.Put(x.name, x.limits).entries[q] == r0.entries[q];
    }
  }

  /** After the first j entries of a batch: the registry, the bounds and the appended
      names are those of the batch so far. */
  ghost predicate EntryState(t: Groups, cons: OrderedMap<Person, Constraint>, g: GroupId, people: seq<PersonData>,
                             j: nat, u: Groups, lim: OrderedMap<Person, Constraint>, added: seq<Person>) {
    && GroupsValid(t) && cons.Valid() && j <= |people|
    && u == AddBatch(t, g, Names(people[..j])).0 && added == AddBatch(t, g, Names(people[..j])).1
    && lim == PutLimits(cons, people[..j])
  }

  lemma EntryStart(t: Groups, cons: OrderedMap<Person, Constraint>, g: GroupId, people: seq<PersonData>)
    requires GroupsValid(t) && cons.Valid()
    ensures EntryState(t, cons, g, people, 0, if g in t.entries then t else t.Put(g, []), cons, [])
  {
    assert people[..0] == [];
    AddBatchNone(t, g);
  }

  /** One more entry: a blank name is skipped; otherwise its bounds are stored and the
      name is appended to the group unless already there. */
  lemma EntryNext(t: Groups, cons: OrderedMap<Person, Constraint>, g: GroupId, people: seq<PersonData>,
                  j: nat, u: Groups, lim: OrderedMap<Person, Constraint>, added: seq<Person>)
    requires EntryState(t, cons, g, people, j, u, lim, added) && j < |people|
    ensures GroupsValid(u) && g in u.entries && lim.Valid()
    ensures var x := people[j].name;
      var skip := IsBlank(x) || x in u.entries[g];
      EntryState(t, cons, g, people, j + 1,
        if skip then u else u.Put(g, u.entries[g] + [x]),
        if IsBlank(x) then lim else lim.Put(x, people[j].limits),
        if skip then added else added + [x])
  {
    var x := people[j].name;
    var ps := people[..j + 1];
    assert ps[..j] == people[..j];
    assert ps[|ps| - 1] == people[j];
    var ns := Names(people[..j]);
    assert Names(ps) == ns + (if IsBlank(x) then [] else [x]);
    assert PutLimits(cons, ps) == if IsBlank(x) then lim else lim.Put(x, people[j].limits);
    AddBatchAppend(t, g, ns, x);
    if IsBlank(x) {
      assert ns + [] == ns;
    }
  }

  lemma EntryEnd(t: Groups, cons: OrderedMap<Person, Constraint>, g: GroupId, people: seq<PersonData>,
                 u: Groups, lim: OrderedMap<Person, Constraint>, added: seq<Person>)
    requires EntryState(t, cons, g, people, |people|, u, lim, added)
    ensures u == AddBatch(t, g, Names(people)).0 && added == AddBatch(t, g, Names(people)).1
    ensures lim == PutLimits(cons, people)
  {
    assert people[..|people|] == people;
  }

  /** The inner loop of `bulk_add_people_to_groups`: create g when missing; for each
      non-blank entry store its bounds and append the name when absent. */
  method AddEntriesLoop(t: Groups, cons: OrderedMap<Person, Constraint>, g: GroupId, people: seq<PersonData>)
    returns (u: Groups, lim: OrderedMap<Person, Constraint>, added: seq<Person>)
    requires GroupsValid(t) && cons.Valid()
    ensures u == AddBatch(t, g, Names(people)).0 && added == AddBatch(t, g, Names(people)).1
    ensures lim == PutLimits(cons, people)
  {
    EntryStart(t, cons, g, people);
    u := t;
    if g !in u.entries {
      u := u.Put(g, []);
    }
    lim := cons;
    added := [];
    var j := 0;
    while j < |people|
      invariant EntryState(t, cons, g, people, j, u, lim, added)
    {
      var x := people[j].name;
      EntryNext(t, cons, g, people, j, u, lim, added);
      if !IsBlank(x) {
        lim := lim.Put(x, people[j].limits);
        if x !in u.entries[g] {
          u := u.Put(g, u.entries[g] + [x]);
          added := added + [x];
        }
      }
      j := j + 1;
    }
    EntryEnd(t, cons, g, people, u, lim, added);
  }

  /** After the first i batches: the registry and report, and the stored bounds, are
      those of the batches so far. */
  ghost predicate ItemsState(t: Groups, c0: OrderedMap<Person, Constraint>, items: seq<(GroupId, seq<PersonData>)>,
                             named: seq<(GroupId, seq<Person>)>, i: int,
                             u: Groups, results: map<GroupId, seq<Person>>, lim: OrderedMap<Person, Constraint>) {
    && GroupsValid(t) && c0.Valid() && named == NamesOf(items) && 0 <= i <= |items|
    && (u, results) == AddPeople(t, named[..i]) && lim == PutAllLimits(c0, items[..i])
  }

  /** One batch of `bulk_add_people_to_groups`: its entries in turn, then its report
      entry when it appended any name. */
  method AddItem(ghost t: Groups, ghost c0: OrderedMap<Person, Constraint>, items: seq<(GroupId, seq<PersonData>)>,
                 ghost named: seq<(GroupId, seq<Person>)>, i: nat,
                 u: Groups, lim: OrderedMap<Person, Constraint>, results: map<GroupId, seq<Person>>)
    returns (u1: Groups, lim1: OrderedMap<Person, Constraint>, results1: map<GroupId, seq<Person>>)
    requires ItemsState(t, c0, items, named, i, u, results, lim) && i < |items|
    ensures ItemsState(t, c0, items, named, i + 1, u1, results1, lim1)
  {
    var g := items[i].0;
    var added;
    u1, lim1, added := AddEntriesLoop(u, lim, g, items[i].1);
    AddPeopleSnoc(t, named, i);
    PutAllLimitsSnoc(c0, items, i);
    results1 := results;
    if added != [] {
      results1 := results[g := added];
    }
  }

  /** One more batch extends the stored bounds by its entries. */
  lemma PutAllLimitsSnoc(cons: OrderedMap<Person, Constraint>, items: seq<(GroupId, seq<PersonData>)>, i: nat)
    requires cons.Valid() && i < |items|
    ensures PutAllLimits(cons, items[..i + 1]) == PutLimits(PutAllLimits(cons, items[..i]), items[i].1)
  {
    assert items[..i + 1][..i] == items[..i];
  }

  /** One group's pick in the day loop: the eligible members (not on duty yesterday, below
      their maximum), or all members when none is, then `_select_person`. */
  method PickMember(ms: seq<Person>, day: nat, last: Last, count: Count, cons: Limits) returns (p: Person)
    requires |ms| > 0
    ensures p == Choose(ms, day, last, count, cons)
  {
    var e := Eligible(ms, day, last, count, cons);
    if e == [] {
      e := ms;
    }
    p := SelectPerson(e, last, count, cons);
  }

  /** After the first i groups of the day: the run's state, with the last days and counts
      held in step with it. */
  ghost predicate Filling(t: Groups, cons: Limits, jobs: seq<Job>, s: Schedule, day: nat, i: nat, tr: Trace,
                          ds: map<GroupId, Person>, last: Last, count: Count) {
    DayState(t, cons, jobs, s, day, i, tr, ds) && day !in s && last == tr.last && count == tr.count
  }

  /** One pass of the group loop: group i's pick, recorded in the day's entries, the last
      days and the counts, as the run's next step records it. */
  method FillSlot(t: Groups, cons: Limits, ghost jobs: seq<Job>, ghost s: Schedule, day: nat, i: nat, ghost tr: Trace,
                  ds: map<GroupId, Person>, last: Last, count: Count)
    returns (p: Person, ds1: map<GroupId, Person>, last1: Last, count1: Count, ghost tr1: Trace)
    requires t.Valid() && forall g :: g in t.entries ==> |t.entries[g]| > 0
    requires Filling(t, cons, jobs, s, day, i, tr, ds, last, count) && i < |t.keys|
    ensures Filling(t, cons, jobs, s, day, i + 1, tr1, ds1, last1, count1)
    ensures tr1.slots == tr.slots + [Slot(day, t.keys[i], p, Eligible(t.entries[t.keys[i]], day, tr.last, tr.count, cons) == [])]
  {
    var g := t.keys[i];
    p := PickMember(t.entries[g], day, last, count, cons);
    SlotStep(t, cons, jobs, s, day, i, tr, ds, p);
    tr1 := Step(t.entries, cons, tr, Job(day, g));
    ds1 := ds[g := p];
    last1 := last[p := day];
    count1 := Bump(count, p);
  }

  /** The group loop of one day: the day's entries, last days and counts are those of the
      rotation run extended by the day's jobs. */
  method FillDay(t: Groups, cons: Limits, day: nat, ghost jobs: seq<Job>, ghost s: Schedule, ghost tr0: Trace,
                 last0: Last, count0: Count)
    returns (ds: map<GroupId, Person>, last: Last, count: Count, ghost tr: Trace)
    requires t.Valid() && forall g :: g in t.entries ==> |t.entries[g]| > 0
    requires Filling(t, cons, jobs, s, day, 0, tr0, map[], last0, count0)
    ensures Filling(t, cons, jobs, s, day, |t.keys|, tr, ds, last, count)
  {
    ds, last, count, tr := map[], last0, count0, tr0;
    var i := 0;
    while i < |t.keys|
      invariant i <= |t.keys|
      invariant Filling(t, cons, jobs, s, day, i, tr, ds, last, count)
    {
      var p;
      p, ds, last, count, tr := FillSlot(t, cons, jobs, s, day, i, tr, ds, last, count);
      i := i + 1;
    }
  }

  /** After the first k days: the month's run, with the last days and counts held in
      step with it. */
  ghost predicate Filled(t: Groups, cons: Limits, k: nat, tr: Trace, s: Schedule, last: Last, count: Count) {
    MonthState(t, cons, k, tr, s) && last == tr.last && count == tr.count
  }

  /** One pass of the day loop: day k + 1 is filled, and the month's run and schedule
      grow by that day. */
  method FillNextDay(t: Groups, cons: Limits, k: nat, ghost tr: Trace, s: Schedule, last: Last, count: Count)
    returns (s1: Schedule, last1: Last, count1: Count, ghost tr1: Trace)
    requires t.Valid() && |t.keys| > 0 && forall g :: g in t.entries ==> |t.entries[g]| > 0
    requires Filled(t, cons, k, tr, s, last, count)
    ensures Filled(t, cons, k + 1, tr1, s1, last1, count1)
  {
    DayBegin(t, cons, k, tr, s);
    var ds;
    ds, last1, count1, tr1 := FillDay(t, cons, k + 1, Jobs(k, t.keys), s, tr, last, count);
    DayFinish(t, cons, k, s, tr1, ds);
    s1 := s[k + 1 := ds];
  }

  /** The day loop: days 1..n; the result is the run's schedule and assignment counts. */
  method FillMonth(t: Groups, cons: Limits, n: nat) returns (s: Schedule, count: Count)
    requires t.Valid() && |t.keys| > 0 && forall g :: g in t.entries ==> |t.entries[g]| > 0
    ensures Feasible(t.entries, Jobs(n, t.keys))
    ensures s == ScheduleOf(Run(t.entries, cons, Jobs(n, t.keys)).slots)
    ensures count == Run(t.entries, cons, Jobs(n, t.keys)).count
  {
    s := map[];
    var last: Last := map[];
    count := map[];
    ghost var tr := Trace([], map[], map[]);
    MonthStart(t, cons);
    var k := 0;
    while k < n
      invariant k <= n
      invariant Filled(t, cons, k, tr, s, last, count)
    {
      s, last, count, tr := FillNextDay(t, cons, k, tr, s, last, count);
      k := k + 1;
    }
    MonthEnd(t, cons, k, n, tr, s);
  }

  /** The minimum-days check: the constrained people in insertion order, stopping at the
      first whose count is below their minimum. */
  method FindUnmet(cons: OrderedMap<Person, Constraint>, count: Count) returns (r: Option<Person>)
    requires cons.Valid()
    ensures r == FirstUnmet(cons.keys, cons.entries, count)
  {
    var i := 0;
    while i < |cons.keys|
      invariant 0 <= i <= |cons.keys|
      invariant FirstUnmet(cons.keys[i..], cons.entries, count) == FirstUnmet(cons.keys, cons.entries, count)
    {
      var p := cons.keys[i];
      var c := cons.entries[p];
      assert cons.keys[i..][0] == p && cons.keys[i..][1..] == cons.keys[i + 1..];
      if c.minDays.Some? && CountOf(p, count) < c.minDays.value {
        return Some(p);
      }
      i := i + 1;
    }
    assert cons.keys[i..] == [];
    r := None;
  }

  /** `generate_monthly_schedule` without the stored state: the prechecks, the rotation and
      the minimum-days check. */
  method GenerateMonth(t: Groups, cons: OrderedMap<Person, Constraint>, minMembers: int, y: int, m: int)
    returns (r: Result<Schedule, ScheduleError>)
    requires t.Valid() && cons.Valid()
    ensures r == MonthSchedule(t, cons, minMembers, y, m)
  {
    var pre := Precheck(t, minMembers);
    if pre.Fail? {
      MonthSchedulePrecheckFails(t, cons, minMembers, y, m);
      return Failure(pre.error);
    }
    if !ValidYearMonth(y, m) {
      MonthScheduleInvalidDate(t, cons, minMembers, y, m);
      return Failure(InvalidDate);
    }
    MonthScheduleRan(t, cons, minMembers, y, m);
    var s, count := FillMonth(t, cons.entries, DaysInMonth(y, m));
    var unmet := FindUnmet(cons, count);
    if unmet.Some? {
      var p := unmet.value;
      return Failure(UnmetMinimumDays(p, cons.entries[p].minDays.value, CountOf(p, count)));
    }
    r := Success(s);
  }

  class SchedulerService {
    /** The group-size minimum of the prechecks. */
    const minMembers: int
    var groups: Groups
    var constraints: OrderedMap<Person, Constraint>
    var schedule: Schedule

    ghost predicate Valid()
      reads this
    {
      GroupsValid(groups) && constraints.Valid()
    }

    constructor (minMembers: int)
      ensures Valid() && this.minMembers == minMembers
      ensures groups == Empty() && constraints == Empty() && schedule == map[]
    {
      this.minMembers := minMembers;
      groups := Empty();
      constraints := Empty();
      schedule := map[];
    }

    /** `add_person_to_group`: a blank name, then inverted bounds, are rejected with
        nothing changed; otherwise the bounds are stored (replacing earlier ones) and the
        person is added to the group, which is created if missing. */
    method AddPersonToGroup(p: Person, g: GroupId, c: Constraint) returns (r: Outcome<ServiceError>)
      requires Valid()
      modifies this`groups, this`constraints
      ensures Valid() && schedule == old(schedule)
      ensures r == CheckPerson(p, c)
      ensures r.Pass? ==> groups == AddMember(old(groups), g, p) && constraints == old(constraints).Put(p, c)
      ensures r.Fail? ==> groups == old(groups) && constraints == old(constraints)
    {
      r := CheckPerson(p, c);
      if r.Pass? {
        constraints := constraints.Put(p, c);
        groups := AddMember(groups, g, p);
      }
    }

    /** `bulk_add_groups`: creates every absent id, in input order, and reports for each
        id whether it was created. */
    method BulkAddGroups(ids: seq<GroupId>) returns (results: map<GroupId, bool>)
      requires Valid()
      modifies this`groups
      ensures Valid() && schedule == old(schedule) && constraints == old(constraints)
      ensures groups == AddGroups(old(groups), ids)
      ensures results == AddGroupsReport(old(groups), ids)
      ensures forall g :: g in results <==> g in ids
      ensures forall g :: g in results ==> (results[g] <==> g !in old(groups).entries && multiset(ids)[g] == 1)
    {
      AddGroupsReportCreated(groups, ids);
      groups, results := AddGroupsLoop(groups, ids);
    }

    /** `bulk_add_people_to_groups`: for each (group, entries) batch, creates the group if
        missing; each non-blank entry stores its bounds and appends the name when absent;
        reports per group the names its batch appended, omitting batches that appended
        none. */
    method BulkAddPeopleToGroups(items: seq<(GroupId, seq<PersonData>)>) returns (results: map<GroupId, seq<Person>>)
      requires Valid()
      modifies this`groups, this`constraints
      ensures Valid() && schedule == old(schedule)
      ensures groups == AddPeople(old(groups), NamesOf(items)).0
      ensures results == AddPeople(old(groups), NamesOf(items)).1
      ensures constraints == PutAllLimits(old(constraints), items)
    {
      ghost var t := groups;
      ghost var c0 := constraints;
      ghost var named := NamesOf(items);
      results := map[];
      var i := 0;
      while i < |items|
        invariant schedule == old(schedule) && t == old(groups) && c0 == old(constraints)
        invariant ItemsState(t, c0, items, named, i, groups, results, constraints)
      {
        groups, constraints, results := AddItem(t, c0, items, named, i, groups, constraints, results);
        i := i + 1;
      }
      assert named[..|items|] == named;
      assert items[..|items|] == items;
    }

    /** `remove_person_from_group`: a missing group, then a missing member, is an error
        with nothing changed; the bounds stay stored either way. */
    method RemovePersonFromGroup(p: Person, g: GroupId) returns (r: Outcome<ServiceError>)
      requires Valid()
      modifies this`groups
      ensures Valid() && schedule == old(schedule) && constraints == old(constraints)
      ensures r == Fail(GroupNotFound(g)) <==> g !in old(groups).entries
      ensures r == Fail(PersonNotFound(p, g)) <==> g in old(groups).entries && p !in old(groups).entries[g]
      ensures r.Pass? <==> g in old(groups).entries && p in old(groups).entries[g]
      ensures r.Pass? ==> groups == RemoveMember(old(groups), g, p)
      ensures r.Fail? ==> groups == old(groups)
    {
      if g !in groups.entries {
        return Fail(GroupNotFound(g));
      }
      if p !in groups.entries[g] {
        return Fail(PersonNotFound(p, g));
      }
      groups := RemoveMember(groups, g, p);
      r := Pass;
    }

    /** `delete_group`: a missing group is an error; the members' bounds stay stored. */
    method DeleteGroup(g: GroupId) returns (r: Outcome<ServiceError>)
      requires Valid()
      modifies this`groups
      ensures Valid() && schedule == old(schedule) && constraints == old(constraints)
      ensures r.Pass? <==> g in old(groups).entries
      ensures r.Fail? ==> r == Fail(GroupNotFound(g)) && groups == old(groups)
      ensures r.Pass? ==> groups == Registry.DeleteGroup(old(groups), g)
    {
      if g !in groups.entries {
        return Fail(GroupNotFound(g));
      }
      groups := Registry.DeleteGroup(groups, g);
      r := Pass;
    }

    /** `generate_monthly_schedule`: a successful run replaces the stored schedule, a
        failed one leaves it as it was. */
    method GenerateMonthlySchedule(y: int, m: int) returns (r: Result<Schedule, ScheduleError>)
      requires Valid()
      modifies this`schedule
      ensures Valid() && groups == old(groups) && constraints == old(constraints)
      ensures r == MonthSchedule(groups, constraints, minMembers, y, m)
      ensures schedule == if r.Success? then r.value else old(schedule)
    {
      var g, c := groups, constraints;
      r := GenerateMonth(g, c, minMembers, y, m);
      schedule := if r.Success? then r.value else schedule;
      assert groups == g && constraints == c;
    }

    /** `get_schedule`: nothing until a schedule has been stored. */
    method GetSchedule() returns (r: Option<Schedule>)
      ensures r.None? <==> schedule == map[]
      ensures r.Some? ==> r.value == schedule
    {
      if schedule == map[] {
        return None;
      }
      return Some(schedule);
    }

    /** `get_person_schedule`: the days the person is on duty, ascending. */
    method GetPersonSchedule(p: Person) returns (r: seq<nat>)
      ensures Increasing(r)
      ensures forall d :: d in r <==> OnDuty(schedule, d, p)
    {
      r := PersonDays(schedule, p);
    }

    /** `get_groups`. */
    function GetGroups(): Groups
      reads this
    {
      groups
    }
  }
}

=== FILE: options.dfy ===
/** Optional values and error-carrying results, used wherever the source returns
    None or raises an exception. */
module Options {
  datatype Option<+T> = None | Some(value: T)

  datatype Result<+T, +E> = Success(value: T) | Failure(error: E)

  /** A check that either passes or fails with an error (an operation returning None or raising). */
  datatype Outcome<+E> = Pass | Fail(error: E)
}

=== FILE: registry.dfy ===
/** Insertion-ordered tables (Python dicts) and the group registry built on them:
    group id -> ordered, duplicate-free member list. */
module Registry {

  predicate NoDup<T(==)>(s: seq<T>) {
    forall i, j :: 0 <= i < j < |s| ==> s[i] != s[j]
  }

  /** Position of the first occurrence of x, or |s| when absent. */
  function IndexOf<T(==)>(s: seq<T>, x: T): (i: nat)
    ensures i <= |s|
    ensures i < |s| ==> s[i] == x
    ensures forall j :: 0 <= j < i ==> s[j] != x
    decreases |s|
  {
    if s == [] then 0 else if s[0] == x then 0 else 1 + IndexOf(s[1..], x)
  }

  /** An element that occurs has its first occurrence inside the sequence. */
  lemma IndexOfPresent<T>(s: seq<T>, x: T)
    requires x in s
    ensures IndexOf(s, x) < |s|
  {
    var k :| 0 <= k < |s| && s[k] == x;
  }

  /** Appending never moves the first occurrence of an element already present. */
  lemma IndexOfExtend<T>(s: seq<T>, t: seq<T>)
    ensures forall x :: x in s ==> IndexOf(s + t, x) == IndexOf(s, x)
  {
    forall x | x in s
      ensures IndexOf(s + t, x) == IndexOf(s, x)
    {
      var i := IndexOf(s, x);
      assert (s + t)[i] == x;
    }
  }

  /** `list.remove(x)`: drops the first occurrence of x (the caller checks that x is present). */
  function Without<T(==,!new)>(s: seq<T>, x: T): (r: seq<T>)
    requires x in s
    ensures |r| == |s| - 1
    ensures IndexOf(s, x) < |s| && r == s[..IndexOf(s, x)] + s[IndexOf(s, x) + 1..]
    ensures NoDup(s) ==> NoDup(r) && forall y :: y in r <==> y in s && y != x
  {
    var i := IndexOf(s, x);
    var r := s[..i] + s[i + 1..];
    assert forall k :: 0 <= k < |r| ==> r[k] == (if k < i then s[k] else s[k + 1]);
    assert NoDup(s) ==> forall y :: y in s && y != x ==> y in r by {
      if NoDup(s) {
        forall y | y in s && y != x ensures y in r {
          var k :| 0 <= k < |s| && s[k] == y;
          if k < i { assert r[k] == y; } else { assert k != i; assert r[k - 1] == y; }
        }
      }
    }
    r
  }

  /** Extending a prefix by one element. */
  lemma TakeSnoc<T>(s: seq<T>, i: nat)
    requires i < |s|
    ensures s[..i + 1] == s[..i] + [s[i]]
  {
  }

  lemma AppendAssoc<T>(a: seq<T>, b: seq<T>, c: seq<T>)
    ensures (a + b) + c == a + (b + c)
  {
  }

  /** A Python dict: its keys in insertion order and the key -> value table. */
  datatype OrderedMap<K(==,!new), V> = OrderedMap(keys: seq<K>, entries: map<K, V>) {

    ghost predicate Valid() {
      NoDup(keys) && forall k :: k in entries <==> k in keys
    }

    /** `d[k] = v`: an existing key keeps its position, a new key goes last. */
    function Put(k: K, v: V): (r: OrderedMap<K, V>)
      requires Valid()
      ensures r.Valid()
      ensures r.entries == entries[k := v]
      ensures r.keys == if k in entries then keys else keys + [k]
    {
      OrderedMap(if k in entries then keys else keys + [k], entries[k := v])
    }

    /** `del d[k]` for a present key: the other keys keep their order. */
    function Remove(k: K): (r: OrderedMap<K, V>)
      requires Valid() && k in entries
      ensures r.Valid()
      ensures r.entries == entries - {k}
      ensures r.keys == Without(keys, k)
    {
      OrderedMap(Without(keys, k), entries - {k})
    }
  }

  function Empty<K(==,!new), V>(): (r: OrderedMap<K, V>)
    ensures r.Valid() && r.keys == [] && r.entries == map[]
  {
    OrderedMap([], map[])
  }

  type GroupId = string
  type Person = string
  type Groups = OrderedMap<GroupId, seq<Person>>

  /** The registry invariant: a valid table whose member lists hold no duplicates. */
  ghost predicate GroupsValid(t: Groups) {
    t.Valid() && forall g :: g in t.entries ==> NoDup(t.entries[g])
  }

  /** The members of g, or none when g is not registered. */
  function MembersOf(t: Groups, g: GroupId): seq<Person> {
    if g in t.entries then t.entries[g] else []
  }

  /** `add_person_to_group`'s registry part: create g if missing, append p if absent. */
  function AddMember(t: Groups, g: GroupId, p: Person): (r: Groups)
    requires GroupsValid(t)
    ensures GroupsValid(r)
    ensures r.keys == if g in t.entries then t.keys else t.keys + [g]
    ensures forall h :: h in r.entries && h != g ==> h in t.entries && r.entries[h] == t.entries[h]
    ensures g in r.entries && p in r.entries[g]
    ensures r.entries[g] == if p in MembersOf(t, g) then MembersOf(t, g) else MembersOf(t, g) + [p]
  {
    var ms := MembersOf(t, g);
    t.Put(g, if p in ms then ms else ms + [p])
  }

  /** Remove p from g's member list; other groups and the key order are unchanged. */
  function RemoveMember(t: Groups, g: GroupId, p: Person): (r: Groups)
    requires GroupsValid(t) && g in t.entries && p in t.entries[g]
    ensures GroupsValid(r)
    ensures r.keys == t.keys
    ensures forall h :: h in r.entries <==> h in t.entries
    ensures forall h :: h in r.entries && h != g ==> r.entries[h] == t.entries[h]
    ensures forall q :: q in r.entries[g] <==> q in t.entries[g] && q != p
    ensures r.entries[g] == Without(t.entries[g], p)
  {
    t.Put(g, Without(t.entries[g], p))
  }

  /** Delete g entirely; every other group is unchanged. */
  function DeleteGroup(t: Groups, g: GroupId): (r: Groups)
    requires GroupsValid(t) && g in t.entries
    ensures GroupsValid(r)
    ensures forall h :: h in r.entries <==> h in t.entries && h != g
    ensures forall h :: h in r.entries ==> r.entries[h] == t.entries[h]
    ensures r.keys == Without(t.keys, g)
  {
    t.Remove(g)
  }

  /** `bulk_add_groups`' registry part: every id not yet present is created empty, in
      input order; existing groups keep their members. */
  function AddGroups(t: Groups, ids: seq<GroupId>): (r: Groups)
    requires GroupsValid(t)
    ensures GroupsValid(r)
    decreases |ids|
  {
    if ids == [] then t
    else
      var s := AddGroups(t, ids[..|ids| - 1]);
      var g := ids[|ids| - 1];
      if g in s.entries then s else s.Put(g, [])
  }

  /** The groups after `bulk_add_groups` are the old ones, with their members and in
      their order, and the ids, created empty. */
  lemma {:induction false} AddGroupsGrows(t: Groups, ids: seq<GroupId>)
    requires GroupsValid(t)
    ensures var r := AddGroups(t, ids);
      && (forall h :: h in r.entries <==> h in t.entries || h in ids)
      && (forall h :: h in t.entries ==> r.entries[h] == t.entries[h])
      && (forall h :: h in r.entries && h !in t.entries ==> r.entries[h] == [])
      && |t.keys| <= |r.keys| && r.keys[..|t.keys|] == t.keys
    decreases |ids|
  {
    if ids != [] {
      var init := ids[..|ids| - 1];
      var g := ids[|ids| - 1];
      AddGroupsGrows(t, init);
      var s := AddGroups(t, init);
      assert forall h :: h in ids <==> h in init || h == g;
      if g !in s.entries {
        assert s.Put(g, []).keys[..|t.keys|] == s.keys[..|t.keys|];
      }
    }
  }

  /** `bulk_add_groups`'s report: each id maps to whether it was absent when its turn
      came (a repeated id is reported again, and the later report wins). */
  function AddGroupsReport(t: Groups, ids: seq<GroupId>): (r: map<GroupId, bool>)
    requires GroupsValid(t)
    ensures forall h :: h in r <==> h in ids
    decreases |ids|
  {
    if ids == [] then map[]
    else
      var init := ids[..|ids| - 1];
      var g := ids[|ids| - 1];
      assert forall h :: h in ids <==> h in init || h == g;
      AddGroupsReport(t, init)[g := g !in AddGroups(t, init).entries]
  }

  /** The count of h in a sequence is its count in all but the last element, plus one
      when the last element is h. */
  lemma MultisetSnoc<T>(s: seq<T>, h: T)
    requires |s| > 0
    ensures multiset(s)[h] == multiset(s[..|s| - 1])[h] + (if s[|s| - 1] == h then 1 else 0)
  {
    assert s == s[..|s| - 1] + [s[|s| - 1]];
  }

  /** An id is reported created exactly when it was not registered and occurs once. */
  lemma {:induction false} AddGroupsReportCreated(t: Groups, ids: seq<GroupId>)
    requires GroupsValid(t)
    ensures var r := AddGroupsReport(t, ids);
      forall h :: h in r ==> (r[h] <==> h !in t.entries && multiset(ids)[h] == 1)
    decreases |ids|
  {
    if ids != [] {
      var init := ids[..|ids| - 1];
      var g := ids[|ids| - 1];
      AddGroupsReportCreated(t, init);
      AddGroupsGrows(t, init);
      var r := AddGroupsReport(t, ids);
      forall h | h in r
        ensures r[h] <==> h !in t.entries && multiset(ids)[h] == 1
      {
        MultisetSnoc(ids, h);
        if h == g {
          assert g in init <==> multiset(init)[g] > 0;
        }
      }
    }
  }

  /** One more id: the registry and the report of the prefix, extended by that id. */
  lemma AddGroupsSnoc(t: Groups, ids: seq<GroupId>, i: nat)
    requires GroupsValid(t) && i < |ids|
    ensures var s := AddGroups(t, ids[..i]);
      AddGroups(t, ids[..i + 1]) == (if ids[i] in s.entries then s else s.Put(ids[i], []))
    ensures AddGroupsReport(t, ids[..i + 1])
         == AddGroupsReport(t, ids[..i])[ids[i] := ids[i] !in AddGroups(t, ids[..i]).entries]
  {
    assert ids[..i + 1][..i] == ids[..i];
  }

  /** Appending names to a member list, skipping those already there: the new list and
      the names actually appended, in input order. */
  function AddNames(ms: seq<Person>, names: seq<Person>): (r: (seq<Person>, seq<Person>))
    ensures r.0 == ms + r.1
    ensures forall x :: x in r.0 <==> x in ms || x in names
    ensures forall x :: x in r.1 ==> x !in ms && x in names
    ensures NoDup(ms) ==> NoDup(r.0)
    decreases |names|
  {
    if names == [] then (ms, [])
    else
      var r := AddNames(ms, names[..|names| - 1]);
      var x := names[|names| - 1];
      assert forall y :: y in names <==> y in names[..|names| - 1] || y == x;
      if x in r.0 then r else (r.0 + [x], r.1 + [x])
  }

  /** One batch of `bulk_add_people_to_groups`: create g if missing and append the
      names not yet in it; also returns the names appended. */
  function AddBatch(t: Groups, g: GroupId, names: seq<Person>): (r: (Groups, seq<Person>))
    requires GroupsValid(t)
    ensures GroupsValid(r.0)
  {
    var r := AddNames(MembersOf(t, g), names);
    (t.Put(g, r.0), r.1)
  }

  /** A batch creates g at the end of the key order when missing, leaves the other
      groups alone, and appends to g's members exactly the names it reports. */
  lemma AddBatchFacts(t: Groups, g: GroupId, names: seq<Person>)
    requires GroupsValid(t)
    ensures var r := AddBatch(t, g, names);
      && r.0.keys == (if g in t.entries then t.keys else t.keys + [g])
      && r.0.entries == t.entries[g := MembersOf(t, g) + r.1]
  {
  }

  /** After a batch g holds its old members and the batch's names; the names reported
      are batch names g did not hold. */
  lemma AddBatchNames(t: Groups, g: GroupId, names: seq<Person>)
    requires GroupsValid(t)
    ensures var r := AddBatch(t, g, names);
      && (forall x :: x in r.0.entries[g] <==> x in MembersOf(t, g) || x in names)
      && (forall x :: x in r.1 ==> x !in MembersOf(t, g) && x in names)
  {
  }

  /** A batch without names only creates the group when it is missing. */
  lemma AddBatchNone(t: Groups, g: GroupId)
    requires GroupsValid(t)
    ensures AddBatch(t, g, []) == (if g in t.entries then t else t.Put(g, []), [])
  {
    if g in t.entries {
      assert t.entries[g := t.entries[g]] == t.entries;
    }
  }

  /** One more name: appended to the batch's group unless already there. */
  lemma AddBatchAppend(t: Groups, g: GroupId, ns: seq<Person>, x: Person)
    requires GroupsValid(t)
    ensures g in AddBatch(t, g, ns).0.entries
    ensures var u := AddBatch(t, g, ns).0;
      AddBatch(t, g, ns + [x]).0 == if x in u.entries[g] then u else u.Put(g, u.entries[g] + [x])
    ensures var r := AddBatch(t, g, ns);
      AddBatch(t, g, ns + [x]).1 == if x in r.0.entries[g] then r.1 else r.1 + [x]
  {
    var ms := MembersOf(t, g);
    AddNamesSnoc(ms, ns, x);
    var a := AddNames(ms, ns);
    PutTwice(t, g, a.0, a.0 + [x]);
  }

  /** One more name extends the appended names unless the list already holds it. */
  lemma AddNamesSnoc(ms: seq<Person>, ns: seq<Person>, x: Person)
    ensures var a := AddNames(ms, ns);
      AddNames(ms, ns + [x]) == if x in a.0 then a else (a.0 + [x], a.1 + [x])
  {
    assert (ns + [x])[..|ns|] == ns;
  }

  /** A second store under the same key overwrites the first. */
  lemma PutTwice<V>(t: OrderedMap<GroupId, V>, g: GroupId, v: V, w: V)
    requires t.Valid()
    ensures t.Put(g, v).Put(g, w) == t.Put(g, w)
  {
    assert t.entries[g := v][g := w] == t.entries[g := w];
  }

  /** After the first j names of a batch: u and added are the batch's result so far. */
  ghost predicate BatchState(t: Groups, g: GroupId, names: seq<Person>, j: nat, u: Groups, added: seq<Person>) {
    && GroupsValid(t) && j <= |names|
    && u == AddBatch(t, g, names[..j]).0 && added == AddBatch(t, g, names[..j]).1
  }

  /** Before any name, the batch has only created g when it was missing. */
  lemma BatchStart(t: Groups, g: GroupId, names: seq<Person>)
    requires GroupsValid(t)
    ensures BatchState(t, g, names, 0, if g in t.entries then t else t.Put(g, []), [])
  {
    assert names[..0] == [];
    AddBatchNone(t, g);
  }

  /** One more name: appended to the batch's group unless already there. */
  lemma BatchNext(t: Groups, g: GroupId, names: seq<Person>, j: nat, u: Groups, added: seq<Person>)
    requires BatchState(t, g, names, j, u, added) && j < |names|
    ensures GroupsValid(u) && g in u.entries
    ensures var x := names[j];
      BatchState(t, g, names, j + 1,
        if x in u.entries[g] then u else u.Put(g, u.entries[g] + [x]),
        if x in u.entries[g] then added else added + [x])
  {
    TakeSnoc(names, j);
    AddBatchAppend(t, g, names[..j], names[j]);
  }

  /** After the last name, u and added are the batch's result. */
  lemma BatchEnd(t: Groups, g: GroupId, names: seq<Person>, u: Groups, added: seq<Person>)
    requires BatchState(t, g, names, |names|, u, added)
    ensures u == AddBatch(t, g, names).0 && added == AddBatch(t, g, names).1
  {
    assert names[..|names|] == names;
  }

  /** u keeps t's groups in their order, and each of t's member lists is a prefix of u's. */
  ghost predicate Grown(t: Groups, u: Groups) {
    && |t.keys| <= |u.keys| && u.keys[..|t.keys|] == t.keys
    && (forall h :: h in t.entries ==> h in u.entries)
    && forall h :: h in u.entries ==> MembersOf(t, h) <= u.entries[h]
  }

  /** Each group of `added` gained exactly those names at the end of its list (after t's
      members), and every other group's list is t's. */
  ghost predicate Appended(t: Groups, u: Groups, added: map<GroupId, seq<Person>>) {
    && (forall h :: h in u.entries && h !in added ==> u.entries[h] == MembersOf(t, h))
    && forall h :: h in added ==> AppendedAt(t, u, added, h)
  }

  /** Some batch names group h. */
  predicate Named(items: seq<(GroupId, seq<Person>)>, h: GroupId) {
    exists i :: 0 <= i < |items| && items[i].0 == h
  }

  /** Every name of every batch is in that batch's group. */
  ghost predicate Placed(items: seq<(GroupId, seq<Person>)>, u: Groups) {
    forall i, x :: 0 <= i < |items| && x in items[i].1 ==> items[i].0 in u.entries && x in u.entries[items[i].0]
  }

  /** One more batch keeps the registry grown from t. */
  lemma BatchGrown(t: Groups, u: Groups, g: GroupId, names: seq<Person>)
    requires GroupsValid(t) && GroupsValid(u) && Grown(t, u)
    ensures Grown(t, AddBatch(u, g, names).0)
  {
    AddBatchFacts(u, g, names);
    var r := AddBatch(u, g, names);
    var ks := r.0.keys;
    assert ks[..|t.keys|] == t.keys by {
      assert ks[..|u.keys|] == u.keys;
      assert ks[..|t.keys|] == u.keys[..|t.keys|];
    }
    var es := r.0.entries;
    assert es == u.entries[g := MembersOf(u, g) + r.1];
    forall h | h in es ensures MembersOf(t, h) <= es[h] {
      if h == g {
        assert MembersOf(t, g) <= MembersOf(u, g);
      } else {
        assert es[h] == u.entries[h];
      }
    }
  }

  /** One more batch keeps the record of appended names accurate. */
  lemma BatchAppended(t: Groups, u: Groups, added: map<GroupId, seq<Person>>, g: GroupId, names: seq<Person>)
    requires GroupsValid(t) && GroupsValid(u) && Grown(t, u) && Appended(t, u, added)
    ensures var r := AddBatch(u, g, names);
      Appended(t, r.0, if r.1 != [] then added[g := r.1] else added)
  {
    var r := AddBatch(u, g, names);
    var added' := if r.1 != [] then added[g := r.1] else added;
    forall h | h in r.0.entries && h !in added' ensures r.0.entries[h] == MembersOf(t, h) {
      BatchKeptAt(t, u, added, g, names, h);
    }
    forall h | h in added' ensures AppendedAt(t, r.0, added', h) {
      BatchAppendedAt(t, u, added, g, names, h);
    }
  }

  /** A group the batches report nothing for still has t's members. */
  lemma BatchKeptAt(t: Groups, u: Groups, added: map<GroupId, seq<Person>>, g: GroupId, names: seq<Person>, h: GroupId)
    requires GroupsValid(t) && GroupsValid(u) && Grown(t, u) && Appended(t, u, added)
    requires var r := AddBatch(u, g, names);
      h in r.0.entries && h !in (if r.1 != [] then added[g := r.1] else added)
    ensures AddBatch(u, g, names).0.entries[h] == MembersOf(t, h)
  {
    AddBatchFacts(u, g, names);
    var r := AddBatch(u, g, names);
    if h == g {
      assert r.1 == [] && r.0.entries[g] == MembersOf(u, g) + [];
    } else {
      assert r.0.entries[h] == u.entries[h];
    }
  }

  /** Group h gained exactly added[h] at the end of its list, after t's members. */
  ghost predicate AppendedAt(t: Groups, u: Groups, added: map<GroupId, seq<Person>>, h: GroupId)
    requires h in added
  {
    && h in u.entries && added[h] != []
    && |MembersOf(t, h)| + |added[h]| <= |u.entries[h]|
    && u.entries[h][|u.entries[h]| - |added[h]|..] == added[h]
  }

  lemma BatchAppendedAt(t: Groups, u: Groups, added: map<GroupId, seq<Person>>, g: GroupId, names: seq<Person>, h: GroupId)
    requires GroupsValid(t) && GroupsValid(u) && Grown(t, u) && Appended(t, u, added)
    requires var a := AddBatch(u, g, names).1;
      h in (if a != [] then added[g := a] else added)
    ensures var r := AddBatch(u, g, names);
      AppendedAt(t, r.0, if r.1 != [] then added[g := r.1] else added, h)
  {
    var r := AddBatch(u, g, names);
    var added' := if r.1 != [] then added[g := r.1] else added;
    if h == g && r.1 != [] {
      if g in u.entries {
        assert MembersOf(t, g) <= u.entries[g];
      }
      AppendedAtNew(t, u, added', g, names);
    } else {
      AppendedAtOld(t, u, added, added', g, names, h);
    }
  }

  /** The group a batch appends to gained the batch's reported names at its end. */
  lemma AppendedAtNew(t: Groups, u: Groups, ad: map<GroupId, seq<Person>>, g: GroupId, names: seq<Person>)
    requires GroupsValid(u) && g in ad && ad[g] == AddBatch(u, g, names).1 && ad[g] != []
    requires |MembersOf(t, g)| <= |MembersOf(u, g)|
    ensures AppendedAt(t, AddBatch(u, g, names).0, ad, g)
  {
    AddBatchFacts(u, g, names);
    var x := MembersOf(u, g);
    var a := ad[g];
    assert AddBatch(u, g, names).0.entries[g] == x + a;
    assert (x + a)[|x|..] == a;
  }

  /** A group the batch leaves alone keeps what it had gained. */
  lemma AppendedAtOld(t: Groups, u: Groups, added: map<GroupId, seq<Person>>, ad: map<GroupId, seq<Person>>,
                      g: GroupId, names: seq<Person>, h: GroupId)
    requires GroupsValid(u) && h in added && AppendedAt(t, u, added, h) && h in ad && ad[h] == added[h]
    requires h != g || AddBatch(u, g, names).1 == []
    ensures AppendedAt(t, AddBatch(u, g, names).0, ad, h)
  {
    BatchKeepsEntry(u, g, names, h);
    AppendedAtKept(t, u, AddBatch(u, g, names).0, added, ad, h);
  }

  /** A batch leaves alone every other group, and its own when it appends nothing. */
  lemma BatchKeepsEntry(u: Groups, g: GroupId, names: seq<Person>, h: GroupId)
    requires GroupsValid(u) && h in u.entries && (h != g || AddBatch(u, g, names).1 == [])
    ensures h in AddBatch(u, g, names).0.entries && AddBatch(u, g, names).0.entries[h] == u.entries[h]
  {
    AddBatchFacts(u, g, names);
    if h == g {
      assert AddBatch(u, g, names).0.entries[g] == u.entries[g] + [];
    }
  }

  /** An unchanged list keeps the names it had gained. */
  lemma AppendedAtKept(t: Groups, u: Groups, v: Groups, added: map<GroupId, seq<Person>>, ad: map<GroupId, seq<Person>>,
                       h: GroupId)
    requires h in added && AppendedAt(t, u, added, h) && h in ad && ad[h] == added[h]
    requires h in v.entries && v.entries[h] == u.entries[h]
    ensures AppendedAt(t, v, ad, h)
  {
  }

  /** The last batch keeps every earlier batch's names placed, and places its own. */
  lemma PlacedStep(items: seq<(GroupId, seq<Person>)>, u: Groups)
    requires |items| > 0 && GroupsValid(u) && Placed(items[..|items| - 1], u)
    ensures Placed(items, AddBatch(u, items[|items| - 1].0, items[|items| - 1].1).0)
  {
    var n := |items| - 1;
    var g := items[n].0;
    var r := AddBatch(u, g, items[n].1);
    forall i, x | 0 <= i < |items| && x in items[i].1 ensures items[i].0 in r.0.entries && x in r.0.entries[items[i].0] {
      if i < n {
        assert items[..n][i] == items[i];
        PlacedAt(items[..n], u, i, x);
        PlacedKept(u, g, items[n].1, items[i].0, x);
      } else {
        assert i == n;
        PlacedOwn(u, g, items[n].1, x);
      }
    }
  }

  /** Batch i's names are in its group. */
  lemma PlacedAt(items: seq<(GroupId, seq<Person>)>, u: Groups, i: nat, x: Person)
    requires Placed(items, u) && i < |items| && x in items[i].1
    ensures items[i].0 in u.entries && x in u.entries[items[i].0]
  {
  }

  /** A batch keeps every member of every group. */
  lemma PlacedKept(u: Groups, g: GroupId, names: seq<Person>, h: GroupId, x: Person)
    requires GroupsValid(u) && h in u.entries && x in u.entries[h]
    ensures h in AddBatch(u, g, names).0.entries && x in AddBatch(u, g, names).0.entries[h]
  {
    AddBatchFacts(u, g, names);
    if h == g {
      AddBatchNames(u, g, names);
      assert x in MembersOf(u, g);
    }
  }

  /** A batch places its own names in its group. */
  lemma PlacedOwn(u: Groups, g: GroupId, names: seq<Person>, x: Person)
    requires GroupsValid(u) && x in names
    ensures g in AddBatch(u, g, names).0.entries && x in AddBatch(u, g, names).0.entries[g]
  {
    AddBatchFacts(u, g, names);
    AddBatchNames(u, g, names);
  }

  /** The groups named by the batches are those named before the last one, and its own. */
  lemma NamedSnoc(items: seq<(GroupId, seq<Person>)>)
    requires |items| > 0
    ensures forall h :: Named(items, h) <==> Named(items[..|items| - 1], h) || h == items[|items| - 1].0
  {
    var n := |items| - 1;
    var init := items[..n];
    forall h ensures Named(items, h) <==> Named(init, h) || h == items[n].0 {
      if Named(items, h) && h != items[n].0 {
        var i :| 0 <= i < |items| && items[i].0 == h;
        assert init[i].0 == h;
      }
      if Named(init, h) {
        var i :| 0 <= i < |init| && init[i].0 == h;
        assert items[i].0 == h;
      }
    }
  }

  /** `bulk_add_people_to_groups`' registry part: the batches in input order, and for
      each group the names appended by its last batch that appended any (a group whose
      batches appended nothing has no entry). */
  function AddPeople(t: Groups, items: seq<(GroupId, seq<Person>)>): (r: (Groups, map<GroupId, seq<Person>>))
    requires GroupsValid(t)
    ensures GroupsValid(r.0)
    decreases |items|
  {
    if items == [] then (t, map[])
    else
      var r0 := AddPeople(t, items[..|items| - 1]);
      var r1 := AddBatch(r0.0, items[|items| - 1].0, items[|items| - 1].1);
      (r1.0, if r1.1 != [] then r0.1[items[|items| - 1].0 := r1.1] else r0.1)
  }

  /** The batches grow the registry: t's groups keep their order and members, each
      reported group gained exactly its reported names at the end, every name of every
      batch ends up in its group, and the groups are t's and those the batches name. */
  lemma {:induction false} AddPeopleGrows(t: Groups, items: seq<(GroupId, seq<Person>)>)
    requires GroupsValid(t)
    ensures var r := AddPeople(t, items);
      Grown(t, r.0) && Appended(t, r.0, r.1) && Placed(items, r.0)
    ensures var r := AddPeople(t, items);
      forall h :: h in r.0.entries <==> h in t.entries || Named(items, h)
    decreases |items|
  {
    if items != [] {
      var init := items[..|items| - 1];
      var g := items[|items| - 1].0;
      var names := items[|items| - 1].1;
      AddPeopleGrows(t, init);
      var r0 := AddPeople(t, init);
      BatchGrown(t, r0.0, g, names);
      BatchAppended(t, r0.0, r0.1, g, names);
      PlacedStep(items, r0.0);
      NamedSnoc(items);
    }
  }

  /** One more batch: the registry and report of the earlier batches, extended by it. */
  lemma AddPeopleSnoc(t: Groups, items: seq<(GroupId, seq<Person>)>, i: nat)
    requires GroupsValid(t) && i < |items|
    ensures var r := AddPeople(t, items[..i]);
      var b := AddBatch(r.0, items[i].0, items[i].1);
      AddPeople(t, items[..i + 1]) == (b.0, if b.1 != [] then r.1[items[i].0 := b.1] else r.1)
  {
    assert items[..i + 1][..i] == items[..i];
  }

  /** Deleting the entries of the given keys, where present (the dict `del` loops of
      `remove_person_from_group` and `delete_group`). */
  function RemoveKeys<V>(m: OrderedMap<Person, V>, ks: seq<Person>): (r: OrderedMap<Person, V>)
    requires m.Valid()
    ensures r.Valid()
    ensures r.entries == m.entries - (set k | k in ks)
    decreases |ks|
  {
    if ks == [] then m
    else
      var r := RemoveKeys(m, ks[..|ks| - 1]);
      var k := ks[|ks| - 1];
      if k in r.entries then r.Remove(k) else r
  }

  /** The characters Python's `str.strip()` removes. */
  predicate IsSpace(c: char) {
    c == ' ' || '\t' <= c <= '\r' || '\U{1c}' <= c <= '\U{1f}' || c == '\U{85}' || c == '\U{a0}'
    || c == '\U{1680}' || '\U{2000}' <= c <= '\U{200a}' || c == '\U{2028}' || c == '\U{2029}'
    || c == '\U{202f}' || c == '\U{205f}' || c == '\U{3000}'
  }

  /** `not s.strip()`: the name is empty or all whitespace. */
  predicate IsBlank(s: string) {
    forall i :: 0 <= i < |s| ==> IsSpace(s[i])
  }

  /** The loop of `bulk_add_groups`: each id in input order is created when absent, and
      reported with whether it was. */
  method AddGroupsLoop(t: Groups, ids: seq<GroupId>) returns (u: Groups, results: map<GroupId, bool>)
    requires GroupsValid(t)
    ensures u == AddGroups(t, ids) && results == AddGroupsReport(t, ids)
  {
    u := t;
    results := map[];
    var i := 0;
    while i < |ids|
      invariant 0 <= i <= |ids|
      invariant u == AddGroups(t, ids[..i]) && results == AddGroupsReport(t, ids[..i])
    {
      var g := ids[i];
      AddGroupsSnoc(t, ids, i);
      if g !in u.entries {
        u := u.Put(g, []);
        results := results[g := true];
      } else {
        results := results[g := false];
      }
      i := i + 1;
    }
    assert ids[..|ids|] == ids;
  }
}

=== FILE: rotation.dfy ===
/** The rotation rule shared by the three scheduler generations, as a specification:
    the (day, group) jobs of a month in day-then-registration order, and the fold that
    fills each job with one member of its group. */
module Rotation {
  import opened Options
  import opened Calendar
  import opened Registry

  /** A person's optional per-month bounds. */
  datatype Constraint = Constraint(minDays: Option<int>, maxDays: Option<int>)

  type Limits = map<Person, Constraint>

  /** Day of month (1-based) each person was last scheduled, and how many slots each holds. */
  type Last = map<Person, nat>
  type Count = map<Person, nat>

  datatype Job = Job(day: nat, group: GroupId)
  datatype Slot = Slot(day: nat, group: GroupId, person: Person, fallback: bool)
  datatype Trace = Trace(slots: seq<Slot>, last: Last, count: Count)

  /** A month's schedule: day of month -> group id -> person. */
  type Schedule = map<nat, map<GroupId, Person>>

  datatype ScheduleError =
    | NoGroups
    | EmptyGroups(ids: seq<GroupId>)
    | TooFewMembers(group: GroupId, required: int)
    | InvalidDate
    | UnmetMinimumDays(person: Person, required: int, actual: int)

  function CountOf(p: Person, count: Count): nat {
    if p in count then count[p] else 0
  }

  /** The table after one more assignment of p. */
  function Bump(count: Count, p: Person): Count {
    count[p := CountOf(p, count) + 1]
  }

  /** Not scheduled on the previous day. Day numbers start at 1, so on day 1 nobody was. */
  predicate NotYesterday(p: Person, day: nat, last: Last) {
    p !in last || last[p] + 1 != day
  }

  predicate BelowMax(p: Person, count: Count, cons: Limits) {
    p !in cons || cons[p].maxDays.None? || CountOf(p, count) < cons[p].maxDays.value
  }

  predicate BelowMin(p: Person, count: Count, cons: Limits) {
    p in cons && cons[p].minDays.Some? && CountOf(p, count) < cons[p].minDays.value
  }

  predicate IsEligible(p: Person, day: nat, last: Last, count: Count, cons: Limits) {
    NotYesterday(p, day, last) && BelowMax(p, count, cons)
  }

  /** The eligible members, in member order. */
  function Eligible(ms: seq<Person>, day: nat, last: Last, count: Count, cons: Limits): (e: seq<Person>)
    ensures forall p :: p in e <==> p in ms && IsEligible(p, day, last, count, cons)
    decreases |ms|
  {
    if ms == [] then []
    else
      var init := ms[..|ms| - 1];
      var p := ms[|ms| - 1];
      assert forall q :: q in ms <==> q in init || q == p;
      Eligible(init, day, last, count, cons) + (if IsEligible(p, day, last, count, cons) then [p] else [])
  }

  /** The candidates still short of their minimum, in candidate order. */
  function BelowMinOf(c: seq<Person>, count: Count, cons: Limits): (m: seq<Person>)
    ensures forall p :: p in m <==> p in c && BelowMin(p, count, cons)
    decreases |c|
  {
    if c == [] then []
    else
      var init := c[..|c| - 1];
      var p := c[|c| - 1];
      assert forall q :: q in c <==> q in init || q == p;
      BelowMinOf(init, count, cons) + (if BelowMin(p, count, cons) then [p] else [])
  }

  /** Position of the first never-scheduled candidate, |c| when there is none. */
  function FirstNever(c: seq<Person>, last: Last): (i: nat)
    ensures i <= |c|
    ensures forall j :: 0 <= j < i ==> c[j] in last
    ensures i < |c| ==> c[i] !in last
    decreases |c|
  {
    if c == [] then 0 else if c[0] !in last then 0 else 1 + FirstNever(c[1..], last)
  }

  /** Position of the candidate with the earliest last day; the strict comparison keeps
      the first of several equal ones. */
  function Oldest(c: seq<Person>, last: Last): (i: nat)
    requires |c| > 0 && forall j :: 0 <= j < |c| ==> c[j] in last
    ensures i < |c|
    ensures forall j :: 0 <= j < |c| ==> last[c[i]] <= last[c[j]]
    ensures forall j :: 0 <= j < i ==> last[c[i]] < last[c[j]]
    decreases |c|
  {
    if |c| == 1 then 0
    else
      var init := c[..|c| - 1];
      assert forall j :: 0 <= j < |init| ==> init[j] == c[j];
      var i := Oldest(init, last);
      if last[c[|c| - 1]] < last[c[i]] then |c| - 1 else i
  }

  /** Least-recently-used choice: the first never-scheduled candidate, else the one
      scheduled longest ago, the earlier in the list on a tie. */
  function PickLeastRecent(c: seq<Person>, last: Last): (p: Person)
    requires |c| > 0
    ensures p in c
    ensures (exists j :: 0 <= j < |c| && c[j] !in last) ==> p !in last
    ensures p in last ==> forall j :: 0 <= j < |c| ==> c[j] in last && last[p] <= last[c[j]]
  {
    var i := FirstNever(c, last);
    if i < |c| then c[i] else c[Oldest(c, last)]
  }

  /** `_select_person`: members short of their minimum take priority, and the
      least-recently-used rule picks among the preferred set. */
  function SelectPerson(c: seq<Person>, last: Last, count: Count, cons: Limits): (p: Person)
    requires |c| > 0
    ensures p in c
    ensures (exists q :: q in c && BelowMin(q, count, cons)) ==> BelowMin(p, count, cons)
  {
    var m := BelowMinOf(c, count, cons);
    if |m| > 0 then PickLeastRecent(m, last)
    else
      assert forall q :: q in c ==> !BelowMin(q, count, cons);
      PickLeastRecent(c, last)
  }

  /** With no constraints the selection is the plain least-recently-used rule. */
  lemma SelectUnconstrained(c: seq<Person>, last: Last, count: Count)
    requires |c| > 0
    ensures SelectPerson(c, last, count, map[]) == PickLeastRecent(c, last)
  {
    var m := BelowMinOf(c, count, map[]);
    assert |m| > 0 ==> m[0] in m;
  }

  /** One day's jobs: every group in registration order. */
  function DayJobs(day: nat, order: seq<GroupId>): (js: seq<Job>)
    ensures |js| == |order|
    ensures forall i :: 0 <= i < |order| ==> js[i] == Job(day, order[i])
  {
    seq(|order|, i requires 0 <= i < |order| => Job(day, order[i]))
  }

  /** The month's jobs: days 1..n, each day's groups in registration order. */
  function Jobs(n: nat, order: seq<GroupId>): (js: seq<Job>)
    decreases n
  {
    if n == 0 then [] else Jobs(n - 1, order) + DayJobs(n, order)
  }

  lemma {:induction false} JobsLength(n: nat, order: seq<GroupId>)
    ensures |Jobs(n, order)| == n * |order|
    decreases n
  {
    if n > 0 {
      JobsLength(n - 1, order);
      assert (n - 1) * |order| + |order| == n * |order|;
    }
  }

  /** The jobs are on days 1..n, in non-decreasing day order, each for a registered group. */
  lemma {:induction false} JobsInRange(n: nat, order: seq<GroupId>)
    ensures forall k :: 0 <= k < |Jobs(n, order)| ==> 1 <= Jobs(n, order)[k].day <= n && Jobs(n, order)[k].group in order
    ensures forall k1, k2 :: 0 <= k1 <= k2 < |Jobs(n, order)| ==> Jobs(n, order)[k1].day <= Jobs(n, order)[k2].day
    decreases n
  {
    if n > 0 {
      JobsInRange(n - 1, order);
      var prev := Jobs(n - 1, order);
      var js := prev + DayJobs(n, order);
      assert js == Jobs(n, order);
      forall k | 0 <= k < |js| ensures 1 <= js[k].day <= n && js[k].group in order {
        if k < |prev| {
          assert js[k] == prev[k];
        } else {
          assert js[k] == Job(n, order[k - |prev|]);
        }
      }
      forall k1, k2 | 0 <= k1 <= k2 < |js| ensures js[k1].day <= js[k2].day {
        if k2 < |prev| {
          assert js[k1] == prev[k1] && js[k2] == prev[k2];
        } else if k1 < |prev| {
          assert js[k1] == prev[k1] && js[k2] == Job(n, order[k2 - |prev|]);
        } else {
          assert js[k1] == Job(n, order[k1 - |prev|]) && js[k2] == Job(n, order[k2 - |prev|]);
        }
      }
    }
  }

  /** Every (day, group) pair of the month is a job. */
  lemma {:induction false} JobsComplete(n: nat, order: seq<GroupId>)
    ensures forall d, g :: 1 <= d <= n && g in order ==> Job(d, g) in Jobs(n, order)
    decreases n
  {
    if n > 0 {
      JobsComplete(n - 1, order);
      var prev := Jobs(n - 1, order);
      var js := prev + DayJobs(n, order);
      forall d, g | 1 <= d <= n && g in order ensures Job(d, g) in js {
        if d == n {
          var i :| 0 <= i < |order| && order[i] == g;
          assert js[|prev| + i] == Job(d, g);
        } else {
          assert Job(d, g) in prev;
        }
      }
    }
  }

  /** The position of the job for day d and group g. */
  lemma JobIndex(n: nat, order: seq<GroupId>, d: nat, g: GroupId) returns (k: nat)
    requires 1 <= d <= n && g in order
    ensures k < |Jobs(n, order)| && Jobs(n, order)[k] == Job(d, g)
  {
    JobsComplete(n, order);
    k :| k < |Jobs(n, order)| && Jobs(n, order)[k] == Job(d, g);
  }

  /** The job at position k is on a day of 1..n, for a group of the order. */
  lemma JobAt(n: nat, order: seq<GroupId>, k: nat)
    requires k < |Jobs(n, order)|
    ensures 1 <= Jobs(n, order)[k].day <= n && Jobs(n, order)[k].group in order
  {
    JobsInRange(n, order);
  }

  /** With a duplicate-free group order, no (day, group) pair is a job twice. */
  lemma {:induction false} JobsDistinct(n: nat, order: seq<GroupId>)
    requires NoDup(order)
    ensures NoDup(Jobs(n, order))
    decreases n
  {
    if n > 0 {
      JobsDistinct(n - 1, order);
      JobsInRange(n - 1, order);
      var prev := Jobs(n - 1, order);
      var today := DayJobs(n, order);
      var js := prev + today;
      assert js == Jobs(n, order);
      forall k1, k2 | 0 <= k1 < k2 < |js| ensures js[k1] != js[k2] {
        if k1 >= |prev| {
          assert js[k1] == today[k1 - |prev|] && js[k2] == today[k2 - |prev|];
        } else if k2 >= |prev| {
          assert js[k1] == prev[k1] && js[k2] == today[k2 - |prev|];
          assert prev[k1].day <= n - 1;
        } else {
          assert js[k1] == prev[k1] && js[k2] == prev[k2];
        }
      }
    }
  }

  predicate Feasible(groups: map<GroupId, seq<Person>>, jobs: seq<Job>) {
    forall k :: 0 <= k < |jobs| ==> jobs[k].group in groups && |groups[jobs[k].group]| > 0
  }

  /** The candidates of one job: the eligible members, or every member when none is
      eligible (the fallback). */
  function Candidates(ms: seq<Person>, day: nat, last: Last, count: Count, cons: Limits): (c: seq<Person>)
    requires |ms| > 0
    ensures |c| > 0 && forall p :: p in c ==> p in ms
  {
    var e := Eligible(ms, day, last, count, cons);
    if e == [] then ms else e
  }

  /** The person chosen for one job. */
  function Choose(ms: seq<Person>, day: nat, last: Last, count: Count, cons: Limits): (p: Person)
    requires |ms| > 0
    ensures p in ms
  {
    SelectPerson(Candidates(ms, day, last, count, cons), last, count, cons)
  }

  /** Filling one job: choose a member, then record the slot, the person's last day and
      count. */
  function Step(groups: map<GroupId, seq<Person>>, cons: Limits, t: Trace, job: Job): (r: Trace)
    requires job.group in groups && |groups[job.group]| > 0
  {
    var ms := groups[job.group];
    var p := Choose(ms, job.day, t.last, t.count, cons);
    var fallback := Eligible(ms, job.day, t.last, t.count, cons) == [];
    Trace(t.slots + [Slot(job.day, job.group, p, fallback)], t.last[p := job.day], Bump(t.count, p))
  }

  /** The bookkeeping of one step: the chosen person's slot, last day and count. */
  lemma StepFields(groups: map<GroupId, seq<Person>>, cons: Limits, t: Trace, job: Job, p: Person)
    requires job.group in groups && |groups[job.group]| > 0
    requires p == Choose(groups[job.group], job.day, t.last, t.count, cons)
    ensures Step(groups, cons, t, job).slots
         == t.slots + [Slot(job.day, job.group, p, Eligible(groups[job.group], job.day, t.last, t.count, cons) == [])]
    ensures Step(groups, cons, t, job).last == t.last[p := job.day]
    ensures Step(groups, cons, t, job).count == Bump(t.count, p)
  {
    var fallback := Eligible(groups[job.group], job.day, t.last, t.count, cons) == [];
    assert Step(groups, cons, t, job)
        == Trace(t.slots + [Slot(job.day, job.group, p, fallback)], t.last[p := job.day], Bump(t.count, p));
  }

  /** The schedule run: the jobs filled one after the other from an empty state. */
  function Run(groups: map<GroupId, seq<Person>>, cons: Limits, jobs: seq<Job>): (t: Trace)
    requires Feasible(groups, jobs)
    ensures |t.slots| == |jobs|
    decreases |jobs|
  {
    if jobs == [] then Trace([], map[], map[])
    else
      var init := jobs[..|jobs| - 1];
      assert forall k :: 0 <= k < |init| ==> init[k] == jobs[k];
      Step(groups, cons, Run(groups, cons, init), jobs[|jobs| - 1])
  }

  /** Running one more job is one more step. */
  lemma RunSnoc(groups: map<GroupId, seq<Person>>, cons: Limits, jobs: seq<Job>, job: Job)
    requires Feasible(groups, jobs) && job.group in groups && |groups[job.group]| > 0
    ensures Feasible(groups, jobs + [job])
    ensures Run(groups, cons, jobs + [job]) == Step(groups, cons, Run(groups, cons, jobs), job)
  {
    var js := jobs + [job];
    assert js[..|jobs|] == jobs;
    assert forall k :: 0 <= k < |jobs| ==> js[k] == jobs[k];
  }

  /** Number of slots a person holds. */
  function Occ(slots: seq<Slot>, p: Person): (r: nat)
    ensures r <= |slots|
    ensures r == 0 <==> forall k :: 0 <= k < |slots| ==> slots[k].person != p
    decreases |slots|
  {
    if slots == [] then 0
    else
      var init := slots[..|slots| - 1];
      assert forall k :: 0 <= k < |init| ==> init[k] == slots[k];
      Occ(init, p) + (if slots[|slots| - 1].person == p then 1 else 0)
  }

  /** Slot k is p's, and no later slot is. */
  predicate LatestAt(slots: seq<Slot>, p: Person, k: int) {
    0 <= k < |slots| && slots[k].person == p && forall i :: k < i < |slots| ==> slots[i].person != p
  }

  /** Day of a person's latest slot (0 when there is none). */
  function LastDay(slots: seq<Slot>, p: Person): (d: nat)
    ensures (exists k :: 0 <= k < |slots| && slots[k].person == p) ==>
      exists k :: LatestAt(slots, p, k) && slots[k].day == d
    decreases |slots|
  {
    if slots == [] then 0
    else if slots[|slots| - 1].person == p then
      assert LatestAt(slots, p, |slots| - 1);
      slots[|slots| - 1].day
    else
      var init := slots[..|slots| - 1];
      assert forall k :: 0 <= k < |init| ==> init[k] == slots[k];
      var d := LastDay(init, p);
      assert (exists k :: 0 <= k < |init| && init[k].person == p) ==> exists k :: LatestAt(slots, p, k) && slots[k].day == d by {
        if exists k :: 0 <= k < |init| && init[k].person == p {
          var k :| LatestAt(init, p, k) && init[k].day == d;
          assert LatestAt(slots, p, k);
        }
      }
      d
  }

  /** A person holding some slot has a latest one, on their last day. */
  lemma LatestSlot(slots: seq<Slot>, p: Person, k0: nat) returns (k: nat)
    requires k0 < |slots| && slots[k0].person == p
    ensures k0 <= k && LatestAt(slots, p, k) && slots[k].day == LastDay(slots, p)
  {
    var d := LastDay(slots, p);
    k :| LatestAt(slots, p, k) && slots[k].day == d;
  }

  lemma PrefixOfInit<T>(s: seq<T>, k: nat)
    requires k < |s|
    ensures s[..|s| - 1][..k] == s[..k]
  {
  }

  /** The slots of a run extend the slots of the run without its last job. */
  lemma RunLastSlots(groups: map<GroupId, seq<Person>>, cons: Limits, jobs: seq<Job>)
    requires Feasible(groups, jobs) && jobs != []
    ensures Feasible(groups, jobs[..|jobs| - 1])
    ensures Run(groups, cons, jobs).slots[..|jobs| - 1] == Run(groups, cons, jobs[..|jobs| - 1]).slots
  {
    var init := jobs[..|jobs| - 1];
    assert forall i :: 0 <= i < |init| ==> init[i] == jobs[i];
    var t0 := Run(groups, cons, init);
    assert Run(groups, cons, jobs).slots == t0.slots + [Step(groups, cons, t0, jobs[|jobs| - 1]).slots[|init|]];
  }

  /** A prefix of the jobs is run to a prefix of the slots. */
  lemma {:induction false} RunPrefix(groups: map<GroupId, seq<Person>>, cons: Limits, jobs: seq<Job>, k: nat)
    requires Feasible(groups, jobs) && k <= |jobs|
    ensures Feasible(groups, jobs[..k])
    ensures Run(groups, cons, jobs[..k]).slots == Run(groups, cons, jobs).slots[..k]
    decreases |jobs|
  {
    if k < |jobs| {
      var init := jobs[..|jobs| - 1];
      assert forall i :: 0 <= i < |init| ==> init[i] == jobs[i];
      RunPrefix(groups, cons, init, k);
      PrefixOfInit(jobs, k);
      RunLastSlots(groups, cons, jobs);
    } else {
      assert jobs[..k] == jobs;
    }
  }

  /** Slot k holds job k, and its person is the choice among job k's candidates in the
      state reached after the first k jobs; the fallback flag says whether nobody was
      eligible. */
  lemma SlotChoice(groups: map<GroupId, seq<Person>>, cons: Limits, jobs: seq<Job>, k: nat)
    requires Feasible(groups, jobs) && k < |jobs|
    ensures Feasible(groups, jobs[..k])
    ensures var t := Run(groups, cons, jobs[..k]);
      var s := Run(groups, cons, jobs).slots[k];
      var ms := groups[jobs[k].group];
      && t.slots == Run(groups, cons, jobs).slots[..k]
      && s.day == jobs[k].day && s.group == jobs[k].group
      && s.fallback == (Eligible(ms, jobs[k].day, t.last, t.count, cons) == [])
      && s.person == Choose(ms, jobs[k].day, t.last, t.count, cons)
  {
    RunPrefix(groups, cons, jobs, k);
    RunPrefix(groups, cons, jobs, k + 1);
    var pre := jobs[..k + 1];
    assert pre[..k] == jobs[..k];
    assert pre[k] == jobs[k];
    var t := Run(groups, cons, jobs[..k]);
    var ms := groups[jobs[k].group];
    var x := Slot(jobs[k].day, jobs[k].group, Choose(ms, jobs[k].day, t.last, t.count, cons),
      Eligible(ms, jobs[k].day, t.last, t.count, cons) == []);
    assert Run(groups, cons, pre).slots == t.slots + [x];
    assert Run(groups, cons, jobs).slots[k] == Run(groups, cons, pre).slots[k];
  }

  /** A person's entries in the running maps agree with the slots: the count is the
      number of slots they hold, and the last day is the day of their latest slot. */
  predicate Tracks(t: Trace, p: Person) {
    && CountOf(p, t.count) == Occ(t.slots, p)
    && (p in t.last <==> Occ(t.slots, p) > 0)
    && (p in t.last ==> t.last[p] == LastDay(t.slots, p))
  }

  /** One step keeps every person's entries in agreement with the slots. */
  lemma StepTracks(groups: map<GroupId, seq<Person>>, cons: Limits, t0: Trace, job: Job, p: Person)
    requires job.group in groups && |groups[job.group]| > 0
    requires Tracks(t0, p)
    ensures Tracks(Step(groups, cons, t0, job), p)
  {
    var t := Step(groups, cons, t0, job);
    var q := Choose(groups[job.group], job.day, t0.last, t0.count, cons);
    assert t.slots[..|t.slots| - 1] == t0.slots;
    assert t.slots[|t.slots| - 1].person == q && t.slots[|t.slots| - 1].day == job.day;
    assert Occ(t.slots, p) == Occ(t0.slots, p) + (if q == p then 1 else 0);
  }

  /** The running maps of a run agree with its slots for every person. */
  lemma {:induction false} RunTracks(groups: map<GroupId, seq<Person>>, cons: Limits, jobs: seq<Job>)
    requires Feasible(groups, jobs)
    ensures forall p :: Tracks(Run(groups, cons, jobs), p)
    decreases |jobs|
  {
    if jobs != [] {
      var init := jobs[..|jobs| - 1];
      assert forall i :: 0 <= i < |init| ==> init[i] == jobs[i];
      RunTracks(groups, cons, init);
      var t0 := Run(groups, cons, init);
      assert Run(groups, cons, jobs) == Step(groups, cons, t0, jobs[|jobs| - 1]);
      forall p ensures Tracks(Run(groups, cons, jobs), p) {
        StepTracks(groups, cons, t0, jobs[|jobs| - 1], p);
      }
    }
  }

  /** The schedule a sequence of slots describes: each slot sets its day's entry for its
      group (a later slot for the same day and group wins). */
  function ScheduleOf(slots: seq<Slot>): Schedule
    decreases |slots|
  {
    if slots == [] then map[]
    else
      var s := ScheduleOf(slots[..|slots| - 1]);
      var x := slots[|slots| - 1];
      s[x.day := (if x.day in s then s[x.day] else map[])[x.group := x.person]]
  }

  /** One more slot sets its day's entry for its group. */
  lemma ScheduleSnoc(slots: seq<Slot>, x: Slot)
    ensures var s := ScheduleOf(slots);
      ScheduleOf(slots + [x]) == s[x.day := (if x.day in s then s[x.day] else map[])[x.group := x.person]]
  {
    assert (slots + [x])[..|slots|] == slots;
  }

  /** Within one day's group loop: the slots so far describe the earlier days s plus
      the day's entries ds (none before the first group), and one more slot of that day
      adds its group's entry. */
  lemma ScheduleDayStep(slots: seq<Slot>, s: Schedule, ds: map<GroupId, Person>, first: bool, x: Slot)
    requires x.day !in s
    requires ScheduleOf(slots) == if first then s else s[x.day := ds]
    requires first ==> ds == map[]
    ensures ScheduleOf(slots + [x]) == s[x.day := ds[x.group := x.person]]
  {
    ScheduleSnoc(slots, x);
  }

  /** A day has an entry exactly when some slot is on it. */
  lemma {:induction false} ScheduleDays(slots: seq<Slot>)
    ensures forall d :: d in ScheduleOf(slots) <==> exists k :: 0 <= k < |slots| && slots[k].day == d
    decreases |slots|
  {
    if slots != [] {
      var init := slots[..|slots| - 1];
      ScheduleDays(init);
      var s0 := ScheduleOf(init);
      var x := slots[|slots| - 1];
      assert ScheduleOf(slots) == s0[x.day := (if x.day in s0 then s0[x.day] else map[])[x.group := x.person]];
      forall d ensures d in ScheduleOf(slots) <==> exists k :: 0 <= k < |slots| && slots[k].day == d {
        if d in ScheduleOf(slots) && d != slots[|slots| - 1].day {
          var k :| 0 <= k < |init| && init[k].day == d;
          assert slots[k].day == d;
        }
        if exists k :: 0 <= k < |slots| && slots[k].day == d {
          var k :| 0 <= k < |slots| && slots[k].day == d;
          if k < |init| {
            assert init[k].day == d;
          }
        }
      }
    }
  }

  /** Every slot's day has an entry for the slot's group. */
  lemma {:induction false} ScheduleFilled(slots: seq<Slot>)
    ensures forall k :: 0 <= k < |slots| ==> slots[k].day in ScheduleOf(slots) && slots[k].group in ScheduleOf(slots)[slots[k].day]
    decreases |slots|
  {
    if slots != [] {
      var init := slots[..|slots| - 1];
      ScheduleFilled(init);
      forall k | 0 <= k < |slots| ensures slots[k].day in ScheduleOf(slots) && slots[k].group in ScheduleOf(slots)[slots[k].day] {
        if k < |init| {
          assert init[k] == slots[k];
        }
      }
    }
  }

  /** Some slot puts p on day d for group g. */
  predicate Filled(slots: seq<Slot>, d: nat, g: GroupId, p: Person) {
    exists k :: 0 <= k < |slots| && slots[k] == Slot(d, g, p, slots[k].fallback)
  }

  /** Every entry is the person of a slot for that day and group. */
  lemma {:induction false} ScheduleEntries(slots: seq<Slot>)
    ensures forall d, g :: d in ScheduleOf(slots) && g in ScheduleOf(slots)[d] ==> Filled(slots, d, g, ScheduleOf(slots)[d][g])
    decreases |slots|
  {
    if slots != [] {
      var init := slots[..|slots| - 1];
      ScheduleEntries(init);
      var s0 := ScheduleOf(init);
      var s := ScheduleOf(slots);
      var n := |slots| - 1;
      var x := slots[n];
      assert s == s0[x.day := (if x.day in s0 then s0[x.day] else map[])[x.group := x.person]];
      forall d, g | d in s && g in s[d] ensures Filled(slots, d, g, s[d][g]) {
        if d == x.day && g == x.group {
          assert slots[n] == Slot(d, g, s[d][g], slots[n].fallback);
        } else {
          assert d in s0 && g in s0[d] && s[d][g] == s0[d][g];
          assert Filled(init, d, g, s0[d][g]);
          var k :| 0 <= k < |init| && init[k] == Slot(d, g, s0[d][g], init[k].fallback);
          assert slots[k] == init[k];
        }
      }
    }
  }

  /** The ids of the groups without members, in registration order. */
  function EmptyGroupIds(keys: seq<GroupId>, groups: map<GroupId, seq<Person>>): (r: seq<GroupId>)
    ensures forall g :: g in r <==> g in keys && g in groups && groups[g] == []
    decreases |keys|
  {
    if keys == [] then []
    else
      var init := keys[..|keys| - 1];
      var g := keys[|keys| - 1];
      assert forall h :: h in keys <==> h in init || h == g;
      EmptyGroupIds(init, groups) + (if g in groups && groups[g] == [] then [g] else [])
  }

  /** With distinct ids, the empty groups are listed in registration order. */
  lemma {:induction false} EmptyGroupIdsInOrder(keys: seq<GroupId>, groups: map<GroupId, seq<Person>>)
    requires NoDup(keys)
    ensures forall i, j :: 0 <= i < j < |EmptyGroupIds(keys, groups)| ==>
      IndexOf(keys, EmptyGroupIds(keys, groups)[i]) < IndexOf(keys, EmptyGroupIds(keys, groups)[j])
    decreases |keys|
  {
    if keys != [] {
      var init := keys[..|keys| - 1];
      var g := keys[|keys| - 1];
      assert keys == init + [g];
      assert NoDup(init);
      EmptyGroupIdsInOrder(init, groups);
      IndexOfExtend(init, [g]);
      assert g !in init && IndexOf(keys, g) == |init|;
      var r0 := EmptyGroupIds(init, groups);
      assert forall i, j :: 0 <= i < j < |r0| ==> IndexOf(init, r0[i]) < IndexOf(init, r0[j]);
      var r := EmptyGroupIds(keys, groups);
      assert r == r0 + (if g in groups && groups[g] == [] then [g] else []);
      forall i, j | 0 <= i < j < |r|
        ensures IndexOf(keys, r[i]) < IndexOf(keys, r[j])
      {
        var x := r0[i];
        assert r[i] == x && x in init;
        if j < |r0| {
          assert r[j] == r0[j] && r0[j] in init;
        } else {
          assert r[j] == g;
          IndexOfPresent(init, x);
        }
      }
    }
  }

  /** Position i holds a group with fewer than `minMembers` members, and no earlier one does. */
  predicate FirstSmallAt(keys: seq<GroupId>, groups: map<GroupId, seq<Person>>, minMembers: int, i: int)
    requires forall g :: g in keys ==> g in groups
  {
    0 <= i < |keys| && |groups[keys[i]]| < minMembers && forall j :: 0 <= j < i ==> |groups[keys[j]]| >= minMembers
  }

  /** The first group, in registration order, with fewer than `minMembers` members. */
  function FirstSmallGroup(keys: seq<GroupId>, groups: map<GroupId, seq<Person>>, minMembers: int): (r: Option<GroupId>)
    requires forall g :: g in keys ==> g in groups
    ensures r.None? <==> forall g :: g in keys ==> |groups[g]| >= minMembers
    ensures r.Some? ==> exists i :: FirstSmallAt(keys, groups, minMembers, i) && keys[i] == r.value
    decreases |keys|
  {
    if keys == [] then None
    else if |groups[keys[0]]| < minMembers then Some(keys[0])
    else
      var r := FirstSmallGroup(keys[1..], groups, minMembers);
      assert forall h :: h in keys <==> h in keys[1..] || h == keys[0];
      if r.Some? then
        var i :| FirstSmallAt(keys[1..], groups, minMembers, i) && keys[1..][i] == r.value;
        assert FirstSmallAt(keys, groups, minMembers, i + 1) && keys[i + 1] == r.value;
        r
      else r
  }

  /** The checks made before any day is scheduled, in the order they are made: no groups,
      groups without members, groups smaller than the minimum. */
  function Precheck(t: Groups, minMembers: int): (r: Outcome<ScheduleError>)
    requires t.Valid()
    ensures r.Pass? <==> |t.keys| > 0 && forall g :: g in t.entries ==> 0 < |t.entries[g]| && minMembers <= |t.entries[g]|
    ensures r == Fail(NoGroups) <==> t.keys == []
    ensures r.Fail? ==> r.error.NoGroups? || r.error.EmptyGroups? || r.error.TooFewMembers?
    ensures r.Fail? && r.error.EmptyGroups? ==>
      r.error.ids != [] && forall g :: g in r.error.ids <==> g in t.entries && t.entries[g] == []
    ensures r.Fail? && r.error.TooFewMembers? ==>
      && r.error.required == minMembers && r.error.group in t.entries
      && 0 < |t.entries[r.error.group]| < minMembers
      && forall g :: g in t.entries ==> t.entries[g] != []
  {
    if t.keys == [] then Fail(NoGroups)
    else
      var empty := EmptyGroupIds(t.keys, t.entries);
      if empty != [] then
        assert empty[0] in empty;
        Fail(EmptyGroups(empty))
      else
        match FirstSmallGroup(t.keys, t.entries, minMembers)
        case Some(g) => Fail(TooFewMembers(g, minMembers))
        case None => Pass
  }

  /** A passing precheck leaves every job of the month with a non-empty group. */
  lemma MonthFeasible(t: Groups, minMembers: int, n: nat)
    requires t.Valid() && Precheck(t, minMembers).Pass?
    ensures Feasible(t.entries, Jobs(n, t.keys))
  {
    JobsInRange(n, t.keys);
  }

  /** The first constrained person, in constraint order, still short of their minimum. */
  function FirstUnmet(keys: seq<Person>, cons: Limits, count: Count): (r: Option<Person>)
    ensures r.None? <==> forall p :: p in keys && p in cons && cons[p].minDays.Some? ==> CountOf(p, count) >= cons[p].minDays.value
    ensures r.Some? ==> r.value in keys && BelowMin(r.value, count, cons)
    decreases |keys|
  {
    if keys == [] then None
    else if BelowMin(keys[0], count, cons) then Some(keys[0])
    else
      assert forall h :: h in keys <==> h in keys[1..] || h == keys[0];
      FirstUnmet(keys[1..], cons, count)
  }

  /** The run of a month whose precheck passed: days 1..DaysInMonth, the groups in
      registration order. */
  function MonthRun(t: Groups, cons: Limits, minMembers: int, y: int, m: int): Trace
    requires t.Valid() && Precheck(t, minMembers).Pass? && ValidYearMonth(y, m)
  {
    MonthFeasible(t, minMembers, DaysInMonth(y, m));
    Run(t.entries, cons, Jobs(DaysInMonth(y, m), t.keys))
  }

  /** What `generate_monthly_schedule` computes: an error from the precheck, an invalid
      year or month, or an unmet minimum (the first in constraint order); otherwise the run. */
  function Generate(t: Groups, cons: OrderedMap<Person, Constraint>, minMembers: int, y: int, m: int): (r: Result<Trace, ScheduleError>)
    requires t.Valid()
    ensures r.Success? ==>
      Precheck(t, minMembers).Pass? && ValidYearMonth(y, m) && FirstUnmet(cons.keys, cons.entries, r.value.count).None?
  {
    match Precheck(t, minMembers)
    case Fail(e) => Failure(e)
    case Pass =>
      if !ValidYearMonth(y, m) then Failure(InvalidDate)
      else
        var tr := MonthRun(t, cons.entries, minMembers, y, m);
        match FirstUnmet(cons.keys, cons.entries, tr.count)
        case Some(p) => Failure(UnmetMinimumDays(p, cons.entries[p].minDays.value, CountOf(p, tr.count)))
        case None => Success(tr)
  }

  /** The schedule `generate_monthly_schedule` produces, or the error it raises. */
  function MonthSchedule(t: Groups, cons: OrderedMap<Person, Constraint>, minMembers: int, y: int, m: int): Result<Schedule, ScheduleError>
    requires t.Valid()
  {
    match Generate(t, cons, minMembers, y, m)
    case Success(tr) => Success(ScheduleOf(tr.slots))
    case Failure(e) => Failure(e)
  }

  /** Without constraints no minimum can be unmet: a passing precheck and a valid month
      give the schedule of the run. */
  lemma MonthScheduleUnconstrained(t: Groups, minMembers: int, y: int, m: int)
    requires t.Valid() && Precheck(t, minMembers).Pass? && ValidYearMonth(y, m)
    ensures Feasible(t.entries, Jobs(DaysInMonth(y, m), t.keys))
    ensures MonthSchedule(t, Empty(), minMembers, y, m)
         == Success(ScheduleOf(Run(t.entries, map[], Jobs(DaysInMonth(y, m), t.keys)).slots))
  {
    MonthFeasible(t, minMembers, DaysInMonth(y, m));
    var tr := MonthRun(t, map[], minMembers, y, m);
    assert FirstUnmet([], map[], tr.count).None?;
  }

  /** A failed precheck is the outcome whatever the constraints. */
  lemma MonthSchedulePrecheckFails(t: Groups, cons: OrderedMap<Person, Constraint>, minMembers: int, y: int, m: int)
    requires t.Valid() && Precheck(t, minMembers).Fail?
    ensures MonthSchedule(t, cons, minMembers, y, m) == Failure(Precheck(t, minMembers).error)
  {
  }

  /** After a passing precheck, an invalid year or month is the outcome whatever the
      constraints. */
  lemma MonthScheduleInvalidDate(t: Groups, cons: OrderedMap<Person, Constraint>, minMembers: int, y: int, m: int)
    requires t.Valid() && Precheck(t, minMembers).Pass? && !ValidYearMonth(y, m)
    ensures MonthSchedule(t, cons, minMembers, y, m) == Failure(InvalidDate)
  {
  }

  /** A successful month passed its checks and holds the schedule of the month's run. */
  lemma MonthScheduleSucceeded(t: Groups, cons: OrderedMap<Person, Constraint>, minMembers: int, y: int, m: int)
    requires t.Valid() && MonthSchedule(t, cons, minMembers, y, m).Success?
    ensures Precheck(t, minMembers).Pass? && ValidYearMonth(y, m)
    ensures MonthSchedule(t, cons, minMembers, y, m).value == ScheduleOf(MonthRun(t, cons.entries, minMembers, y, m).slots)
  {
    var g := Generate(t, cons, minMembers, y, m);
    assert g.Success? && Precheck(t, minMembers).Pass? && ValidYearMonth(y, m);
    assert g.value == MonthRun(t, cons.entries, minMembers, y, m);
  }

  /** After the first i groups of a day: the run has filled the earlier jobs and the
      day's first i jobs, and its schedule is s plus the day's entries so far. */
  ghost predicate DayState(t: Groups, cons: Limits, jobs: seq<Job>, s: Schedule, day: nat, i: nat, tr: Trace, ds: map<GroupId, Person>) {
    i <= |t.keys|
    && Feasible(t.entries, jobs + DayJobs(day, t.keys)[..i])
    && tr == Run(t.entries, cons, jobs + DayJobs(day, t.keys)[..i])
    && ScheduleOf(tr.slots) == (if i == 0 then s else s[day := ds])
    && (i == 0 ==> ds == map[])
  }

  lemma DayStart(t: Groups, cons: Limits, jobs: seq<Job>, s: Schedule, day: nat)
    requires Feasible(t.entries, jobs) && ScheduleOf(Run(t.entries, cons, jobs).slots) == s
    ensures DayState(t, cons, jobs, s, day, 0, Run(t.entries, cons, jobs), map[])
  {
    assert jobs + DayJobs(day, t.keys)[..0] == jobs;
  }

  /** Filling group i of the day extends the run by one step and the day's entries by
      the group's choice. */
  lemma DayStep(t: Groups, cons: Limits, jobs: seq<Job>, s: Schedule, day: nat, i: nat, tr: Trace, ds: map<GroupId, Person>, p: Person)
    requires DayState(t, cons, jobs, s, day, i, tr, ds) && i < |t.keys| && day !in s
    requires t.keys[i] in t.entries && |t.entries[t.keys[i]]| > 0
    requires p == Choose(t.entries[t.keys[i]], day, tr.last, tr.count, cons)
    ensures DayState(t, cons, jobs, s, day, i + 1, Step(t.entries, cons, tr, Job(day, t.keys[i])), ds[t.keys[i] := p])
  {
    var today := DayJobs(day, t.keys);
    var g := t.keys[i];
    var job := Job(day, g);
    TakeSnoc(today, i);
    AppendAssoc(jobs, today[..i], [job]);
    RunSnoc(t.entries, cons, jobs + today[..i], job);
    var ms := t.entries[g];
    var x := Slot(day, g, Choose(ms, day, tr.last, tr.count, cons), Eligible(ms, day, tr.last, tr.count, cons) == []);
    ScheduleDayStep(tr.slots, s, ds, i == 0, x);
  }

  /** One group's pick as the run's next step: the day's state advances, and the step
      records the slot, the person's last day and count. */
  lemma SlotStep(t: Groups, cons: Limits, jobs: seq<Job>, s: Schedule, day: nat, i: nat, tr: Trace,
                 ds: map<GroupId, Person>, p: Person)
    requires t.Valid() && forall g :: g in t.entries ==> |t.entries[g]| > 0
    requires DayState(t, cons, jobs, s, day, i, tr, ds) && i < |t.keys| && day !in s
    requires p == Choose(t.entries[t.keys[i]], day, tr.last, tr.count, cons)
    ensures var tr1 := Step(t.entries, cons, tr, Job(day, t.keys[i]));
      && DayState(t, cons, jobs, s, day, i + 1, tr1, ds[t.keys[i] := p])
      && tr1.last == tr.last[p := day]
      && tr1.count == Bump(tr.count, p)
      && tr1.slots == tr.slots + [Slot(day, t.keys[i], p, Eligible(t.entries[t.keys[i]], day, tr.last, tr.count, cons) == [])]
  {
    DayStep(t, cons, jobs, s, day, i, tr, ds, p);
    StepFields(t.entries, cons, tr, Job(day, t.keys[i]), p);
  }

  /** After the first n days: the run has filled their jobs, and s is its schedule, with
      no entry after day n. */
  ghost predicate MonthState(t: Groups, cons: Limits, n: nat, tr: Trace, s: Schedule) {
    Feasible(t.entries, Jobs(n, t.keys))
    && tr == Run(t.entries, cons, Jobs(n, t.keys))
    && s == ScheduleOf(tr.slots)
    && forall d :: d in s ==> d <= n
  }

  /** Before the first day: the empty run and the empty schedule. */
  lemma MonthStart(t: Groups, cons: Limits)
    ensures MonthState(t, cons, 0, Trace([], map[], map[]), map[])
  {
    assert Jobs(0, t.keys) == [];
  }

  /** After k days, day k + 1 starts from the month's run so far, and has no entry yet. */
  lemma DayBegin(t: Groups, cons: Limits, k: nat, tr: Trace, s: Schedule)
    requires MonthState(t, cons, k, tr, s)
    ensures DayState(t, cons, Jobs(k, t.keys), s, k + 1, 0, tr, map[]) && k + 1 !in s
  {
    DayStart(t, cons, Jobs(k, t.keys), s, k + 1);
  }

  /** Filling every group of day k + 1 extends the month's run by that day's jobs and the
      schedule by that day's entries. */
  lemma DayFinish(t: Groups, cons: Limits, k: nat, s: Schedule, trd: Trace, ds: map<GroupId, Person>)
    requires |t.keys| > 0 && forall d :: d in s ==> d <= k
    requires DayState(t, cons, Jobs(k, t.keys), s, k + 1, |t.keys|, trd, ds)
    ensures MonthState(t, cons, k + 1, trd, s[k + 1 := ds])
  {
    var today := DayJobs(k + 1, t.keys);
    assert today[..|t.keys|] == today;
    assert Jobs(k + 1, t.keys) == Jobs(k, t.keys) + today;
  }

  /** The state after the last of n days gives the month's run and schedule. */
  lemma MonthEnd(t: Groups, cons: Limits, k: nat, n: nat, tr: Trace, s: Schedule)
    requires k == n && MonthState(t, cons, k, tr, s)
    ensures Feasible(t.entries, Jobs(n, t.keys))
    ensures tr == Run(t.entries, cons, Jobs(n, t.keys)) && s == ScheduleOf(tr.slots)
  {
  }

  /** After a passing precheck and a valid month: the first constrained person short of
      their minimum in the run fails the month, otherwise its schedule is the outcome. */
  lemma MonthScheduleRan(t: Groups, cons: OrderedMap<Person, Constraint>, minMembers: int, y: int, m: int)
    requires t.Valid() && Precheck(t, minMembers).Pass? && ValidYearMonth(y, m)
    ensures Feasible(t.entries, Jobs(DaysInMonth(y, m), t.keys))
    ensures var tr := Run(t.entries, cons.entries, Jobs(DaysInMonth(y, m), t.keys));
      var u := FirstUnmet(cons.keys, cons.entries, tr.count);
      MonthSchedule(t, cons, minMembers, y, m)
        == if u.None? then Success(ScheduleOf(tr.slots))
           else Failure(UnmetMinimumDays(u.value, cons.entries[u.value].minDays.value, CountOf(u.value, tr.count)))
  {
    MonthFeasible(t, minMembers, DaysInMonth(y, m));
  }
}

=== FILE: rotation_props.dfy ===
/** What the rotation guarantees: every day and group covered by a member, the
    eligibility rule at every slot that did not fall back, the maximum bound, the
    minimum-days error, no back-to-back days for disjoint groups, and the strict
    alternation of a two-person group. */
module RotationProperties {
  import opened Options
  import opened Calendar
  import opened Registry
  import opened Rotation

  /** Slot k holds job k's day and group and a member of that group. */
  predicate Matches(groups: map<GroupId, seq<Person>>, jobs: seq<Job>, slots: seq<Slot>, k: int)
    requires Feasible(groups, jobs) && |slots| == |jobs|
  {
    0 <= k < |jobs| && slots[k].day == jobs[k].day && slots[k].group == jobs[k].group
      && slots[k].person in groups[jobs[k].group]
  }

  /** Every slot of a run is its job's day and group, filled by a member of that group. */
  lemma RunMatchesJobs(groups: map<GroupId, seq<Person>>, cons: Limits, jobs: seq<Job>)
    requires Feasible(groups, jobs)
    ensures forall k :: 0 <= k < |jobs| ==> Matches(groups, jobs, Run(groups, cons, jobs).slots, k)
  {
    forall k | 0 <= k < |jobs| ensures Matches(groups, jobs, Run(groups, cons, jobs).slots, k) {
      SlotChoice(groups, cons, jobs, k);
    }
  }

  /** A slot that did not fall back went to a person who was not on the previous day and
      was below their maximum, judged on the slots before it. */
  lemma SlotEligible(groups: map<GroupId, seq<Person>>, cons: Limits, jobs: seq<Job>, k: nat)
    requires Feasible(groups, jobs) && k < |jobs|
    requires !Run(groups, cons, jobs).slots[k].fallback
    ensures var slots := Run(groups, cons, jobs).slots;
      var p := slots[k].person;
      && (Occ(slots[..k], p) == 0 || LastDay(slots[..k], p) + 1 != slots[k].day)
      && (p in cons && cons[p].maxDays.Some? ==> Occ(slots[..k], p) < cons[p].maxDays.value)
  {
    SlotChoice(groups, cons, jobs, k);
    RunPrefix(groups, cons, jobs, k);
    RunTracks(groups, cons, jobs[..k]);
    var t := Run(groups, cons, jobs[..k]);
    var s := Run(groups, cons, jobs).slots[k];
    var ms := groups[jobs[k].group];
    assert Tracks(t, s.person);
    assert s.person in Eligible(ms, jobs[k].day, t.last, t.count, cons);
  }

  /** A slot falls back only when every member of its group was on the previous day or
      at their maximum, judged on the slots before it. */
  lemma SlotFallback(groups: map<GroupId, seq<Person>>, cons: Limits, jobs: seq<Job>, k: nat, q: Person)
    requires Feasible(groups, jobs) && k < |jobs|
    requires Run(groups, cons, jobs).slots[k].fallback && q in groups[jobs[k].group]
    ensures var slots := Run(groups, cons, jobs).slots;
      || (Occ(slots[..k], q) > 0 && LastDay(slots[..k], q) + 1 == jobs[k].day)
      || (q in cons && cons[q].maxDays.Some? && Occ(slots[..k], q) >= cons[q].maxDays.value)
  {
    SlotChoice(groups, cons, jobs, k);
    RunPrefix(groups, cons, jobs, k);
    RunTracks(groups, cons, jobs[..k]);
    var t := Run(groups, cons, jobs[..k]);
    assert Tracks(t, q);
    assert q !in Eligible(groups[jobs[k].group], jobs[k].day, t.last, t.count, cons);
  }

  lemma {:induction false} MaxRespectedPrefix(groups: map<GroupId, seq<Person>>, cons: Limits, jobs: seq<Job>, k: nat, p: Person)
    requires Feasible(groups, jobs) && k <= |jobs|
    requires forall i :: 0 <= i < |jobs| ==> !Run(groups, cons, jobs).slots[i].fallback
    requires p in cons && cons[p].maxDays.Some?
    ensures var pre := Run(groups, cons, jobs).slots[..k];
      Occ(pre, p) == 0 || Occ(pre, p) <= cons[p].maxDays.value
    decreases k
  {
    if k > 0 {
      MaxRespectedPrefix(groups, cons, jobs, k - 1, p);
      var slots := Run(groups, cons, jobs).slots;
      assert slots[..k][..k - 1] == slots[..k - 1];
      assert Occ(slots[..k], p) == Occ(slots[..k - 1], p) + (if slots[k - 1].person == p then 1 else 0);
      if slots[k - 1].person == p {
        SlotEligible(groups, cons, jobs, k - 1);
      }
    }
  }

  /** When no slot fell back, nobody holds more slots than their maximum. */
  lemma MaxRespected(groups: map<GroupId, seq<Person>>, cons: Limits, jobs: seq<Job>)
    requires Feasible(groups, jobs)
    requires forall i :: 0 <= i < |jobs| ==> !Run(groups, cons, jobs).slots[i].fallback
    ensures var slots := Run(groups, cons, jobs).slots;
      forall p :: p in cons && cons[p].maxDays.Some? && Occ(slots, p) > 0 ==> Occ(slots, p) <= cons[p].maxDays.value
  {
    var slots := Run(groups, cons, jobs).slots;
    forall p | p in cons && cons[p].maxDays.Some? && Occ(slots, p) > 0
      ensures Occ(slots, p) <= cons[p].maxDays.value
    {
      MaxRespectedPrefix(groups, cons, jobs, |jobs|, p);
      assert slots[..|jobs|] == slots;
    }
  }

  /** After the run, the month fails on minimum days exactly when some constrained person
      holds fewer slots than their minimum; the error names the first such person in
      constraint order with their minimum and their slot count. */
  lemma UnmetMinimumIff(t: Groups, cons: OrderedMap<Person, Constraint>, minMembers: int, y: int, m: int)
    requires t.Valid() && Precheck(t, minMembers).Pass? && ValidYearMonth(y, m)
    ensures var slots := MonthRun(t, cons.entries, minMembers, y, m).slots;
      var r := Generate(t, cons, minMembers, y, m);
      && (r.Failure? <==> exists p :: p in cons.keys && p in cons.entries && cons.entries[p].minDays.Some?
                                        && Occ(slots, p) < cons.entries[p].minDays.value)
      && (r.Failure? ==> r.error.UnmetMinimumDays? && r.error.person in cons.keys && r.error.person in cons.entries
                          && r.error.required == cons.entries[r.error.person].minDays.value
                          && r.error.actual == Occ(slots, r.error.person) < r.error.required)
      && (r.Success? ==> r.value == MonthRun(t, cons.entries, minMembers, y, m))
  {
    var n := DaysInMonth(y, m);
    MonthFeasible(t, minMembers, n);
    var tr := MonthRun(t, cons.entries, minMembers, y, m);
    assert tr == Run(t.entries, cons.entries, Jobs(n, t.keys));
    RunTracks(t.entries, cons.entries, Jobs(n, t.keys));
    var u := FirstUnmet(cons.keys, cons.entries, tr.count);
    if u.Some? {
      var p := u.value;
      assert Generate(t, cons, minMembers, y, m)
          == Failure(UnmetMinimumDays(p, cons.entries[p].minDays.value, CountOf(p, tr.count)));
      assert Tracks(tr, p);
    } else {
      assert Generate(t, cons, minMembers, y, m) == Success(tr);
      forall p | p in cons.keys && p in cons.entries && cons.entries[p].minDays.Some?
        ensures Occ(tr.slots, p) >= cons.entries[p].minDays.value
      {
        assert Tracks(tr, p);
      }
    }
  }

  /** The run of a month that passed its checks is the run of its jobs. */
  lemma MonthRunIs(t: Groups, cons: Limits, minMembers: int, y: int, m: int)
    requires t.Valid() && Precheck(t, minMembers).Pass? && ValidYearMonth(y, m)
    ensures Feasible(t.entries, Jobs(DaysInMonth(y, m), t.keys))
    ensures MonthRun(t, cons, minMembers, y, m) == Run(t.entries, cons, Jobs(DaysInMonth(y, m), t.keys))
  {
    MonthFeasible(t, minMembers, DaysInMonth(y, m));
  }

  /** Facts about the jobs and slots of a month that passed its checks. */
  lemma MonthSlots(t: Groups, cons: Limits, minMembers: int, y: int, m: int)
    requires t.Valid() && Precheck(t, minMembers).Pass? && ValidYearMonth(y, m)
    ensures Feasible(t.entries, Jobs(DaysInMonth(y, m), t.keys))
    ensures MonthRun(t, cons, minMembers, y, m).slots == Run(t.entries, cons, Jobs(DaysInMonth(y, m), t.keys)).slots
    ensures forall k :: 0 <= k < |Jobs(DaysInMonth(y, m), t.keys)| ==>
      Matches(t.entries, Jobs(DaysInMonth(y, m), t.keys), Run(t.entries, cons, Jobs(DaysInMonth(y, m), t.keys)).slots, k)
  {
    MonthFeasible(t, minMembers, DaysInMonth(y, m));
    RunMatchesJobs(t.entries, cons, Jobs(DaysInMonth(y, m), t.keys));
  }

  /** A month that passed its checks has an entry for exactly the days 1..DaysInMonth. */
  lemma MonthDays(t: Groups, cons: Limits, minMembers: int, y: int, m: int)
    requires t.Valid() && Precheck(t, minMembers).Pass? && ValidYearMonth(y, m)
    ensures forall d :: d in ScheduleOf(MonthRun(t, cons, minMembers, y, m).slots) <==> 1 <= d <= DaysInMonth(y, m)
  {
    var n := DaysInMonth(y, m);
    var jobs := Jobs(n, t.keys);
    MonthSlots(t, cons, minMembers, y, m);
    var slots := Run(t.entries, cons, jobs).slots;
    var s := ScheduleOf(slots);
    ScheduleDays(slots);
    forall d | d in s ensures 1 <= d <= n {
      var k :| 0 <= k < |slots| && slots[k].day == d;
      assert Matches(t.entries, jobs, slots, k);
      JobAt(n, t.keys, k);
    }
    forall d | 1 <= d <= n ensures d in s {
      assert t.keys[0] in t.keys;
      var k := JobIndex(n, t.keys, d, t.keys[0]);
      assert Matches(t.entries, jobs, slots, k);
    }
  }

  /** Every entry of the schedule is for a group of `groups` and names one of its members. */
  predicate EntriesIn(groups: map<GroupId, seq<Person>>, s: Schedule) {
    forall d, g :: d in s && g in s[d] ==> g in groups && s[d][g] in groups[g]
  }

  /** Slots that match their jobs give a schedule whose entries are members of their groups. */
  lemma ScheduleMembers(groups: map<GroupId, seq<Person>>, jobs: seq<Job>, slots: seq<Slot>)
    requires Feasible(groups, jobs) && |slots| == |jobs|
    requires forall k :: 0 <= k < |jobs| ==> Matches(groups, jobs, slots, k)
    ensures EntriesIn(groups, ScheduleOf(slots))
  {
    var s := ScheduleOf(slots);
    ScheduleEntries(slots);
    forall d, g | d in s && g in s[d] ensures g in groups && s[d][g] in groups[g] {
      assert Filled(slots, d, g, s[d][g]);
      var k :| 0 <= k < |slots| && slots[k] == Slot(d, g, s[d][g], slots[k].fallback);
      assert Matches(groups, jobs, slots, k);
    }
  }

  /** Every entry of such a month is for a registered group and names one of its members. */
  lemma MonthMembers(t: Groups, cons: Limits, minMembers: int, y: int, m: int)
    requires t.Valid() && Precheck(t, minMembers).Pass? && ValidYearMonth(y, m)
    ensures EntriesIn(t.entries, ScheduleOf(MonthRun(t, cons, minMembers, y, m).slots))
  {
    var jobs := Jobs(DaysInMonth(y, m), t.keys);
    MonthSlots(t, cons, minMembers, y, m);
    ScheduleMembers(t.entries, jobs, Run(t.entries, cons, jobs).slots);
  }

  /** Every scheduled day of such a month has an entry for exactly the registered groups,
      and each entry is a member of its group. */
  lemma MonthGroups(t: Groups, cons: Limits, minMembers: int, y: int, m: int)
    requires t.Valid() && Precheck(t, minMembers).Pass? && ValidYearMonth(y, m)
    ensures var s := ScheduleOf(MonthRun(t, cons, minMembers, y, m).slots);
      && (forall d, g :: d in s ==> (g in s[d] <==> g in t.entries))
      && (forall d, g :: d in s && g in s[d] ==> s[d][g] in t.entries[g])
  {
    var s := ScheduleOf(MonthRun(t, cons, minMembers, y, m).slots);
    MonthMembers(t, cons, minMembers, y, m);
    forall d, g | d in s && g in t.entries ensures g in s[d] {
      MonthEntryPresent(t, cons, minMembers, y, m, d, g);
    }
  }

  /** A scheduled day has an entry for each registered group. */
  lemma MonthEntryPresent(t: Groups, cons: Limits, minMembers: int, y: int, m: int, d: nat, g: GroupId)
    requires t.Valid() && Precheck(t, minMembers).Pass? && ValidYearMonth(y, m)
    requires d in ScheduleOf(MonthRun(t, cons, minMembers, y, m).slots) && g in t.entries
    ensures g in ScheduleOf(MonthRun(t, cons, minMembers, y, m).slots)[d]
  {
    var n := DaysInMonth(y, m);
    var jobs := Jobs(n, t.keys);
    MonthSlots(t, cons, minMembers, y, m);
    MonthDays(t, cons, minMembers, y, m);
    var slots := Run(t.entries, cons, jobs).slots;
    ScheduleFilled(slots);
    var k := JobIndex(n, t.keys, d, g);
    assert Matches(t.entries, jobs, slots, k);
  }

  /** No two slots are for the same day and group. */
  predicate SlotsDistinct(slots: seq<Slot>) {
    forall k1, k2 :: 0 <= k1 < k2 < |slots| ==> slots[k1].day != slots[k2].day || slots[k1].group != slots[k2].group
  }

  /** When no slot repeats a day and group, each slot's entry is the one that stands. */
  lemma {:induction false} ScheduleKeeps(slots: seq<Slot>)
    requires SlotsDistinct(slots)
    ensures forall k :: 0 <= k < |slots| ==>
      var x := slots[k];
      x.day in ScheduleOf(slots) && x.group in ScheduleOf(slots)[x.day] && ScheduleOf(slots)[x.day][x.group] == x.person
    decreases |slots|
  {
    if slots != [] {
      var n := |slots| - 1;
      var init := slots[..n];
      var x := slots[n];
      assert SlotsDistinct(init) by {
        forall k1, k2 | 0 <= k1 < k2 < |init| ensures init[k1].day != init[k2].day || init[k1].group != init[k2].group {
          assert init[k1] == slots[k1] && init[k2] == slots[k2];
        }
      }
      ScheduleKeeps(init);
      var s0 := ScheduleOf(init);
      var s := ScheduleOf(slots);
      assert s == s0[x.day := (if x.day in s0 then s0[x.day] else map[])[x.group := x.person]];
      forall k | 0 <= k < |slots|
        ensures slots[k].day in s && slots[k].group in s[slots[k].day] && s[slots[k].day][slots[k].group] == slots[k].person
      {
        if k < n {
          assert init[k] == slots[k];
          assert slots[k].day != x.day || slots[k].group != x.group;
        }
      }
    }
  }

  /** No two slots of a month that passed its checks are for the same day and group. */
  lemma MonthSlotsDistinct(t: Groups, cons: Limits, minMembers: int, y: int, m: int)
    requires t.Valid() && Precheck(t, minMembers).Pass? && ValidYearMonth(y, m)
    ensures SlotsDistinct(MonthRun(t, cons, minMembers, y, m).slots)
  {
    var n := DaysInMonth(y, m);
    var jobs := Jobs(n, t.keys);
    MonthSlots(t, cons, minMembers, y, m);
    var slots := Run(t.entries, cons, jobs).slots;
    JobsDistinct(n, t.keys);
    forall k1, k2 | 0 <= k1 < k2 < |slots| ensures slots[k1].day != slots[k2].day || slots[k1].group != slots[k2].group {
      assert Matches(t.entries, jobs, slots, k1) && Matches(t.entries, jobs, slots, k2);
      assert jobs[k1] != jobs[k2];
    }
  }

  /** In a month that passed its checks, slot k is on a day of the month and its entry
      stands in the schedule. */
  lemma MonthSlotEntry(t: Groups, cons: Limits, minMembers: int, y: int, m: int, k: nat)
    requires t.Valid() && Precheck(t, minMembers).Pass? && ValidYearMonth(y, m)
    requires k < |MonthRun(t, cons, minMembers, y, m).slots|
    ensures var x := MonthRun(t, cons, minMembers, y, m).slots[k];
      var s := ScheduleOf(MonthRun(t, cons, minMembers, y, m).slots);
      1 <= x.day <= DaysInMonth(y, m) && x.day in s && x.group in s[x.day] && s[x.day][x.group] == x.person
  {
    var n := DaysInMonth(y, m);
    var jobs := Jobs(n, t.keys);
    MonthSlots(t, cons, minMembers, y, m);
    var slots := Run(t.entries, cons, jobs).slots;
    MonthSlotsDistinct(t, cons, minMembers, y, m);
    ScheduleKeeps(slots);
    assert Matches(t.entries, jobs, slots, k);
    JobAt(n, t.keys, k);
  }

  /** The jobs come in non-decreasing day order. */
  predicate DaysOrdered(jobs: seq<Job>) {
    forall k1, k2 :: 0 <= k1 <= k2 < |jobs| ==> jobs[k1].day <= jobs[k2].day
  }

  lemma JobsOrdered(n: nat, order: seq<GroupId>)
    ensures DaysOrdered(Jobs(n, order))
  {
    JobsInRange(n, order);
  }

  /** The slots come in non-decreasing day order. */
  predicate SlotDaysOrdered(slots: seq<Slot>) {
    forall k1, k2 :: 0 <= k1 <= k2 < |slots| ==> slots[k1].day <= slots[k2].day
  }

  /** Slot k's person did not hold a slot on the day before, judged on the slots before k. */
  predicate Rested(slots: seq<Slot>, k: int) {
    0 <= k < |slots| && (Occ(slots[..k], slots[k].person) == 0 || LastDay(slots[..k], slots[k].person) + 1 != slots[k].day)
  }

  /** If p's slot k2 is on the day after p's slot k1 and is p's first slot of that day,
      then p's latest slot before k2 is on the previous day. */
  lemma LatestBefore(slots: seq<Slot>, k1: nat, k2: nat)
    requires SlotDaysOrdered(slots) && k1 < |slots| && k2 < |slots|
    requires slots[k1].person == slots[k2].person && slots[k2].day == slots[k1].day + 1
    requires forall j :: k1 < j < k2 && slots[j].person == slots[k2].person ==> slots[j].day != slots[k2].day
    ensures Occ(slots[..k2], slots[k2].person) > 0 && LastDay(slots[..k2], slots[k2].person) + 1 == slots[k2].day
  {
    var p := slots[k2].person;
    assert k1 < k2;
    var pre := slots[..k2];
    assert pre[k1] == slots[k1];
    var j := LatestSlot(pre, p, k1);
    assert pre[j] == slots[j];
    assert slots[k1].day <= slots[j].day <= slots[k2].day;
    assert j == k1 || slots[j].day != slots[k2].day;
  }

  lemma {:induction false} NotDayAfter(slots: seq<Slot>, k1: nat, k2: nat)
    requires SlotDaysOrdered(slots) && forall k :: 0 <= k < |slots| ==> Rested(slots, k)
    requires k1 < |slots| && k2 < |slots| && slots[k1].person == slots[k2].person
    ensures slots[k2].day != slots[k1].day + 1
    decreases k2
  {
    var p := slots[k2].person;
    var d := slots[k2].day;
    if d == slots[k1].day + 1 {
      if j :| k1 < j < k2 && slots[j].person == p && slots[j].day == d {
        NotDayAfter(slots, k1, j);
      } else {
        assert Rested(slots, k2);
        LatestBefore(slots, k1, k2);
        assert false;
      }
    }
  }

  /** A run whose jobs go day by day and where no slot fell back satisfies both hypotheses. */
  lemma RunRested(groups: map<GroupId, seq<Person>>, cons: Limits, jobs: seq<Job>)
    requires Feasible(groups, jobs) && DaysOrdered(jobs)
    requires forall i :: 0 <= i < |jobs| ==> !Run(groups, cons, jobs).slots[i].fallback
    ensures SlotDaysOrdered(Run(groups, cons, jobs).slots)
    ensures forall k :: 0 <= k < |jobs| ==> Rested(Run(groups, cons, jobs).slots, k)
  {
    var slots := Run(groups, cons, jobs).slots;
    RunMatchesJobs(groups, cons, jobs);
    forall k1, k2 | 0 <= k1 <= k2 < |slots| ensures slots[k1].day <= slots[k2].day {
      assert Matches(groups, jobs, slots, k1) && Matches(groups, jobs, slots, k2);
    }
    forall k | 0 <= k < |jobs| ensures Rested(slots, k) {
      SlotEligible(groups, cons, jobs, k);
    }
  }

  /** Nobody holds slots on two consecutive days. */
  predicate NoConsecutive(slots: seq<Slot>) {
    forall k1, k2 :: 0 <= k1 < |slots| && 0 <= k2 < |slots| && slots[k1].person == slots[k2].person ==>
      slots[k2].day != slots[k1].day + 1
  }

  /** When no slot fell back and the jobs go day by day, nobody holds slots on two
      consecutive days. */
  lemma NoBackToBack(groups: map<GroupId, seq<Person>>, cons: Limits, jobs: seq<Job>)
    requires Feasible(groups, jobs) && DaysOrdered(jobs)
    requires forall i :: 0 <= i < |jobs| ==> !Run(groups, cons, jobs).slots[i].fallback
    ensures NoConsecutive(Run(groups, cons, jobs).slots)
  {
    var slots := Run(groups, cons, jobs).slots;
    RunRested(groups, cons, jobs);
    forall k1, k2 | 0 <= k1 < |slots| && 0 <= k2 < |slots| && slots[k1].person == slots[k2].person
      ensures slots[k2].day != slots[k1].day + 1
    {
      NotDayAfter(slots, k1, k2);
    }
  }

  /** No person belongs to two different groups. */
  predicate Disjoint(groups: map<GroupId, seq<Person>>) {
    forall g1, g2, p :: g1 in groups && g2 in groups && p in groups[g1] && p in groups[g2] ==> g1 == g2
  }

  /** Nobody has a maximum. */
  predicate NoMaximum(cons: Limits) {
    forall p :: p in cons ==> cons[p].maxDays.None?
  }

  /** With disjoint groups of at least two distinct members each and no maximum, no slot
      of a month falls back: the two members of a group cannot both have served it the
      day before. */
  lemma NoFallback(t: Groups, cons: Limits, minMembers: int, y: int, m: int)
    requires GroupsValid(t) && Precheck(t, minMembers).Pass? && ValidYearMonth(y, m)
    requires minMembers >= 2 && Disjoint(t.entries) && NoMaximum(cons)
    ensures var slots := MonthRun(t, cons, minMembers, y, m).slots;
      forall i :: 0 <= i < |slots| ==> !slots[i].fallback
    ensures var jobs := Jobs(DaysInMonth(y, m), t.keys);
      Feasible(t.entries, jobs) && forall k :: 0 <= k < |jobs| ==> !Run(t.entries, cons, jobs).slots[k].fallback
  {
    var n := DaysInMonth(y, m);
    MonthSlots(t, cons, minMembers, y, m);
    JobsDistinct(n, t.keys);
    forall k | 0 <= k < |Jobs(n, t.keys)| ensures !Run(t.entries, cons, Jobs(n, t.keys)).slots[k].fallback {
      SlotNotFallback(t, cons, Jobs(n, t.keys), k);
    }
  }

  lemma SlotNotFallback(t: Groups, cons: Limits, jobs: seq<Job>, k: nat)
    requires GroupsValid(t) && Feasible(t.entries, jobs) && k < |jobs| && NoDup(jobs)
    requires |t.entries[jobs[k].group]| >= 2 && Disjoint(t.entries) && NoMaximum(cons)
    ensures !Run(t.entries, cons, jobs).slots[k].fallback
  {
    var ms := t.entries[jobs[k].group];
    assert ms[0] != ms[1];
    if Run(t.entries, cons, jobs).slots[k].fallback {
      FallbackSameMembers(t, cons, jobs, k);
      assert false;
    }
  }

  /** In a fallback slot with no maximum, the first two members of the slot's group both
      served it on the previous day; jobs being distinct, they are the same person. */
  lemma FallbackSameMembers(t: Groups, cons: Limits, jobs: seq<Job>, k: nat)
    requires t.Valid() && Feasible(t.entries, jobs) && k < |jobs| && NoDup(jobs)
    requires |t.entries[jobs[k].group]| >= 2 && Disjoint(t.entries) && NoMaximum(cons)
    requires Run(t.entries, cons, jobs).slots[k].fallback
    ensures t.entries[jobs[k].group][0] == t.entries[jobs[k].group][1]
  {
    var ms := t.entries[jobs[k].group];
    var j0 := PreviousDayOf(t, cons, jobs, k, ms[0]);
    var j1 := PreviousDayOf(t, cons, jobs, k, ms[1]);
    SameJobIndex(jobs, j0, j1);
  }

  /** Two jobs with the same day and group are one and the same job. */
  lemma SameJobIndex(jobs: seq<Job>, i: nat, j: nat)
    requires NoDup(jobs) && i < |jobs| && j < |jobs|
    requires jobs[i].day == jobs[j].day && jobs[i].group == jobs[j].group
    ensures i == j
  {
    assert jobs[i] == jobs[j];
  }


  /** In a fallback slot with no maximum, a member q of the slot's group served its
      group on the previous day. */
  lemma PreviousDayOf(t: Groups, cons: Limits, jobs: seq<Job>, k: nat, q: Person) returns (j: nat)
    requires t.Valid() && Feasible(t.entries, jobs) && k < |jobs| && Disjoint(t.entries) && NoMaximum(cons)
    requires Run(t.entries, cons, jobs).slots[k].fallback && q in t.entries[jobs[k].group]
    ensures j < k && Run(t.entries, cons, jobs).slots[j].person == q
    ensures jobs[j].day + 1 == jobs[k].day && jobs[j].group == jobs[k].group
  {
    var slots := Run(t.entries, cons, jobs).slots;
    SlotFallback(t.entries, cons, jobs, k, q);
    var pre := slots[..k];
    var i :| 0 <= i < |pre| && pre[i].person == q;
    j := LatestSlot(pre, q, i);
    assert pre[j] == slots[j];
    RunMatchesJobs(t.entries, cons, jobs);
    assert Matches(t.entries, jobs, slots, j);
  }


  /** With disjoint groups of at least two distinct members each and no maximum, nobody
      holds two slots of a month on consecutive days. */
  lemma MonthNoBackToBack(t: Groups, cons: Limits, minMembers: int, y: int, m: int)
    requires GroupsValid(t) && Precheck(t, minMembers).Pass? && ValidYearMonth(y, m)
    requires minMembers >= 2 && Disjoint(t.entries) && NoMaximum(cons)
    ensures NoConsecutive(MonthRun(t, cons, minMembers, y, m).slots)
  {
    MonthRunIs(t, cons, minMembers, y, m);
    NoFallback(t, cons, minMembers, y, m);
    JobsOrdered(DaysInMonth(y, m), t.keys);
    NoBackToBack(t.entries, cons, Jobs(DaysInMonth(y, m), t.keys));
  }

  /** The same, read off the schedule: nobody is on duty on two consecutive days. */
  lemma NoConsecutiveDays(t: Groups, cons: Limits, minMembers: int, y: int, m: int)
    requires GroupsValid(t) && Precheck(t, minMembers).Pass? && ValidYearMonth(y, m)
    requires minMembers >= 2 && Disjoint(t.entries) && NoMaximum(cons)
    ensures var s := ScheduleOf(MonthRun(t, cons, minMembers, y, m).slots);
      forall d1, d2, g, h :: d1 in s && d2 in s && d2 == d1 + 1 && g in s[d1] && h in s[d2] ==> s[d1][g] != s[d2][h]
  {
    var slots := MonthRun(t, cons, minMembers, y, m).slots;
    var s := ScheduleOf(slots);
    MonthNoBackToBack(t, cons, minMembers, y, m);
    ScheduleEntries(slots);
    forall d1, d2, g, h | d1 in s && d2 in s && d2 == d1 + 1 && g in s[d1] && h in s[d2] ensures s[d1][g] != s[d2][h] {
      assert Filled(slots, d1, g, s[d1][g]) && Filled(slots, d2, h, s[d2][h]);
      var k1 :| 0 <= k1 < |slots| && slots[k1] == Slot(d1, g, s[d1][g], slots[k1].fallback);
      var k2 :| 0 <= k2 < |slots| && slots[k2] == Slot(d2, h, s[d2][h], slots[k2].fallback);
    }
  }

  /** Who was last on duty after n days of a single group [a, b]. */
  function PairLast(n: nat, a: Person, b: Person): Last {
    if n == 0 then map[]
    else if n == 1 then map[a := 1]
    else if n % 2 == 0 then map[a := n - 1, b := n]
    else map[a := n, b := n - 1]
  }

  /** Who takes slot k (day k + 1) of a single group [a, b]. */
  function PairOn(k: nat, a: Person, b: Person): Person {
    if k % 2 == 0 then a else b
  }

  lemma EligiblePair(a: Person, b: Person, day: nat, last: Last, count: Count)
    ensures Eligible([a, b], day, last, count, map[])
         == (if NotYesterday(a, day, last) then [a] else []) + (if NotYesterday(b, day, last) then [b] else [])
  {
    assert [a, b][..1] == [a];
    assert [a][..0] == [];
    assert Eligible([a], day, last, count, map[]) == (if NotYesterday(a, day, last) then [a] else []);
  }

  /** One day of a single group [a, b]: the person not on duty the day before takes it. */
  lemma PairStep(g: GroupId, a: Person, b: Person, n: nat, t0: Trace)
    requires a != b && n >= 1 && t0.last == PairLast(n - 1, a, b)
    ensures var t := Step(map[g := [a, b]], map[], t0, Job(n, g));
      && t.slots == t0.slots + [Slot(n, g, PairOn(n - 1, a, b), false)]
      && t.last == PairLast(n, a, b)
  {
    var p := PairOn(n - 1, a, b);
    var e := Eligible([a, b], n, t0.last, t0.count, map[]);
    EligiblePair(a, b, n, t0.last, t0.count);
    SelectUnconstrained(e, t0.last, t0.count);
    if n == 1 {
      assert e == [a, b];
      assert FirstNever(e, t0.last) == 0;
    } else {
      PairEligible(a, b, n, t0.last);
      assert e == [p];
    }
    assert Candidates([a, b], n, t0.last, t0.count, map[]) == e;
    assert PickLeastRecent(e, t0.last) == p;
    PairLastStep(a, b, n);
  }

  /** From the second day on, exactly the person off duty the day before is eligible. */
  lemma PairEligible(a: Person, b: Person, n: nat, last: Last)
    requires a != b && n >= 2 && last == PairLast(n - 1, a, b)
    ensures NotYesterday(a, n, last) == ((n - 1) % 2 == 0)
    ensures NotYesterday(b, n, last) == ((n - 1) % 2 == 1)
  {
  }

  lemma PairLastStep(a: Person, b: Person, n: nat)
    requires a != b && n >= 1
    ensures PairLast(n - 1, a, b)[PairOn(n - 1, a, b) := n] == PairLast(n, a, b)
  {
  }

  /** The jobs of a single group: one per day, so the last is day n's. */
  lemma PairJobs(n: nat, g: GroupId, a: Person, b: Person)
    ensures |Jobs(n, [g])| == n
    ensures Feasible(map[g := [a, b]], Jobs(n, [g]))
    ensures n > 0 ==> Jobs(n, [g])[..n - 1] == Jobs(n - 1, [g]) && Jobs(n, [g])[n - 1] == Job(n, g)
  {
    JobsLength(n, [g]);
    JobsInRange(n, [g]);
    if n > 0 {
      assert DayJobs(n, [g]) == [Job(n, g)];
    }
  }

  /** Slot k is day k + 1 of group g, taken by PairOn(k, a, b), without fallback. */
  predicate Alternating(slots: seq<Slot>, g: GroupId, a: Person, b: Person) {
    forall k :: 0 <= k < |slots| ==> slots[k] == Slot(k + 1, g, PairOn(k, a, b), false)
  }

  lemma AlternatingAppend(s0: seq<Slot>, g: GroupId, a: Person, b: Person)
    requires Alternating(s0, g, a, b)
    ensures Alternating(s0 + [Slot(|s0| + 1, g, PairOn(|s0|, a, b), false)], g, a, b)
  {
  }

  /** A single group of two distinct people without constraints alternates: a on odd
      days, b on even days, and no slot falls back. */
  lemma {:induction false} PairRun(n: nat, g: GroupId, a: Person, b: Person)
    requires a != b
    ensures Feasible(map[g := [a, b]], Jobs(n, [g])) && |Jobs(n, [g])| == n
    ensures Run(map[g := [a, b]], map[], Jobs(n, [g])).last == PairLast(n, a, b)
    ensures Alternating(Run(map[g := [a, b]], map[], Jobs(n, [g])).slots, g, a, b)
    decreases n
  {
    var groups := map[g := [a, b]];
    PairJobs(n, g, a, b);
    if n > 0 {
      PairRun(n - 1, g, a, b);
      PairJobs(n - 1, g, a, b);
      var t0 := Run(groups, map[], Jobs(n - 1, [g]));
      var t := Run(groups, map[], Jobs(n, [g]));
      assert t == Step(groups, map[], t0, Job(n, g));
      PairStep(g, a, b, n, t0);
      AlternatingAppend(t0.slots, g, a, b);
    }
  }

  /** The schedule of alternating slots: one entry per day, a on odd days, b on even. */
  lemma {:induction false} PairSchedule(slots: seq<Slot>, g: GroupId, a: Person, b: Person)
    requires Alternating(slots, g, a, b)
    ensures forall d :: d in ScheduleOf(slots) <==> 1 <= d <= |slots|
    ensures forall d :: d in ScheduleOf(slots) ==> ScheduleOf(slots)[d] == map[g := if d % 2 == 1 then a else b]
    decreases |slots|
  {
    if slots != [] {
      var n := |slots|;
      var init := slots[..n - 1];
      assert Alternating(init, g, a, b);
      PairSchedule(init, g, a, b);
      assert slots[n - 1] == Slot(n, g, PairOn(n - 1, a, b), false);
      assert PairOn(n - 1, a, b) == if n % 2 == 1 then a else b;
      assert ScheduleOf(slots) == ScheduleOf(init)[n := map[g := PairOn(n - 1, a, b)]];
    }
  }

  /** A single group of two members passes the checks for a minimum of at most two. */
  lemma PairPrecheck(g: GroupId, a: Person, b: Person, minMembers: int)
    requires minMembers <= 2
    ensures var t := OrderedMap([g], map[g := [a, b]]);
      t.Valid() && Precheck(t, minMembers).Pass?
  {
    var t := OrderedMap([g], map[g := [a, b]]);
    assert t.Valid();
  }

  /** The month of a single two-person group without constraints: a on every odd day,
      b on every even day. */
  lemma PairAlternates(g: GroupId, a: Person, b: Person, minMembers: int, y: int, m: int)
    requires a != b && minMembers <= 2 && ValidYearMonth(y, m)
    ensures var t := OrderedMap([g], map[g := [a, b]]);
      t.Valid() && Precheck(t, minMembers).Pass?
      && var s := ScheduleOf(MonthRun(t, map[], minMembers, y, m).slots);
      && (forall d :: d in s <==> 1 <= d <= DaysInMonth(y, m))
      && (forall d :: d in s ==> s[d] == map[g := if d % 2 == 1 then a else b])
  {
    var t := OrderedMap([g], map[g := [a, b]]);
    PairPrecheck(g, a, b, minMembers);
    var n := DaysInMonth(y, m);
    PairRun(n, g, a, b);
    assert MonthRun(t, map[], minMembers, y, m) == Run(t.entries, map[], Jobs(n, [g]));
    PairSchedule(Run(t.entries, map[], Jobs(n, [g])).slots, g, a, b);
  }

  /** The jobs of the first k days are a prefix of the jobs of n >= k days. */
  lemma {:induction false} JobsPrefix(n: nat, k: nat, order: seq<GroupId>)
    requires k <= n
    ensures |Jobs(k, order)| <= |Jobs(n, order)| && Jobs(n, order)[..|Jobs(k, order)|] == Jobs(k, order)
    decreases n
  {
    if k < n {
      JobsPrefix(n - 1, k, order);
      var prev := Jobs(n - 1, order);
      assert Jobs(n, order)[..|prev|] == prev;
      assert Jobs(n, order)[..|Jobs(k, order)|] == prev[..|Jobs(k, order)|];
    }
  }

  /** Day 1, group a = [p, q], nobody scheduled yet: p, the first never-scheduled member. */
  lemma OverlapDay1a(ms: seq<Person>, last: Last, count: Count, p: Person, q: Person)
    requires ms == [p, q] && p !in last && q !in last
    ensures Eligible(ms, 1, last, count, map[]) != []
    ensures Choose(ms, 1, last, count, map[]) == p
  {
    EligiblePair(p, q, 1, last, count);
    SelectUnconstrained(ms, last, count);
  }

  /** Day 1, group b = [p, r], p just taken for a: r, the first never-scheduled member. */
  lemma OverlapDay1b(ms: seq<Person>, last: Last, count: Count, p: Person, r: Person)
    requires ms == [p, r] && p in last && last[p] == 1 && r !in last
    ensures Eligible(ms, 1, last, count, map[]) != []
    ensures Choose(ms, 1, last, count, map[]) == r
  {
    EligiblePair(p, r, 1, last, count);
    assert Eligible(ms, 1, last, count, map[]) == ms;
    SelectUnconstrained(ms, last, count);
    assert ms[1..] == [r];
  }

  /** Day 2, group a = [p, q], p on duty on day 1 and q not yet: only q is eligible. */
  lemma OverlapDay2a(ms: seq<Person>, last: Last, count: Count, p: Person, q: Person)
    requires ms == [p, q] && p in last && last[p] == 1 && q !in last
    ensures Eligible(ms, 2, last, count, map[]) != []
    ensures Choose(ms, 2, last, count, map[]) == q
  {
    EligiblePair(p, q, 2, last, count);
    assert Eligible(ms, 2, last, count, map[]) == [q];
    SelectUnconstrained([q], last, count);
  }

  /** Day 2, group b = [p, r], both on duty on day 1: nobody is eligible, the fallback
      offers both, both last served on day 1, and the strict comparison keeps p. */
  lemma OverlapDay2b(ms: seq<Person>, last: Last, count: Count, p: Person, r: Person)
    requires ms == [p, r] && p in last && last[p] == 1 && r in last && last[r] == 1
    ensures Eligible(ms, 2, last, count, map[]) == []
    ensures Choose(ms, 2, last, count, map[]) == p
  {
    EligiblePair(p, r, 2, last, count);
    assert Candidates(ms, 2, last, count, map[]) == ms;
    SelectUnconstrained(ms, last, count);
    assert ms[1..] == [r] && [r][1..] == [];
    assert FirstNever(ms, last) == 2;
    assert ms[..1] == [p];
    assert Oldest(ms, last) == 0;
  }

  /** Groups a = [p, q] and b = [p, r], which share p. */
  predicate SharedMember(groups: map<GroupId, seq<Person>>, a: GroupId, b: GroupId, p: Person, q: Person, r: Person) {
    a in groups && b in groups && groups[a] == [p, q] && groups[b] == [p, r]
  }

  /** One more job whose choice and fallback are known, without constraints. */
  lemma RunKnown(groups: map<GroupId, seq<Person>>, js: seq<Job>, job: Job, js': seq<Job>, x: Person, fb: bool)
    requires Feasible(groups, js) && job.group in groups && |groups[job.group]| > 0 && js' == js + [job]
    requires var t := Run(groups, map[], js);
      && Choose(groups[job.group], job.day, t.last, t.count, map[]) == x
      && (Eligible(groups[job.group], job.day, t.last, t.count, map[]) == []) == fb
    ensures Feasible(groups, js')
    ensures Run(groups, map[], js').slots == Run(groups, map[], js).slots + [Slot(job.day, job.group, x, fb)]
    ensures Run(groups, map[], js').last == Run(groups, map[], js).last[x := job.day]
  {
    RunSnoc(groups, map[], js, job);
    StepFields(groups, map[], Run(groups, map[], js), job, x);
  }

  /** Day 1, group a, nobody of p, q, r scheduled yet: p. */
  lemma OverlapStep1(groups: map<GroupId, seq<Person>>, prev: seq<Job>, js: seq<Job>, a: GroupId, b: GroupId, p: Person, q: Person, r: Person)
    requires SharedMember(groups, a, b, p, q, r) && p != q && p != r && q != r
    requires Feasible(groups, prev) && js == prev + [Job(1, a)]
    requires var t := Run(groups, map[], prev); p !in t.last && q !in t.last && r !in t.last
    ensures Feasible(groups, js)
    ensures var t := Run(groups, map[], js);
      && t.slots == Run(groups, map[], prev).slots + [Slot(1, a, p, false)]
      && p in t.last && t.last[p] == 1 && q !in t.last && r !in t.last
  {
    var t := Run(groups, map[], prev);
    OverlapDay1a(groups[a], t.last, t.count, p, q);
    RunKnown(groups, prev, Job(1, a), js, p, false);
  }

  /** Day 1, group b, after p took a: r. */
  lemma OverlapStep2(groups: map<GroupId, seq<Person>>, prev: seq<Job>, js: seq<Job>, a: GroupId, b: GroupId, p: Person, q: Person, r: Person)
    requires SharedMember(groups, a, b, p, q, r) && p != q && p != r && q != r
    requires Feasible(groups, prev) && js == prev + [Job(1, b)]
    requires var t := Run(groups, map[], prev); p in t.last && t.last[p] == 1 && q !in t.last && r !in t.last
    ensures Feasible(groups, js)
    ensures var t := Run(groups, map[], js);
      && t.slots == Run(groups, map[], prev).slots + [Slot(1, b, r, false)]
      && p in t.last && t.last[p] == 1 && r in t.last && t.last[r] == 1 && q !in t.last
  {
    var t := Run(groups, map[], prev);
    OverlapDay1b(groups[b], t.last, t.count, p, r);
    RunKnown(groups, prev, Job(1, b), js, r, false);
  }

  /** Day 2, group a, with p and r on duty on day 1: q. */
  lemma OverlapStep3(groups: map<GroupId, seq<Person>>, prev: seq<Job>, js: seq<Job>, a: GroupId, b: GroupId, p: Person, q: Person, r: Person)
    requires SharedMember(groups, a, b, p, q, r) && p != q && p != r && q != r
    requires Feasible(groups, prev) && js == prev + [Job(2, a)]
    requires var t := Run(groups, map[], prev);
      p in t.last && t.last[p] == 1 && r in t.last && t.last[r] == 1 && q !in t.last
    ensures Feasible(groups, js)
    ensures var t := Run(groups, map[], js);
      && t.slots == Run(groups, map[], prev).slots + [Slot(2, a, q, false)]
      && p in t.last && t.last[p] == 1 && r in t.last && t.last[r] == 1
  {
    var t := Run(groups, map[], prev);
    OverlapDay2a(groups[a], t.last, t.count, p, q);
    RunKnown(groups, prev, Job(2, a), js, q, false);
  }

  /** Day 2, group b, with p and r on duty on day 1: the fallback, and p. */
  lemma OverlapStep4(groups: map<GroupId, seq<Person>>, prev: seq<Job>, js: seq<Job>, a: GroupId, b: GroupId, p: Person, q: Person, r: Person)
    requires SharedMember(groups, a, b, p, q, r) && p != r
    requires Feasible(groups, prev) && js == prev + [Job(2, b)]
    requires var t := Run(groups, map[], prev);
      p in t.last && t.last[p] == 1 && r in t.last && t.last[r] == 1
    ensures Feasible(groups, js)
    ensures Run(groups, map[], js).slots == Run(groups, map[], prev).slots + [Slot(2, b, p, true)]
  {
    var t := Run(groups, map[], prev);
    OverlapDay2b(groups[b], t.last, t.count, p, r);
    RunKnown(groups, prev, Job(2, b), js, p, true);
  }

  /** Two appends of one element are one append of two. */
  lemma AppendTwo<T>(s: seq<T>, x: T, y: T)
    ensures (s + [x]) + [y] == s + [x, y]
  {
  }

  /** Four elements are their first two followed by their last two. */
  lemma SplitFour<T>(s: seq<T>)
    requires |s| == 4
    ensures s[..2] == [] + [s[0], s[1]] && s == s[..2] + [s[2], s[3]]
    ensures ([] + [s[0], s[1]]) + [s[2], s[3]] == s
  {
  }

  /** Day 1 of groups a then b: p for a, r for b. */
  lemma OverlapFirstDay(groups: map<GroupId, seq<Person>>, prev: seq<Job>, js: seq<Job>, a: GroupId, b: GroupId, p: Person, q: Person, r: Person)
    requires SharedMember(groups, a, b, p, q, r) && p != q && p != r && q != r
    requires Feasible(groups, prev) && js == prev + [Job(1, a), Job(1, b)]
    requires var t := Run(groups, map[], prev); p !in t.last && q !in t.last && r !in t.last
    ensures Feasible(groups, js)
    ensures var t := Run(groups, map[], js);
      && t.slots == Run(groups, map[], prev).slots + [Slot(1, a, p, false), Slot(1, b, r, false)]
      && p in t.last && t.last[p] == 1 && r in t.last && t.last[r] == 1 && q !in t.last
  {
    var j1 := prev + [Job(1, a)];
    AppendTwo(prev, Job(1, a), Job(1, b));
    OverlapStep1(groups, prev, j1, a, b, p, q, r);
    OverlapStep2(groups, j1, js, a, b, p, q, r);
    AppendTwo(Run(groups, map[], prev).slots, Slot(1, a, p, false), Slot(1, b, r, false));
  }

  /** Day 2 of groups a then b, after p and r served on day 1: q for a, and b falls back
      to p. */
  lemma OverlapSecondDay(groups: map<GroupId, seq<Person>>, prev: seq<Job>, js: seq<Job>, a: GroupId, b: GroupId, p: Person, q: Person, r: Person)
    requires SharedMember(groups, a, b, p, q, r) && p != q && p != r && q != r
    requires Feasible(groups, prev) && js == prev + [Job(2, a), Job(2, b)]
    requires var t := Run(groups, map[], prev);
      p in t.last && t.last[p] == 1 && r in t.last && t.last[r] == 1 && q !in t.last
    ensures Feasible(groups, js)
    ensures Run(groups, map[], js).slots == Run(groups, map[], prev).slots + [Slot(2, a, q, false), Slot(2, b, p, true)]
  {
    var j3 := prev + [Job(2, a)];
    AppendTwo(prev, Job(2, a), Job(2, b));
    OverlapStep3(groups, prev, j3, a, b, p, q, r);
    OverlapStep4(groups, j3, js, a, b, p, q, r);
    AppendTwo(Run(groups, map[], prev).slots, Slot(2, a, q, false), Slot(2, b, p, true));
  }

  /** The first two days of a month whose groups a = [p, q] and b = [p, r] share p,
      without constraints: p takes a on day 1, r takes b, q takes a on day 2, and b falls
      back to p on day 2. */
  lemma OverlapRunStart(groups: map<GroupId, seq<Person>>, js: seq<Job>, a: GroupId, b: GroupId, p: Person, q: Person, r: Person)
    requires SharedMember(groups, a, b, p, q, r) && p != q && p != r && q != r
    requires |js| == 4 && js[0] == Job(1, a) && js[1] == Job(1, b) && js[2] == Job(2, a) && js[3] == Job(2, b)
    ensures Feasible(groups, js)
    ensures Run(groups, map[], js).slots
         == [Slot(1, a, p, false), Slot(1, b, r, false), Slot(2, a, q, false), Slot(2, b, p, true)]
  {
    var j2 := js[..2];
    SplitFour(js);
    var t0 := Run(groups, map[], []);
    assert t0.slots == [] && t0.last == map[];
    OverlapFirstDay(groups, [], j2, a, b, p, q, r);
    OverlapSecondDay(groups, j2, js, a, b, p, q, r);
    SplitFour([Slot(1, a, p, false), Slot(1, b, r, false), Slot(2, a, q, false), Slot(2, b, p, true)]);
  }

  /** The registry a = [p, q] then b = [p, r] passes the checks for a minimum of at most two. */
  lemma OverlapPrecheck(t: Groups, a: GroupId, b: GroupId, p: Person, q: Person, r: Person, minMembers: int)
    requires t == OrderedMap([a, b], map[a := [p, q], b := [p, r]])
    requires a != b && minMembers <= 2
    ensures t.Valid() && Precheck(t, minMembers).Pass? && SharedMember(t.entries, a, b, p, q, r)
  {
  }

  /** The jobs of the first two days for groups [a, b]. */
  lemma OverlapJobs(a: GroupId, b: GroupId)
    ensures var js := Jobs(2, [a, b]);
      |js| == 4 && js[0] == Job(1, a) && js[1] == Job(1, b) && js[2] == Job(2, a) && js[3] == Job(2, b)
  {
    assert Jobs(1, [a, b]) == [] + DayJobs(1, [a, b]);
    assert DayJobs(1, [a, b]) == [Job(1, a), Job(1, b)];
    assert DayJobs(2, [a, b]) == [Job(2, a), Job(2, b)];
  }

  /** The first and fourth slots of a run over n >= 2 days of groups a then b: p for a
      on day 1, p for b on day 2. */
  lemma OverlapRunSlots(groups: map<GroupId, seq<Person>>, n: nat, a: GroupId, b: GroupId, p: Person, q: Person, r: Person)
    requires SharedMember(groups, a, b, p, q, r) && p != q && p != r && q != r
    requires n >= 2 && Feasible(groups, Jobs(n, [a, b]))
    ensures var slots := Run(groups, map[], Jobs(n, [a, b])).slots;
      |slots| >= 4 && slots[0] == Slot(1, a, p, false) && slots[3] == Slot(2, b, p, true)
  {
    var jobs := Jobs(n, [a, b]);
    JobsPrefix(n, 2, [a, b]);
    OverlapJobs(a, b);
    var js := Jobs(2, [a, b]);
    assert jobs[..4] == js;
    OverlapRunStart(groups, js, a, b, p, q, r);
    RunPrefix(groups, map[], jobs, 4);
  }

  /** As written, the rotation does not keep its promise that nobody is on duty on two
      consecutive days once a person belongs to two groups: with a = [p, q] registered
      before b = [p, r] and no constraints, every month that passes the checks has p on
      duty on day 1 (for a) and on day 2 (for b). */
  lemma OverlapBackToBack(a: GroupId, b: GroupId, p: Person, q: Person, r: Person, minMembers: int, y: int, m: int)
    requires a != b && p != q && p != r && q != r && minMembers <= 2 && ValidYearMonth(y, m)
    ensures var t := OrderedMap([a, b], map[a := [p, q], b := [p, r]]);
      t.Valid() && Precheck(t, minMembers).Pass?
      && var res := MonthSchedule(t, Empty(), minMembers, y, m);
      && res.Success?
      && 1 in res.value && a in res.value[1] && res.value[1][a] == p
      && 2 in res.value && b in res.value[2] && res.value[2][b] == p
  {
    var t := OrderedMap([a, b], map[a := [p, q], b := [p, r]]);
    OverlapPrecheck(t, a, b, p, q, r, minMembers);
    MonthScheduleUnconstrained(t, minMembers, y, m);
    MonthRunIs(t, map[], minMembers, y, m);
    OverlapRunSlots(t.entries, DaysInMonth(y, m), a, b, p, q, r);
    MonthSlotEntry(t, map[], minMembers, y, m, 0);
    MonthSlotEntry(t, map[], minMembers, y, m, 3);
  }
}

=== FILE: schedule_queries.dfy ===
/** Read-only queries on a generated month schedule. */
module ScheduleQueries {
  import opened Registry
  import opened Rotation

  predicate Increasing(s: seq<nat>) {
    forall i, j :: 0 <= i < j < |s| ==> s[i] < s[j]
  }

  /** p holds some group's slot on day d. */
  predicate OnDuty(s: Schedule, d: nat, p: Person) {
    d in s && p in s[d].Values
  }

  /** Places d in an increasing sequence (`sorted` of a list of distinct days, one
      element at a time). */
  function Insert(s: seq<nat>, d: nat): (r: seq<nat>)
    requires Increasing(s)
    ensures Increasing(r)
    ensures forall x :: x in r <==> x in s || x == d
    decreases |s|
  {
    if s == [] then [d]
    else if d < s[0] then [d] + s
    else if d == s[0] then s
    else
      var rest := Insert(s[1..], d);
      HeadBelowTail(s);
      assert s == [s[0]] + s[1..];
      var r := [s[0]] + rest;
      assert forall k :: 0 < k < |r| ==> r[k] == rest[k - 1] && r[k] in rest;
      r
  }

  /** The first day of an increasing sequence is below all the others. */
  lemma HeadBelowTail(s: seq<nat>)
    requires Increasing(s) && s != []
    ensures forall x :: x in s[1..] ==> s[0] < x
  {
    forall x | x in s[1..] ensures s[0] < x {
      var k :| 0 <= k < |s[1..]| && s[1..][k] == x;
      assert s[k + 1] == x;
    }
  }

  /** `get_person_schedule`: the days on which p holds a slot, ascending. */
  method PersonDays(s: Schedule, p: Person) returns (r: seq<nat>)
    ensures Increasing(r)
    ensures forall d :: d in r <==> OnDuty(s, d, p)
  {
    r := [];
    var rest := s.Keys;
    while rest != {}
      invariant rest <= s.Keys
      invariant Increasing(r)
      invariant forall d :: d in r <==> OnDuty(s, d, p) && d !in rest
      decreases |rest|
    {
      var d :| d in rest;
      if p in s[d].Values {
        r := Insert(r, d);
      }
      rest := rest - {d};
    }
  }
}
